=== FILE: README.md ===
# Retail functions: entity mapping, member search, order reducer, file share

A Dafny model of the logic inside four Azure Functions handlers of the
retail back end and one helper of the MVC test page:

- **AddMember** maps a JSON object to a table entity. The keys come from
  `partitionKey` (default `"members"`) and `rowKey` (default a fresh
  identifier). Every other member is copied with a fixed scalar coercion,
  and the result is upserted in *replace* mode.
- **ListMembers** clamps `take`, escapes OData literals by doubling quotes,
  and builds the `PartitionKey eq …` filter. For a non-blank search it adds
  the Name/Email `[term, term + U+FFFF)` prefix ranges. It collects at most
  `take` rows from the store's pages and then keeps the items whose name or
  email contains the lower-cased search.
- **OrdersQueueTrigger** folds an order message into one row with *merge*
  upserts. The create branch writes status, total and creation time with
  defaults. The status branch writes only the status. The generic branch
  copies every member except `type`, `partitionKey` and `orderId`.
- **WriteFileShare / ListFileShare** normalise the `dir` query into
  directory segments. The writer guards a blank `filename`, creates the share
  and each directory, deletes, creates and uploads the file, and records the
  content type `GuessContentType` picks. The lister shows one directory.
- **Part2Controller.Truncate / FormatAsync** shorten a reply body for
  display.

The table store is a map from `(PartitionKey, RowKey)` to a property map,
with merge and replace upserts (module `TableStore`). The file share is a
map from share name to a set of directory paths and a map from file
location to bytes and content type (module `FileShare`). The store calls
are steps, and a `Fault` parameter says which call, if any, throws. The
fresh GUID and the two clock readings are parameters, and so are the
decimal and date parsers.

Module layout:

| module | file | contents |
|---|---|---|
| Wrappers | wrappers.dfy | `Option`, `Result` |
| Text | text.dfy | white space, trim, split and join, ASCII case mapping, ordinal order |
| Numerals | numerals.dfy | `int.TryParse` for 32-bit integers, decimal printing |
| Json | json.dfy | parsed JSON values, last-wins member lookup, `GetString`, `TryGetInt64` |
| TableStore | table_store.dfy | entities, keys, merge and replace upserts |
| Coercion | coercion.dfy | the member-to-property coercion shared by AddMember and the generic order branch |
| AddMember | add_member.dfy | the AddMember handler |
| Regrouping, MemberQuery | member_query.dfy | `Esc`, the filter text and tree, and its meaning on a row |
| ListMembers | list_members.dfy | take clamp, paging, projection, client-side refine, the handler |
| OrdersReducer | orders.dfy | the queue-triggered order reducer |
| ContentType | content_type.dfy | `Path.GetExtension` and `GuessContentType` |
| FileShare | file_share.dfy | `dir` normalisation, the share store, the writer and the lister |
| Display | display.dfy | `Truncate` and `FormatAsync` |

Where the code and the handlers' documented intent differ, the model
follows the code:

- A `rowKey` of `""` is kept. Only an absent or null member gets the
  fresh identifier.
- AddMember always upserts in replace mode.
- A malformed body is a 500, not a separate parse error.
- In the orders reducer, `"status": ""` is stored as `""`. Only an absent
  or null status becomes `"Pending"` or `"Unknown"`.
- `"type": null` gives a null type, which is neither "create" nor
  "status", so the message takes the generic branch.
- The generic branch writes its members into the same dictionary that holds
  the key properties. So members named `PartitionKey`, `RowKey`, `OrderId`
  or `UpdatedAt` (capitalised) replace the preset values, and a non-string
  key property makes the upsert throw.
- `JsonElement.ToString()` of a JSON null is `""`, so a null member is
  stored as the empty string.
- `dir` is trimmed of '/' before '\' becomes '/'. A back slash at either
  end therefore survives as a '/' in the echoed directory.

## Model

| member | source | states |
|---|---|---|
| Json.Find | AbcRetail.Functions/Functions/AddMemberFunction.cs:36-37 | `TryGetProperty` finds a member exactly when one has that name, and then the last one of that name |
| Json.StringOr | AbcRetail.Functions/Functions/AddMemberFunction.cs:36-37 | absent or null gives the fallback, a string gives itself, and any other kind throws (both directions) |
| Json.TryGetInt64 | AbcRetail.Functions/Functions/AddMemberFunction.cs:52 | succeeds exactly for a number with no fraction or exponent inside the 64-bit range, and yields its value |
| Coercion.Coerce | AbcRetail.Functions/Functions/AddMemberFunction.cs:49-56 | a string stays a string; a number becomes an int64 exactly when `TryGetInt64` succeeds, else a double; booleans stay booleans; null, arrays and objects become their text |
| Coercion.ScalarRoundTrip | AbcRetail.Functions/Functions/AddMemberFunction.cs:49-54 | a canonical string, number or boolean, stored and read back, is the member it came from |
| Coercion.NonScalarIsText | AbcRetail.Functions/Functions/AddMemberFunction.cs:55 | null, arrays and objects are stored as text and read back as a JSON string; null gives `""` |
| Coercion.MapMembers | AbcRetail.Functions/Functions/AddMemberFunction.cs:41-57 | the mapped fields are exactly the non-skipped member names, each holding the coercion of the last member of that name |
| TableStore.NewEntity | AbcRetail.Functions/Functions/AddMemberFunction.cs:39 | a new entity has the given key and an empty payload |
| TableStore.Payload | AbcRetail.Functions/Functions/AddMemberFunction.cs:60 | an upsert sends exactly the non-null, non-key properties with their values |
| TableStore.NewEntityWith | AbcRetail.Functions/Functions/AddMemberFunction.cs:39-57 | adding non-key properties to a new entity keeps its key and makes them its whole payload |
| TableStore.Upsert | AbcRetail.Functions/Functions/AddMemberFunction.cs:60 | only the written key changes; replace stores exactly the fields; merge keeps stored fields the update does not name |
| TableStore.MergeGet | AbcRetail.Functions/Functions/OrdersQueueTrigger.cs:61 | after a merge a property reads as the merged value if sent, else as it was before |
| TableStore.MergeIdempotent | AbcRetail.Functions/Functions/OrdersQueueTrigger.cs:88 | merging the same fields twice equals merging them once |
| AddMember.KeyNamesReserved | AbcRetail.Functions/Functions/AddMemberFunction.cs:46-47 | the stored key property names are themselves reserved, so no member can overwrite them |
| AddMember.Reserved | AbcRetail.Functions/Functions/AddMemberFunction.cs:46-47 | a member is skipped when its name equals `partitionKey` or `rowKey` ignoring case (a definition; its meaning is the lemma below) |
| AddMember.ReservedByLowerCase | AbcRetail.Functions/Functions/AddMemberFunction.cs:46-47 | a name is reserved exactly when it lower-cases to `partitionkey` or `rowkey`, so `PARTITIONKEY` and `RowKey` are skipped too |
| AddMember.Entity | AbcRetail.Functions/Functions/AddMemberFunction.cs:39-57 | the entity carries the given key and exactly the mapped non-reserved members |
| AddMember.Run | AbcRetail.Functions/Functions/AddMemberFunction.cs:28-79 | a table-creation failure is a 400 with the store's error; a non-object body is a 500; only success changes the table, and then it echoes the keys it used and is the replace upsert of the mapped members |
| AddMember.MissingKeysDefault | AbcRetail.Functions/Functions/AddMemberFunction.cs:36-37 | without key members the keys are `"members"` and the fresh identifier |
| AddMember.NullKeysDefault | AbcRetail.Functions/Functions/AddMemberFunction.cs:36-37 | null key members default as absent ones do |
| AddMember.ExplicitKeysUsed | AbcRetail.Functions/Functions/AddMemberFunction.cs:36-60 | string keys are used as given, and the stored row holds exactly the non-reserved member names |
| AddMember.EmptyRowKeyKept | AbcRetail.Functions/Functions/AddMemberFunction.cs:37 | an empty `rowKey` is used as the row key, not replaced |
| AddMember.CapitalisedKeyDropped | AbcRetail.Functions/Functions/AddMemberFunction.cs:36-47 | `"PartitionKey"` is neither the key nor a stored field |
| AddMember.NonStringKeyIsInternalError | AbcRetail.Functions/Functions/AddMemberFunction.cs:36-37 | a `partitionKey` or a `rowKey` member that is neither a string nor null makes the string read throw, answered by lines 73-78: 500 and the table unchanged |
| AddMember.UpsertFailureIsBadRequest | AbcRetail.Functions/Functions/AddMemberFunction.cs:66-71 | a refused upsert answers 400 with the store's code and message and changes nothing |
| AddMember.ReplaceDiscardsEarlierFields | AbcRetail.Functions/Functions/AddMemberFunction.cs:60 | a body whose two keys read as text is always written; stored fields the body does not name are gone, and every other row is untouched |
| Numerals.ParseInt32 | AbcRetail.Functions/Functions/ListMembersFunction.cs:28 | a parse succeeds only for a present string and yields a 32-bit value |
| Numerals.ParseShownInt32 | AbcRetail.Functions/Functions/ListMembersFunction.cs:28 | every 32-bit integer, printed in decimal, parses back to itself |
| ListMembers.ClampTake | AbcRetail.Functions/Functions/ListMembersFunction.cs:28 | the result lies in 1..500; it is the parsed value exactly when that lies in 1..500, else 100 |
| ListMembers.Partition | AbcRetail.Functions/Functions/ListMembersFunction.cs:26 | the partition is the `partition` parameter when given (even empty), else "members" |
| ListMembers.Search | AbcRetail.Functions/Functions/ListMembersFunction.cs:27 | the search is the raw `search` (or "") with only white space removed, and only at its two ends; it is blank exactly when the raw one is, and then it is empty |
| ListMembers.ShownTakeKept | AbcRetail.Functions/Functions/ListMembersFunction.cs:28 | a decimal `take` in 1..500 is used as given |
| ListMembers.ShownTakeOutOfRange | AbcRetail.Functions/Functions/ListMembersFunction.cs:28 | a decimal `take` below 1 or above 500 becomes 100 |
| MemberQuery.Esc | AbcRetail.Functions/Functions/ListMembersFunction.cs:35 | the escaped length is the input length plus its number of quotes |
| MemberQuery.EscAppend | AbcRetail.Functions/Functions/ListMembersFunction.cs:35 | escaping distributes over concatenation |
| MemberQuery.ReadEscaped | AbcRetail.Functions/Functions/ListMembersFunction.cs:35 | an OData reader that un-doubles quotes recovers the original term and the rest of the filter |
| MemberQuery.UpperBoundIsLowerPlusSentinel | AbcRetail.Functions/Functions/ListMembersFunction.cs:36-43 | `hi` is `lo` followed by U+FFFF |
| MemberQuery.FilterText | AbcRetail.Functions/Functions/ListMembersFunction.cs:38-40 | the filter starts with `PartitionKey eq '<Esc(partition)>'`, and a blank search adds nothing |
| MemberQuery.BuildFilter | AbcRetail.Functions/Functions/ListMembersFunction.cs:38-46 | the filter tree is the partition equality alone exactly when the search is blank; otherwise that equality and-ed with the Name range or the Email range (its meaning is `FilterSelects`) |
| MemberQuery.FilterTextRendersTree | AbcRetail.Functions/Functions/ListMembersFunction.cs:38-47 | the interpolated filter string is the rendering of the partition-and-(Name-or-Email-range) tree |
| MemberQuery.PrefixRangeIsStartsWith | AbcRetail.Functions/Functions/ListMembersFunction.cs:33-36 | for a string with every character below U+FFFF, `term <= s < term + U+FFFF` iff `term` is a prefix of `s` |
| MemberQuery.RangeSelectsPrefix | AbcRetail.Functions/Functions/ListMembersFunction.cs:46 | one range clause selects exactly the rows whose property starts with the term |
| MemberQuery.FilterSelects | AbcRetail.Functions/Functions/ListMembersFunction.cs:38-47 | the filter selects exactly the rows of the partition whose Name or Email starts with a non-blank search |
| ListMembers.Lookup | AbcRetail.Functions/Functions/ListMembersFunction.cs:60-61 | the value is present exactly when the row has the property; a string property is the string itself, any other kind its printed form |
| ListMembers.Project | AbcRetail.Functions/Functions/ListMembersFunction.cs:57-65 | id and rowKey are the row key, partitionKey and timestamp are the row's; Name and Email are present exactly when the row has them, and a string one is carried over as it is |
| ListMembers.ProjectAll | AbcRetail.Functions/Functions/ListMembersFunction.cs:55-65 | one item per row, in order |
| ListMembers.ChunkFlatten | AbcRetail.Functions/Functions/ListMembersFunction.cs:53 | cutting the rows into pages and reading the pages in turn gives back the rows |
| ListMembers.Collect | AbcRetail.Functions/Functions/ListMembersFunction.cs:53-69 | the paged loop with both breaks collects exactly the first `take` rows of the concatenated pages, projected |
| ListMembers.Select | AbcRetail.Functions/Functions/ListMembersFunction.cs:53 | the store returns exactly the rows the filter accepts, and no more rows than there are |
| ListMembers.TakenFromSelected | AbcRetail.Functions/Functions/ListMembersFunction.cs:53-69 | what is collected comes from rows the filter selected |
| ListMembers.SelectedInPartition | AbcRetail.Functions/Functions/ListMembersFunction.cs:38 | every selected row is in the requested partition |
| ListMembers.SelectedStartWith | AbcRetail.Functions/Functions/ListMembersFunction.cs:40-47 | every selected row is in the partition, and for a non-blank search its Name or Email starts with it |
| ListMembers.ClientMatch | AbcRetail.Functions/Functions/ListMembersFunction.cs:80-81 | an item matches when its name or its e-mail is present and its lower-cased form contains the needle; a missing one never matches (a definition; `RefineKeepsMatching` states what it means for the refined list) |
| ListMembers.Refine | AbcRetail.Functions/Functions/ListMembersFunction.cs:72-82 | the refined list is no longer than the collected one |
| ListMembers.RefineKeepsMatching | AbcRetail.Functions/Functions/ListMembersFunction.cs:74-81 | an item survives iff it was collected and its lower-cased name or email contains the lower-cased search |
| ListMembers.RefineAppend | AbcRetail.Functions/Functions/ListMembersFunction.cs:75-82 | refining a concatenation refines each part in order, so the order of the kept items is preserved |
| ListMembers.RefineIdempotent | AbcRetail.Functions/Functions/ListMembersFunction.cs:75-82 | refining twice equals refining once |
| ListMembers.CaseInsensitivePassCannotWiden | AbcRetail.Functions/Functions/ListMembersFunction.cs:44-45 | a row that the client-side pass would keep (Name "Wabo", search "wa") is never fetched, because the store's range is case-sensitive |
| ListMembers.Run | AbcRetail.Functions/Functions/ListMembersFunction.cs:25-95 | a table-creation failure escapes and a query failure is a 400; otherwise `count` equals the number of items, which is at most `take`; every item is from the partition and from a selected row; for a non-blank search every item matches it ignoring case; for a blank one the items are the first `take` selected rows; for a non-blank one they are exactly those rows, in order, that match the search ignoring case |
| Text.TrimmedBlankIsEmpty | AbcRetail.Functions/Functions/ListMembersFunction.cs:40 | a search is blank exactly when its trimmed form is empty |
| OrdersReducer.TypeOf | AbcRetail.Functions/Functions/OrdersQueueTrigger.cs:34 | an absent type is "create", a null type is null, a string type is lower-cased, and any other kind throws (and only that) |
| OrdersReducer.BranchOf | AbcRetail.Functions/Functions/OrdersQueueTrigger.cs:52-76 | "create" selects the create branch and "status" the status branch, each exactly; every other type, null included, falls to the generic merge |
| OrdersReducer.BranchSelection | AbcRetail.Functions/Functions/OrdersQueueTrigger.cs:34-67 | absent means create and null means generic; a string type picks create or status exactly when it equals that word ignoring case |
| OrdersReducer.StatusTyped | AbcRetail.Functions/Functions/OrdersQueueTrigger.cs:67 | `"type": "status"` takes the status branch |
| OrdersReducer.OrderIdOf | AbcRetail.Functions/Functions/OrdersQueueTrigger.cs:35-40 | a non-blank string order id is kept; any other result is the fresh id, which is never blank when the fresh id is not; a number, boolean, array or object throws (and only that) |
| OrdersReducer.BlankOrderIdIsFresh | AbcRetail.Functions/Functions/OrdersQueueTrigger.cs:35-40 | an absent, null or blank order id becomes the fresh id |
| OrdersReducer.SameOrder | AbcRetail.Functions/Functions/OrdersQueueTrigger.cs:35-43 | two messages with the same non-blank order id and partition member address the same row (RowKey is the order id) |
| OrdersReducer.Preset | AbcRetail.Functions/Functions/OrdersQueueTrigger.cs:45-49 | every branch starts from the key, OrderId and UpdatedAt = now, and nothing else |
| OrdersReducer.CustomerEntry | AbcRetail.Functions/Functions/OrdersQueueTrigger.cs:54 | CustomerId is set exactly when the member is present: to the string, or to null for a null member |
| OrdersReducer.TotalEntry | AbcRetail.Functions/Functions/OrdersQueueTrigger.cs:55 | Total is set exactly when the member is a number that parses as a decimal, to that decimal |
| OrdersReducer.CreatedAtValue | AbcRetail.Functions/Functions/OrdersQueueTrigger.cs:57-59 | an absent createdAt gives the second clock reading; a string gives its parsed date, or the second reading when it does not parse; any other kind, and only that, throws |
| OrdersReducer.CreateEntries | AbcRetail.Functions/Functions/OrdersQueueTrigger.cs:54-59 | create adds Status (given or "Pending") and CreatedAt (parsed or the second clock reading), Total only when it parses, CustomerId when present, and nothing else |
| OrdersReducer.StatusEntries | AbcRetail.Functions/Functions/OrdersQueueTrigger.cs:69 | status adds exactly Status, and succeeds exactly when the status member is a string, null or absent |
| OrdersReducer.Entity | AbcRetail.Functions/Functions/OrdersQueueTrigger.cs:45-87 | create and status entities keep the preset key; the generic branch never throws while building |
| OrdersReducer.Plan | AbcRetail.Functions/Functions/OrdersQueueTrigger.cs:31-87 | a successful plan takes the branch of the lower-cased type and the entity of that branch, with key (partition or "orders", order id) outside the generic branch |
| OrdersReducer.Run | AbcRetail.Functions/Functions/OrdersQueueTrigger.cs:26-90 | a thrown message changes nothing; malformed and non-object messages throw; a handled one took its type's branch and is the merge upsert of its plan's payload |
| OrdersReducer.WellTypedPlans | AbcRetail.Functions/Functions/OrdersQueueTrigger.cs:34-86 | a message whose members have the kinds the accessors expect never makes one throw |
| OrdersReducer.RunIsMerge | AbcRetail.Functions/Functions/OrdersQueueTrigger.cs:45-88 | a planned message whose key properties are strings is exactly one merge upsert; otherwise it throws and changes nothing |
| OrdersReducer.CreatePayload | AbcRetail.Functions/Functions/OrdersQueueTrigger.cs:45-61 | a create upsert sends OrderId, UpdatedAt = now, Status (or "Pending"), CreatedAt = the parsed `createdAt` string, or the second reading when it is absent or does not parse, Total exactly when it parses, CustomerId exactly when it is a string, and nothing else |
| OrdersReducer.CreateOptionalFields | AbcRetail.Functions/Functions/OrdersQueueTrigger.cs:53-54 | the create payload has Total exactly when the total parses as a decimal, CustomerId exactly when it is a string (a null one is dropped by the store), and no field beyond the six the branch writes |
| OrdersReducer.CreateEntityPayload | AbcRetail.Functions/Functions/OrdersQueueTrigger.cs:45-59 | the same facts about the create entity for any key, CreatedAt included in all three of its cases |
| OrdersReducer.CreateDefaultsPlan | AbcRetail.Functions/Functions/OrdersQueueTrigger.cs:52-59 | a create message (type absent or "create" in any case) without status and createdAt plans the key and the four defaulted fields |
| OrdersReducer.CreateDefaults | AbcRetail.Functions/Functions/OrdersQueueTrigger.cs:52-61 | such a message stores Status "Pending", OrderId, UpdatedAt = now and CreatedAt = second reading |
| OrdersReducer.CreateStoresTotal | AbcRetail.Functions/Functions/OrdersQueueTrigger.cs:55 | for a create message (type absent or "create" in any case), a total that parses is stored as that decimal |
| OrdersReducer.StatusPayload | AbcRetail.Functions/Functions/OrdersQueueTrigger.cs:67-70 | a status upsert sends exactly OrderId, UpdatedAt and Status (given or "Unknown") |
| OrdersReducer.StatusUpdateKeepsOtherFields | AbcRetail.Functions/Functions/OrdersQueueTrigger.cs:67-70 | a status update sets Status, leaves every other stored field, and adds no field beyond the three it sends |
| OrdersReducer.StatusKeepsTotal | AbcRetail.Functions/Functions/OrdersQueueTrigger.cs:67-70 | a status message (type "status" in any case) keeps a stored Total and sets Status |
| OrdersReducer.CreateThenStatus | AbcRetail.Functions/Functions/OrdersQueueTrigger.cs:52-72 | a create then a status message (either type in any case, create also untyped) for one order leave Total from the create and Status from the update |
| OrdersReducer.ShippedExample | AbcRetail.Functions/Functions/OrdersQueueTrigger.cs:52-72 | `{"type":"create","orderId":id,"total":10.50}` then `{"type":"status","orderId":id,"status":"Shipped"}` leave the row ("orders", id) with Status "Shipped" and Total 10.50 |
| OrdersReducer.ReplayedCreateResetsStatus | AbcRetail.Functions/Functions/OrdersQueueTrigger.cs:56 | a create after a status update puts Status back to "Pending" |
| OrdersReducer.ReplayIsIdempotent | AbcRetail.Functions/Functions/OrdersQueueTrigger.cs:45-88 | delivering any message twice (same clock and id) gives the same table and status as once, whether it was written or threw |
| OrdersReducer.GenericEntity | AbcRetail.Functions/Functions/OrdersQueueTrigger.cs:76-87 | outside the key names, the generic payload holds exactly OrderId, UpdatedAt and every member but type, partitionKey and orderId; a copied member has its coerced value, and OrderId and UpdatedAt keep their preset values unless a member of that name replaces them |
| OrdersReducer.Skipped | AbcRetail.Functions/Functions/OrdersQueueTrigger.cs:78 | the generic merge skips `type`, `partitionKey` and `orderId` by exact, case-sensitive name (a definition; `GenericEntity` states its effect) |
| OrdersReducer.KeyMembersMapped | AbcRetail.Functions/Functions/OrdersQueueTrigger.cs:78 | the exact-case skip lets `PartitionKey` and `RowKey` members through, coerced |
| OrdersReducer.GenericRowKey | AbcRetail.Functions/Functions/OrdersQueueTrigger.cs:76-87 | a `RowKey` member becomes the entity's row key when it is a string and breaks the key otherwise |
| OrdersReducer.GenericRowKeyOverride | AbcRetail.Functions/Functions/OrdersQueueTrigger.cs:76-88 | a well-typed generic message with a string `RowKey` is written under that row, not the order id; any other kind throws and changes nothing |
| ContentType.Extension | AbcRetail.Functions/Functions/WriteFileShareFunction.cs:152 | the extension is empty or a dot and at least one more character, a suffix of the name, with no dot or separator after its dot |
| ContentType.ExtensionOfDottedName | AbcRetail.Functions/Functions/WriteFileShareFunction.cs:152 | for `stem + "." + suffix` with a plain suffix, the extension is `"." + suffix` |
| ContentType.NoExtensionIsOctetStream | AbcRetail.Functions/Functions/WriteFileShareFunction.cs:166 | a name with no dot or ending in a dot has no extension and is an octet stream |
| ContentType.MimeType | AbcRetail.Functions/Functions/WriteFileShareFunction.cs:153-167 | the switch never yields an empty type |
| ContentType.GuessContentType | AbcRetail.Functions/Functions/WriteFileShareFunction.cs:150-168 | never empty, so the writer always sets the header (lines 66-67) |
| ContentType.OctetStreamIsDefault | AbcRetail.Functions/Functions/WriteFileShareFunction.cs:153-166 | the type is `application/octet-stream` iff the lower-cased extension is none of the twelve listed |
| ContentType.JpegSpellings | AbcRetail.Functions/Functions/WriteFileShareFunction.cs:163 | the type is `image/jpeg` iff the lower-cased extension is ".jpg" or ".jpeg" |
| ContentType.ExtensionLower | AbcRetail.Functions/Functions/WriteFileShareFunction.cs:152 | the extension of the lower-cased name is the lower-cased extension |
| ContentType.ContentTypeIgnoresCase | AbcRetail.Functions/Functions/WriteFileShareFunction.cs:152 | names equal ignoring case (".PDF" and ".pdf") get the same type |
| FileShare.DirPath | AbcRetail.Functions/Functions/WriteFileShareFunction.cs:32 | the normalised directory has no back slash |
| FileShare.ShareName | AbcRetail.Functions/Functions/WriteFileShareFunction.cs:31 | the share is the `share` parameter when given, else the configured "docs"; the lister reads it the same way (line 106) |
| FileShare.Segments | AbcRetail.Functions/Functions/WriteFileShareFunction.cs:44 | segments are non-empty, slash-free, and made of characters of the path |
| FileShare.SegmentsAreClean | AbcRetail.Functions/Functions/WriteFileShareFunction.cs:32-44 | whatever `dir` is, every walked segment is non-empty and free of both slashes |
| FileShare.CanonicalDirRoundTrip | AbcRetail.Functions/Functions/WriteFileShareFunction.cs:32-44 | a canonical path normalises to itself and splits back into the segments it was joined from |
| FileShare.BackslashEndsSurvive | AbcRetail.Functions/Functions/WriteFileShareFunction.cs:32 | `dir = "\a\"` is echoed as `"/a/"` and walks the single segment "a" |
| FileShare.Write | AbcRetail.Functions/Functions/WriteFileShareFunction.cs:28-97 | a blank or missing filename is a 400 with nothing touched; a success is 200 and echoes share, directory, file name and address; other shares never change (the throwing paths are stated by `WriteFaultNotWritten`, `WriteFaultAnswersFailure` and `WriteEmptyBody`) |
| FileShare.WriteAt | AbcRetail.Functions/Functions/WriteFileShareFunction.cs:39-86 | after the share exists, a success echoes the share, directory and file address, and no other share changes |
| FileShare.List | AbcRetail.Functions/Functions/WriteFileShareFunction.cs:102-129 | a listing is produced iff the share and the walked directory exist, and it echoes the share and the normalised directory |
| FileShare.ApplyDirs | AbcRetail.Functions/Functions/WriteFileShareFunction.cs:42-50 | creating the directories one segment at a time adds every prefix of the path |
| FileShare.DirSteps | AbcRetail.Functions/Functions/WriteFileShareFunction.cs:45-49 | one create-if-missing call per segment, the k-th creating the path of the first k+1 segments |
| FileShare.FileSteps | AbcRetail.Functions/Functions/WriteFileShareFunction.cs:57-77 | every file call targets the one file: delete, create at the body's size, upload the body, and a fourth call setting the guessed type exactly when that type is not empty |
| FileShare.Store | AbcRetail.Functions/Functions/WriteFileShareFunction.cs:42-77 | the directory calls followed by the file calls, run until the first refusal (a definition; `StoreStores` states its result) |
| FileShare.ApplyFile | AbcRetail.Functions/Functions/WriteFileShareFunction.cs:57-77 | for a non-empty body, delete, create, upload and set-type leave the body and its guessed type at the location, and nothing else changes |
| FileShare.StoreStores | AbcRetail.Functions/Functions/WriteFileShareFunction.cs:42-77 | with nothing refused and a non-empty body, the calls add the directory path and store the file |
| FileShare.WriteStores | AbcRetail.Functions/Functions/WriteFileShareFunction.cs:28-86 | a write of a non-empty body that nothing refuses replaces exactly that share by its stored form and answers `Written` |
| FileShare.ApplyPreserves | AbcRetail.Functions/Functions/WriteFileShareFunction.cs:39-77 | however far the store calls get, every directory's parent exists and every file sits in an existing directory |
| FileShare.WritePreservesWellFormed | AbcRetail.Functions/Functions/WriteFileShareFunction.cs:28-97 | a write, failing anywhere or not, keeps every share well-formed |
| FileShare.WriteIsIdempotent | AbcRetail.Functions/Functions/WriteFileShareFunction.cs:57-63 | writing the same file twice leaves the same service and response as once, the empty body included |
| FileShare.WriteThenList | AbcRetail.Functions/Functions/WriteFileShareFunction.cs:117-126 | after a write of a non-empty body, listing the same `dir` shows the file once, with the address the write returned |
| FileShare.ListingShowsFile | AbcRetail.Functions/Functions/WriteFileShareFunction.cs:117-126 | a stored file is listed under its name, and no other file of that name is in its directory |
| FileShare.Listing | AbcRetail.Functions/Functions/WriteFileShareFunction.cs:118-126 | every file of the directory is listed with its address, every direct subdirectory without one; an entry is a directory exactly when it has no address, and each names an existing subdirectory or file of that directory |
| FileShare.FailedCreateLosesOldFile | AbcRetail.Functions/Functions/WriteFileShareFunction.cs:58-59 | a store that throws at `CreateAsync` leaves the new directories and no file: the one being replaced is already deleted |
| FileShare.ApplyFaultFails | AbcRetail.Functions/Functions/WriteFileShareFunction.cs:39-77 | a throw at any call of a run of store calls stops the run with a failure |
| FileShare.ApplyFaultIsThrown | AbcRetail.Functions/Functions/WriteFileShareFunction.cs:39-77 | when no call of the run is refused, a throw at any of them is the failure the run reports |
| FileShare.StoreFaultFails | AbcRetail.Functions/Functions/WriteFileShareFunction.cs:42-77 | a throw at any directory or file call makes the store report a failure |
| FileShare.StoreFaultIsThrown | AbcRetail.Functions/Functions/WriteFileShareFunction.cs:42-77 | with the root present and a non-empty body, that failure is the one thrown |
| FileShare.WriteFaultNotWritten | AbcRetail.Functions/Functions/WriteFileShareFunction.cs:39-97 | a throw at any of the writer's calls, from the share create to the last file call, never answers `Written` and never 200 |
| FileShare.WriteFaultAnswersFailure | AbcRetail.Functions/Functions/WriteFileShareFunction.cs:88-97 | in a well-formed service with a non-empty body, a throw at any of those calls is exactly the failure the response carries, which `FailureStatus` maps to 400 or 500 |
| FileShare.ShareCreateFails | AbcRetail.Functions/Functions/WriteFileShareFunction.cs:39-40 | a throw at the share create answers that failure and leaves the service unchanged |
| FileShare.WriteEmptyBody | AbcRetail.Functions/Functions/WriteFileShareFunction.cs:53-63 | an empty body deletes the old file and creates an empty one, then the empty byte range throws before the upload: 500 with that message |
| FileShare.StoreEmptyBody | AbcRetail.Functions/Functions/WriteFileShareFunction.cs:42-63 | for an empty body the store calls create the directories, leave an empty file at the location, and stop at the byte range |
| FileShare.WriteAtEmptyIdempotent | AbcRetail.Functions/Functions/WriteFileShareFunction.cs:53-63 | repeating an empty-body write gives the same service and response |
| FileShare.FailureStatus | AbcRetail.Functions/Functions/WriteFileShareFunction.cs:88-97 | a refusal answers 400 with the store's error code, anything else 500 |
| Display.Truncate | FitHub.Web/Controllers/Part2Controller.cs:86-87 | null or empty gives ""; a string that fits is returned unchanged; a longer one gives `len + 3` characters ending in "..."; only a negative length with a non-empty string throws |
| Display.TruncateBounds | FitHub.Web/Controllers/Part2Controller.cs:86-87 | the result is at most `len + 3` long and begins with the first min(len, length of s) characters of s |
| Display.TruncateEmptyOnlyForEmpty | FitHub.Web/Controllers/Part2Controller.cs:86-87 | the result is empty iff the input is |
| Display.TruncateIdempotent | FitHub.Web/Controllers/Part2Controller.cs:86-87 | truncating an already truncated string to the same length changes nothing |
| Display.Format | FitHub.Web/Controllers/Part2Controller.cs:80-84 | the summary starts with the status code, a space, the reason phrase and the " | " separator, and is at most 303 characters longer than that head |
| Display.FormatShowsBody | FitHub.Web/Controllers/Part2Controller.cs:83 | after the separator comes the body when it fits in 300 characters, else its first 300 and "..." |

## Left out

- Storage SDK calls are a map-based table and a map-based share. Paging is
  a parameter: the sequence of pages the store returns. `Timestamp`, ETags
  and concurrency are not modelled.
- Azure Files compares names ignoring case. The model compares them exactly.
  A file and a directory of the same name, and the store's own name rules,
  are not modelled.
- The content of an upload is the body; the stream positions are not
  modelled. The message of the exception the empty byte range throws is
  taken to be .NET's standard out-of-range text for the `length` parameter. URLs are `FileUrl(share,
  location)` rather than text.
- The order of a directory listing is the service's; the listing is a set.
- `GetDouble` values are kept as the JSON number literal. Floating point
  is out of scope.
- `decimal.TryParse` and `DateTime.TryParse` are parameters of the order
  reducer, and so is how `ToString()` prints a non-string property in a
  member listing.
- `ToLowerInvariant` and `OrdinalIgnoreCase` are ASCII-only. Strings are
  sequences of code points, so the ordinal order agrees with UTF-16 only
  inside the Basic Multilingual Plane.
- Display.Truncate, Display.Format, MemberQuery.Esc: lengths count code
  points, while `Length` and `Substring` count UTF-16 code units. Outside
  the Basic Multilingual Plane they differ: for "😀😀" and a length of 2 the
  page shows "😀..." where the model keeps "😀😀", and a length of 1 cuts a
  surrogate pair in half. The length laws hold as stated for text inside
  that plane.
- `int.TryParse` accepts the invariant-culture integer style: white space,
  one sign and digits. Trailing NUL characters and culture-specific signs
  are not modelled.
- `new DateTimeOffset(dt, TimeSpan.Zero)` throws for a local-kind date; the
  parsed instant is used as is.
- `Path.GetExtension` treats both '/' and '\' as separators, as on a Windows
  host; on Linux only '/' ends a path component.
- Logging, the HTTP request and response objects, and the MVC views and
  redirects are not modelled. Only status codes and payload values are.
- Queue retries and poison-message handling around the order reducer are
  the host's; a thrown message is `Thrown` and leaves the table unchanged.
- EnqueueFunction, UploadBlobFunction, the CRUD controllers, the HTTP
  client and the configuration code hold no logic beyond single defaults.
- Numerals.ParseInt32: states the 32-bit range of a result and that only a
  present string can parse, not every rejected form; the digits-and-sign
  form is pinned down by ParseShownInt32 on printed integers.
- ListMembers.Refine: its contract states only the length bound; membership
  and order are in RefineKeepsMatching and RefineAppend.

=== FILE: add_member.dfy ===
/**
 * `POST AddMember`: maps a JSON object onto one entity of the members table
 * and writes it with replace semantics.
 *
 * The key comes from the exact-named members `partitionKey` and `rowKey`
 * (defaults: "members" and a fresh identifier); every other member becomes a
 * property through the coercion rule, except members whose names equal either
 * key name ignoring case. The fresh identifier (`Guid.NewGuid()`) is a
 * parameter.
 */
module AddMember {
  import opened Wrappers
  import Text
  import Json
  import opened TableStore
  import Coercion

  const TableName: string := "customerproductdata"
  const DefaultPartition: string := "members"

  /** Where, if anywhere, the store refuses the request. */
  datatype Fault =
    | NoFault
    | FailsOnCreate(e: StoreError)   // `CreateIfNotExistsAsync` throws
    | FailsOnUpsert(e: StoreError)   // `UpsertEntityAsync` throws

  /** The JSON payload of the HTTP response. */
  datatype Response =
    | Added(table: string, partitionKey: string, rowKey: string)
    | StoreRejected(azureError: string, message: string)
    | InternalError

  function StatusCode(r: Response): int {
    match r
    case Added(_, _, _) => 200
    case StoreRejected(_, _) => 400
    case InternalError => 500
  }

  datatype Outcome = Outcome(response: Response, table: Table)

  /** The members that never become properties. */
  predicate Reserved(name: string) {
    Text.EqualsIgnoreCase(name, "partitionKey") || Text.EqualsIgnoreCase(name, "rowKey")
  }

  /** Reserved names are exactly those that lower-case to `partitionkey` or `rowkey`. */
  lemma ReservedByLowerCase(name: string)
    ensures Reserved(name) <==> Text.Lower(name) == "partitionkey" || Text.Lower(name) == "rowkey"
  {
    Text.EqualsIgnoreCaseLower(name, "partitionKey");
    Text.EqualsIgnoreCaseLower(name, "rowKey");
    assert Text.Lower("partitionKey") == "partitionkey";
    assert Text.Lower("rowKey") == "rowkey";
  }

  /** The key properties themselves count as reserved, whatever the case of the member name. */
  lemma KeyNamesReserved()
    ensures Reserved(PartitionKeyName) && Reserved(RowKeyName)
  {
    assert Text.EqualsIgnoreCase(PartitionKeyName, "partitionKey") by {
      assert PartitionKeyName == "PartitionKey";
      assert UpperAt(PartitionKeyName, 0) == UpperAt("partitionKey", 0);
    }
    assert Text.EqualsIgnoreCase(RowKeyName, "rowKey") by {
      assert RowKeyName == "RowKey";
      assert UpperAt(RowKeyName, 0) == UpperAt("rowKey", 0);
    }
  }

  function UpperAt(s: string, i: nat): char
    requires i < |s|
  {
    Text.UpperChar(s[i])
  }

  /** The entity the handler builds: the two keys plus every non-reserved member. */
  function Entity(ms: seq<Json.Member>, pk: string, rk: string): (e: Bag)
    ensures KeyOf(e) == Some(Key(pk, rk))
    ensures Payload(e) == Coercion.MapMembers(ms, Reserved)
  {
    var fields := Coercion.MapMembers(ms, Reserved);
    KeyNamesReserved();
    NewEntityWith(pk, rk, fields);
    NewEntity(pk, rk) + Lift(fields)
  }

  /** The handler, from request body and store state to response and new store state. */
  function Run(t: Table, body: Json.Body, freshId: string, fault: Fault): (o: Outcome)
    ensures fault.FailsOnCreate? ==> o == Outcome(StoreRejected(fault.e.code, fault.e.message), t)
    ensures !fault.FailsOnCreate? && !body.Object? ==> o == Outcome(InternalError, t)
    ensures !o.response.Added? ==> o.table == t
    ensures o.response.Added? ==>
              && body.Object? && fault.NoFault?
              && o.response.table == TableName
              && Json.StringOr(body.members, "partitionKey", DefaultPartition) == Success(o.response.partitionKey)
              && Json.StringOr(body.members, "rowKey", freshId) == Success(o.response.rowKey)
              && o.table == Upsert(t, Key(o.response.partitionKey, o.response.rowKey),
                                   Coercion.MapMembers(body.members, Reserved), Replace)
  {
    if fault.FailsOnCreate? then Outcome(StoreRejected(fault.e.code, fault.e.message), t)
    else if !body.Object? then Outcome(InternalError, t)
    else
      var ms := body.members;
      match Json.StringOr(ms, "partitionKey", DefaultPartition)
      case Failure(_) => Outcome(InternalError, t)
      case Success(pk) =>
        match Json.StringOr(ms, "rowKey", freshId)
        case Failure(_) => Outcome(InternalError, t)
        case Success(rk) =>
          var e := Entity(ms, pk, rk);
          if fault.FailsOnUpsert? then Outcome(StoreRejected(fault.e.code, fault.e.message), t)
          else Outcome(Added(TableName, pk, rk), Upsert(t, KeyOf(e).value, Payload(e), Replace))
  }

  /** With neither key member present, the record goes to "members" under the fresh identifier. */
  lemma MissingKeysDefault(t: Table, ms: seq<Json.Member>, freshId: string)
    requires forall i :: 0 <= i < |ms| ==> ms[i].name != "partitionKey" && ms[i].name != "rowKey"
    ensures Run(t, Json.Object(ms), freshId, NoFault).response == Added(TableName, DefaultPartition, freshId)
  {
  }

  /** A `null` key member counts as absent. */
  lemma NullKeysDefault(t: Table, ms: seq<Json.Member>, freshId: string)
    requires Json.Find(ms, "partitionKey") == Some(Json.JNull)
    requires Json.Find(ms, "rowKey") == Some(Json.JNull)
    ensures Run(t, Json.Object(ms), freshId, NoFault).response == Added(TableName, DefaultPartition, freshId)
  {
  }

  /**
   * String key members are used verbatim, the empty string included, and the
   * record stored under them holds exactly the non-reserved members.
   */
  lemma ExplicitKeysUsed(t: Table, ms: seq<Json.Member>, freshId: string, pk: string, rk: string)
    requires Json.Find(ms, "partitionKey") == Some(Json.JString(pk))
    requires Json.Find(ms, "rowKey") == Some(Json.JString(rk))
    ensures var o := Run(t, Json.Object(ms), freshId, NoFault);
            && o.response == Added(TableName, pk, rk)
            && Key(pk, rk) in o.table
            && (forall n :: n in o.table[Key(pk, rk)] <==> !Reserved(n) && Json.Has(ms, n))
  {
    var o := Run(t, Json.Object(ms), freshId, NoFault);
    var f := Coercion.MapMembers(ms, Reserved);
    assert o.table[Key(pk, rk)] == f;
    forall n ensures n in f <==> !Reserved(n) && Json.Has(ms, n) {
      if Json.Has(ms, n) {
        var i :| 0 <= i < |ms| && ms[i].name == n;
        assert Json.Find(ms, n).Some?;
      }
    }
  }

  /** An empty `rowKey` is kept, not replaced by a fresh identifier. */
  lemma EmptyRowKeyKept(t: Table, freshId: string)
    requires freshId != ""
    ensures Run(t, Json.Object([Json.Member("rowKey", Json.JString(""))]), freshId, NoFault).response
            == Added(TableName, DefaultPartition, "")
  {
  }

  /**
   * `"PartitionKey": "x"` is dropped as a property (it equals the reserved name
   * ignoring case) yet not used as the key (the key lookup is case-sensitive).
   */
  lemma CapitalisedKeyDropped(t: Table, freshId: string, x: string)
    ensures var o := Run(t, Json.Object([Json.Member("PartitionKey", Json.JString(x))]), freshId, NoFault);
            && o.response == Added(TableName, DefaultPartition, freshId)
            && o.table[Key(DefaultPartition, freshId)] == map[]
  {
    KeyNamesReserved();
  }

  /**
   * A key member, `partitionKey` or `rowKey`, of a kind other than string or
   * null makes the string read throw: 500, nothing written.
   */
  lemma NonStringKeyIsInternalError(t: Table, ms: seq<Json.Member>, freshId: string, fault: Fault)
    requires !fault.FailsOnCreate?
    requires || (var v := Json.Find(ms, "partitionKey"); v.Some? && !v.value.JString? && !v.value.JNull?)
             || (var v := Json.Find(ms, "rowKey"); v.Some? && !v.value.JString? && !v.value.JNull?)
    ensures Run(t, Json.Object(ms), freshId, fault) == Outcome(InternalError, t)
    ensures StatusCode(Run(t, Json.Object(ms), freshId, fault).response) == 500
  {
  }

  /** A refused upsert answers 400 with the store's error code and leaves the table as it was. */
  lemma UpsertFailureIsBadRequest(t: Table, ms: seq<Json.Member>, freshId: string, e: StoreError)
    requires Json.StringOr(ms, "partitionKey", DefaultPartition).Success?
    requires Json.StringOr(ms, "rowKey", freshId).Success?
    ensures Run(t, Json.Object(ms), freshId, FailsOnUpsert(e)) == Outcome(StoreRejected(e.code, e.message), t)
    ensures StatusCode(Run(t, Json.Object(ms), freshId, FailsOnUpsert(e)).response) == 400
  {
  }

  /**
   * Replace semantics: after a successful call the record under the echoed key
   * holds no property of its earlier version that the body does not carry, and
   * every other record is untouched.
   */
  lemma ReplaceDiscardsEarlierFields(t: Table, ms: seq<Json.Member>, freshId: string)
    requires Json.StringOr(ms, "partitionKey", DefaultPartition).Success?
    requires Json.StringOr(ms, "rowKey", freshId).Success?
    ensures var o := Run(t, Json.Object(ms), freshId, NoFault);
            var key := Key(o.response.partitionKey, o.response.rowKey);
            && o.response.Added?
            && key in o.table
            && (forall n :: key in t && n in t[key] && !Json.Has(ms, n) ==> n !in o.table[key])
            && (forall k :: k in t && k != key ==> o.table[k] == t[k])
  {
  }
}

=== FILE: coercion.dfy ===
/**
 * The scalar-coercion rule shared by the member mapper and the generic order
 * branch, and the fold that copies the members of a JSON object into a
 * property map through it.
 */
module Coercion {
  import opened Wrappers
  import Json
  import opened TableStore

  /**
   * `ValueKind switch`: string as string, an integral number that fits 64 bits
   * as `long`, any other number as `double`, booleans as `bool`, and every
   * other kind as the element's `ToString()` text.
   */
  function Coerce(v: Json.JsonValue): (r: Value)
    ensures v.JString? ==> r.VString?
    ensures v.JNumber? ==> (r.VInt64? <==> Json.TryGetInt64(v.n).Some?)
    ensures v.JNumber? ==> r.VInt64? || r.VDouble?
    ensures v.JTrue? || v.JFalse? ==> r.VBool?
    ensures v.JNull? || v.JArray? || v.JObject? ==> r == VString(Json.FallbackText(v))
  {
    match v
    case JString(s) => VString(s)
    case JNumber(n) =>
      (match Json.TryGetInt64(n)
       case Some(l) => VInt64(l)
       case None => VDouble(n))
    case JTrue => VBool(true)
    case JFalse => VBool(false)
    case _ => VString(Json.FallbackText(v))
  }

  /** A scalar JSON value, and not the literal `-0` (which reads back as `0`). */
  predicate CanonicalScalar(v: Json.JsonValue) {
    match v
    case JString(_) => true
    case JNumber(n) => !(n.negative && n.integral == 0 && n.fraction == [] && n.exponent.None?)
    case JTrue => true
    case JFalse => true
    case _ => false
  }

  /** How a stored string, integer, double or boolean is written back out as JSON. */
  function ReadBack(x: Value): Option<Json.JsonValue> {
    match x
    case VString(s) => Some(Json.JString(s))
    case VInt64(i) => Some(Json.JNumber(Json.Number(i < 0, if i < 0 then -(i as int) else i as int, [], None)))
    case VDouble(n) => Some(Json.JNumber(n))
    case VBool(b) => Some(if b then Json.JTrue else Json.JFalse)
    case VDecimal(_) => None
    case VTime(_) => None
  }

  /** String, number and boolean members survive storing and reading back; integral numbers come back as integers. */
  lemma ScalarRoundTrip(v: Json.JsonValue)
    requires CanonicalScalar(v)
    ensures ReadBack(Coerce(v)) == Some(v)
  {
  }

  /** Arrays, objects and nulls lose their kind: they are stored as text. */
  lemma NonScalarIsText(v: Json.JsonValue)
    requires v.JArray? || v.JObject? || v.JNull?
    ensures Coerce(v).VString? && ReadBack(Coerce(v)) == Some(Json.JString(Json.FallbackText(v)))
    ensures v.JNull? ==> Coerce(v) == VString("")
  {
  }

  /**
   * The loop over the body's members: in document order,
   * every member whose name `skip` does not reject is assigned, so a later
   * member with the same name overwrites an earlier one.
   */
  function MapMembers(ms: seq<Json.Member>, skip: string -> bool): (f: Fields)
    ensures forall n :: n in f <==> !skip(n) && Json.Find(ms, n).Some?
    ensures forall n :: n in f ==> f[n] == Coerce(Json.Find(ms, n).value)
  {
    if |ms| == 0 then map[]
    else
      var m := ms[|ms| - 1];
      var before := MapMembers(ms[..|ms| - 1], skip);
      if skip(m.name) then before else before[m.name := Coerce(m.value)]
  }
}

=== FILE: content_type.dfy ===
/**
 * `GuessContentType`: the MIME type the file-share writer records for an
 * uploaded file, chosen from the file name's extension ignoring case.
 *
 * The extension is `Path.GetExtension`: the text from the last '.' of the
 * last path component to the end, or empty when the component has no '.'
 * or ends in one. Both '/' and '\' end a component, as on a Windows host.
 */
module ContentType {
  import opened Wrappers
  import Text

  const OctetStream: string := "application/octet-stream"

  predicate IsSeparator(c: char) {
    c == '/' || c == '\\'
  }

  /** The last '.' before index `i` that no separator follows, scanning backwards as `GetExtension` does. */
  function LastDot(name: string, i: nat): (r: Option<nat>)
    requires i <= |name|
    ensures r.Some? ==> r.value < i && name[r.value] == '.'
    ensures r.Some? ==> forall j :: r.value < j < i ==> name[j] != '.' && !IsSeparator(name[j])
    decreases i
  {
    if i == 0 then None
    else if name[i - 1] == '.' then Some(i - 1)
    else if IsSeparator(name[i - 1]) then None
    else LastDot(name, i - 1)
  }

  /** `Path.GetExtension(name)`: the extension with its dot, or empty. */
  function Extension(name: string): (ext: string)
    ensures ext == [] || (|ext| >= 2 && ext[0] == '.')
    ensures |ext| <= |name| && ext == name[|name| - |ext|..]
    ensures forall j :: 1 <= j < |ext| ==> ext[j] != '.' && !IsSeparator(ext[j])
  {
    match LastDot(name, |name|)
    case None => []
    case Some(k) => if k == |name| - 1 then [] else name[k..]
  }

  /** The extensions the switch names, already lower-cased. */
  predicate Known(ext: string) {
    ext in [".txt", ".csv", ".json", ".pdf", ".doc", ".docx", ".xls", ".xlsx", ".jpg", ".jpeg", ".png", ".gif"]
  }

  /** The switch on the lower-cased extension. */
  function MimeType(ext: string): (r: string)
    ensures |r| > 0
  {
    if ext == ".txt" then "text/plain"
    else if ext == ".csv" then "text/csv"
    else if ext == ".json" then "application/json"
    else if ext == ".pdf" then "application/pdf"
    else if ext == ".doc" then "application/msword"
    else if ext == ".docx" then "application/vnd.openxmlformats-officedocument.wordprocessingml.document"
    else if ext == ".xls" then "application/vnd.ms-excel"
    else if ext == ".xlsx" then "application/vnd.openxmlformats-officedocument.spreadsheetml.sheet"
    else if ext == ".jpg" || ext == ".jpeg" then "image/jpeg"
    else if ext == ".png" then "image/png"
    else if ext == ".gif" then "image/gif"
    else OctetStream
  }

  /** `GuessContentType(fileName)`: never empty, so the writer always sets the header. */
  function GuessContentType(fileName: string): (r: string)
    ensures |r| > 0
  {
    MimeType(Text.Lower(Extension(fileName)))
  }

  /** Only the switch's default arm gives `application/octet-stream`. */
  lemma OctetStreamIsDefault(ext: string)
    ensures MimeType(ext) == OctetStream <==> !Known(ext)
  {
  }

  /** ".jpg" and ".jpeg", in any case, are the two spellings of `image/jpeg`, and the only ones. */
  lemma JpegSpellings(fileName: string)
    ensures GuessContentType(fileName) == "image/jpeg"
            <==> Text.Lower(Extension(fileName)) == ".jpg" || Text.Lower(Extension(fileName)) == ".jpeg"
  {
  }

  /** A name without an extension, or with a dot at the very end, is an octet stream. */
  lemma NoExtensionIsOctetStream(fileName: string)
    requires '.' !in fileName || (|fileName| > 0 && fileName[|fileName| - 1] == '.')
    ensures Extension(fileName) == [] && GuessContentType(fileName) == OctetStream
  {
    if '.' in fileName {
      LastDotAtEnd(fileName);
    }
  }

  lemma LastDotAtEnd(name: string)
    requires |name| > 0 && name[|name| - 1] == '.'
    ensures LastDot(name, |name|) == Some(|name| - 1)
  {
  }

  /** A stem, a dot and a suffix free of dots and separators: the suffix is the extension. */
  lemma {:induction false} ExtensionOfDottedName(stem: string, suffix: string)
    requires |suffix| > 0
    requires forall j :: 0 <= j < |suffix| ==> suffix[j] != '.' && !IsSeparator(suffix[j])
    ensures Extension(stem + "." + suffix) == "." + suffix
  {
    var name := stem + "." + suffix;
    LastDotSkips(name, |stem|, |name|);
    assert name[|stem|..] == "." + suffix;
  }

  /** The backwards scan passes over characters that are neither dots nor separators. */
  lemma {:induction false} LastDotSkips(name: string, k: nat, i: nat)
    requires k < i <= |name| && name[k] == '.'
    requires forall j :: k < j < i ==> name[j] != '.' && !IsSeparator(name[j])
    ensures LastDot(name, i) == Some(k)
    decreases i
  {
    if i - 1 != k {
      LastDotSkips(name, k, i - 1);
    }
  }

  /** Lower-casing moves no dot and no separator, so the scan finds the same place. */
  lemma {:induction false} LastDotLower(name: string, i: nat)
    requires i <= |name|
    ensures LastDot(Text.Lower(name), i) == LastDot(name, i)
    decreases i
  {
    if i > 0 {
      assert Text.Lower(name)[i - 1] == Text.LowerChar(name[i - 1]);
      LastDotLower(name, i - 1);
    }
  }

  /** The extension of the lower-cased name is the lower-cased extension. */
  lemma ExtensionLower(name: string)
    ensures Extension(Text.Lower(name)) == Text.Lower(Extension(name))
  {
    LastDotLower(name, |name|);
    var r := LastDot(name, |name|);
    if r.Some? && r.value != |name| - 1 {
      assert Text.Lower(name)[r.value..] == Text.Lower(name[r.value..]);
    }
  }

  /** Names that agree ignoring case get the same content type: ".PDF" is ".pdf". */
  lemma ContentTypeIgnoresCase(a: string, b: string)
    requires Text.EqualsIgnoreCase(a, b)
    ensures GuessContentType(a) == GuessContentType(b)
  {
    Text.EqualsIgnoreCaseLower(a, b);
    ExtensionLower(a);
    ExtensionLower(b);
  }
}

=== FILE: display.dfy ===
/**
 * How the MVC test page shows a function's reply: the status code, the
 * reason phrase and the body cut to a display length.
 */
module Display {
  import opened Wrappers
  import Numerals

  /** What `Substring(0, len)` throws for a negative length. */
  const ArgumentOutOfRange: string := "ArgumentOutOfRangeException"

  const Ellipsis: string := "..."

  /** The display length of a reply body. */
  const BodyLength: nat := 300

  /** `Truncate(s, len)`: empty for null or empty, the string when it fits, else its first `len` characters and "...". */
  function Truncate(s: Option<string>, len: int): (r: Result<string, string>)
    ensures s.None? || s.value == [] ==> r == Success("")
    ensures r.Failure? <==> s.Some? && s.value != [] && len < 0
    ensures r.Success? && s.Some? && |s.value| <= len ==> r.value == s.value
    ensures r.Success? && s.Some? && s.value != [] && |s.value| > len ==> |r.value| == len + 3 && r.value[len..] == Ellipsis
  {
    if s.None? || s.value == [] then Success("")
    else if |s.value| <= len then Success(s.value)
    else if len < 0 then Failure(ArgumentOutOfRange)
    else Success(s.value[..len] + Ellipsis)
  }

  /** A truncated string is at most three characters over the length and begins as the original does. */
  lemma TruncateBounds(s: string, len: nat)
    ensures var r := Truncate(Some(s), len);
            var keep := if |s| <= len then |s| else len;
            && r.Success?
            && |r.value| <= len + 3
            && keep <= |r.value| && r.value[..keep] == s[..keep]
  {
  }

  /** Only an empty string truncates to the empty string. */
  lemma TruncateEmptyOnlyForEmpty(s: string, len: nat)
    ensures Truncate(Some(s), len) == Success("") <==> s == []
  {
  }

  /** Truncating what was already truncated to the same length changes nothing. */
  lemma TruncateIdempotent(s: string, len: nat)
    ensures var once := Truncate(Some(s), len).value;
            Truncate(Some(once), len) == Success(once)
  {
    if |s| > len {
      var once := s[..len] + Ellipsis;
      assert once[..len] == s[..len];
    }
  }

  /** `FormatAsync`: "<status> <reason> | <body cut to 300>"; a null reason phrase shows as nothing. */
  function Format(status: int, reason: Option<string>, body: string): (r: string)
    ensures var head := Numerals.IntToString(status) + " " + reason.GetOr("") + " | ";
            && |head| <= |r| <= |head| + BodyLength + 3
            && r[..|head|] == head
  {
    Numerals.IntToString(status) + " " + reason.GetOr("") + " | " + Truncate(Some(body), BodyLength).value
  }

  /** A body that fits is shown whole after the separator; a longer one shows its first 300 characters and "...". */
  lemma FormatShowsBody(status: int, reason: Option<string>, body: string)
    ensures var head := Numerals.IntToString(status) + " " + reason.GetOr("") + " | ";
            var r := Format(status, reason, body);
            |head| <= |r|
            && r[|head|..] == (if |body| <= BodyLength then body else body[..BodyLength] + Ellipsis)
  {
    var head := Numerals.IntToString(status) + " " + reason.GetOr("") + " | ";
    var t := Truncate(Some(body), BodyLength).value;
    assert Format(status, reason, body) == head + t;
    assert (head + t)[|head|..] == t;
  }
}

=== FILE: file_share.dfy ===
/**
 * The two file-share handlers. `WriteFileShare` stores the request body as
 * one file: it creates the share and every directory on the way if they do
 * not exist, deletes any file of the same name, creates the file, uploads
 * the bytes and records a content type. `ListFileShare` lists one directory.
 *
 * Both read the `share` query (default "docs") and the `dir` query, which is
 * trimmed of white space, then of '/', and only then has every '\' turned
 * into '/'. The directory is walked one segment at a time, empty segments
 * skipped.
 *
 * The share service is a map from share name to a share: the set of its
 * directory paths and a map from file location to file. The writer's store
 * calls are a sequence of steps applied in order; a store that throws at
 * some step is a `Fault` parameter, and the steps before it keep their
 * effect.
 */
module FileShare {
  import opened Wrappers
  import Text
  import TableStore
  import ContentType

  const DefaultShare: string := "docs"

  const MissingFileNameMessage: string := "Provide ?filename= and send the file as binary in the request body."

  /** The query parameters both handlers read; `None` for an absent parameter. */
  datatype Query = Query(share: Option<string>, dir: Option<string>, filename: Option<string>)

  /** The share both handlers use: the `share` parameter, else the configured default. */
  function ShareName(q: Query): (name: string)
    ensures q.share.None? ==> name == DefaultShare
    ensures q.share.Some? ==> name == q.share.value
  {
    q.share.GetOr(DefaultShare)
  }

  /** The `dir` parameter (empty when absent), trimmed of white space, then of slashes, then with back slashes made slashes. */
  function DirPath(dir: Option<string>): (d: string)
    ensures '\\' !in d
  {
    Text.ReplaceChar(Text.TrimChar(Text.Trim(dir.GetOr("")), '/'), '\\', '/')
  }

  /** The segments the handlers walk: none for an empty path, else its slash-separated parts with empty ones dropped. */
  function Segments(dirPath: string): (parts: seq<string>)
    ensures Text.Splittable(parts, '/')
    ensures forall i, c :: 0 <= i < |parts| && c in parts[i] ==> c in dirPath
  {
    if dirPath == "" then [] else Text.SplitNonEmpty(dirPath, '/')
  }

  newtype Byte = x: int | 0 <= x < 256

  /** A stored file: its bytes and the content type recorded for it, if any. */
  datatype File = File(content: seq<Byte>, contentType: Option<string>)

  /** A directory, as the segments from the share's root. */
  type Path = seq<string>

  datatype Location = Location(dir: Path, name: string)

  /** A file's address, `ShareFileClient.Uri`: the share and the location in it. */
  datatype FileUrl = FileUrl(share: string, file: Location)

  datatype Share = Share(dirs: set<Path>, files: map<Location, File>)

  type Service = map<string, Share>

  const EmptyShare: Share := Share({[]}, map[])

  /** The directory that holds `d`. */
  function Parent(d: Path): Path
    requires d != []
  {
    d[..|d| - 1]
  }

  /** Every directory's parent exists, the root among them, and every file sits in an existing directory. */
  predicate WellFormed(sh: Share) {
    && [] in sh.dirs
    && (forall d {:trigger Parent(d)} :: d in sh.dirs && d != [] ==> Parent(d) in sh.dirs)
    && (forall l :: l in sh.files ==> l.dir in sh.dirs)
  }

  predicate ServiceWellFormed(svc: Service) {
    forall name :: name in svc ==> WellFormed(svc[name])
  }

  /** One store call of the writer after the share exists, on that share. */
  datatype Step =
    | CreateDirectoryIfNotExists(dir: Path)
    | DeleteFileIfExists(file: Location)
    | CreateFile(file: Location, size: nat)
    | UploadRange(file: Location, content: seq<Byte>)
    | SetContentType(file: Location, contentType: string)

  /** What a failing store call throws: a `RequestFailedException`, or any other exception. */
  datatype StoreFailure = Refused(e: TableStore.StoreError) | Crashed(message: string)

  /**
   * Where, if anywhere, the store throws: at the call with this index, where
   * call 0 is the share's `CreateIfNotExistsAsync` and call `k + 1` is step `k`.
   */
  datatype Fault = NoFault | FailsAt(call: nat, failure: StoreFailure)

  const ShareNotFound: TableStore.StoreError := TableStore.StoreError("ShareNotFound", "The specified share does not exist.")
  const ParentNotFound: TableStore.StoreError := TableStore.StoreError("ParentNotFound", "The specified parent path does not exist.")
  const ResourceNotFound: TableStore.StoreError := TableStore.StoreError("ResourceNotFound", "The specified resource does not exist.")
  const InvalidRange: TableStore.StoreError := TableStore.StoreError("InvalidRange", "The range specified is invalid for the current size of the resource.")

  /** What the byte range `(0, 0)` throws for an empty body, before the upload call is made. */
  const EmptyRangeMessage: string := "Specified argument was out of the range of valid values. (Parameter 'length')"

  function Zeros(n: nat): (z: seq<Byte>)
    ensures |z| == n
  {
    seq(n, _ => 0 as Byte)
  }

  /** The share after `CreateIfNotExistsAsync`. */
  function ShareOf(svc: Service, share: string): Share {
    if share in svc then svc[share] else EmptyShare
  }

  /**
   * One store call. Calls on a missing directory or file are refused; an
   * upload of no bytes throws before it reaches the store, as its range is empty.
   */
  function ApplyStep(sh: Share, step: Step): Result<Share, StoreFailure> {
    match step
    case CreateDirectoryIfNotExists(d) =>
      if d == [] then Success(sh)
      else if Parent(d) !in sh.dirs then Failure(Refused(ParentNotFound))
      else Success(Share(sh.dirs + {d}, sh.files))
    case DeleteFileIfExists(l) =>
      if l.dir !in sh.dirs then Failure(Refused(ParentNotFound))
      else Success(Share(sh.dirs, sh.files - {l}))
    case CreateFile(l, size) =>
      if l.dir !in sh.dirs then Failure(Refused(ParentNotFound))
      else Success(Share(sh.dirs, sh.files[l := File(Zeros(size), None)]))
    case UploadRange(l, content) =>
      if |content| == 0 then Failure(Crashed(EmptyRangeMessage))
      else if l !in sh.files then Failure(Refused(ResourceNotFound))
      else if |content| > |sh.files[l].content| then Failure(Refused(InvalidRange))
      else
        var f := sh.files[l];
        Success(Share(sh.dirs, sh.files[l := f.(content := content + f.content[|content|..])]))
    case SetContentType(l, t) =>
      if l !in sh.files then Failure(Refused(ResourceNotFound))
      else Success(Share(sh.dirs, sh.files[l := sh.files[l].(contentType := Some(t))]))
  }

  /** The fault as seen `k` calls later. */
  function Shift(fault: Fault, k: nat): Fault {
    if fault.FailsAt? && fault.call >= k then FailsAt(fault.call - k, fault.failure)
    else if fault.FailsAt? then FailsAt(0, fault.failure)
    else NoFault
  }

  /** The steps in order, stopping at the first that throws; the failure, if any, is returned. */
  function Apply(sh: Share, steps: seq<Step>, fault: Fault): (Share, Option<StoreFailure>)
    decreases |steps|
  {
    if |steps| == 0 then (sh, None)
    else if fault.FailsAt? && fault.call == 0 then (sh, Some(fault.failure))
    else
      match ApplyStep(sh, steps[0])
      case Failure(f) => (sh, Some(f))
      case Success(next) => Apply(next, steps[1..], Shift(fault, 1))
  }

  /** One create-if-missing call per segment, each one level below the previous. */
  function DirSteps(segments: Path): (steps: seq<Step>)
    ensures |steps| == |segments|
    ensures forall k :: 0 <= k < |steps| ==> steps[k] == CreateDirectoryIfNotExists(segments[..k + 1])
    decreases |segments|
  {
    if |segments| == 0 then []
    else
      var init := segments[..|segments| - 1];
      assert forall k :: 0 <= k <= |init| ==> init[..k] == segments[..k];
      assert segments[..|segments|] == segments;
      DirSteps(init) + [CreateDirectoryIfNotExists(segments)]
  }

  /** Delete, create at the body's size, upload the body, then set the content type when there is one. */
  function FileSteps(file: Location, body: seq<Byte>): (steps: seq<Step>)
    ensures |steps| >= 3
    ensures steps[0] == DeleteFileIfExists(file)
    ensures steps[1] == CreateFile(file, |body|) && steps[2] == UploadRange(file, body)
    ensures forall k :: 0 <= k < |steps| ==> !steps[k].CreateDirectoryIfNotExists? && steps[k].file == file
    ensures |steps| == 4 <==> ContentType.GuessContentType(file.name) != ""
    ensures |steps| == 4 ==> steps[3] == SetContentType(file, ContentType.GuessContentType(file.name))
  {
    var contentType := ContentType.GuessContentType(file.name);
    [DeleteFileIfExists(file), CreateFile(file, |body|), UploadRange(file, body)]
      + (if contentType != "" then [SetContentType(file, contentType)] else [])
  }

  /** The writer's calls on the share once it exists: the directories, then the file. */
  function Store(sh: Share, file: Location, body: seq<Byte>, fault: Fault): (Share, Option<StoreFailure>) {
    Apply(sh, DirSteps(file.dir) + FileSteps(file, body), fault)
  }

  /** The JSON payload of the writer's response. */
  datatype WriteResponse =
    | Written(share: string, directory: string, fileName: string, url: FileUrl)
    | MissingFileName(message: string)
    | StoreRefused(azureError: string, message: string)
    | Failed(message: string)

  function WriteStatus(r: WriteResponse): int {
    match r
    case Written(_, _, _, _) => 200
    case MissingFileName(_) => 400
    case StoreRefused(_, _) => 400
    case Failed(_) => 500
  }

  datatype WriteOutcome = WriteOutcome(service: Service, response: WriteResponse)

  function FailureResponse(f: StoreFailure): WriteResponse {
    match f
    case Refused(e) => StoreRefused(e.code, e.message)
    case Crashed(m) => Failed(m)
  }

  /** `WriteFileShare`. */
  function Write(svc: Service, q: Query, body: seq<Byte>, fault: Fault): (o: WriteOutcome)
    ensures q.filename.None? || Text.IsBlank(q.filename.value) ==> o == WriteOutcome(svc, MissingFileName(MissingFileNameMessage))
    ensures o.response.Written? ==> o.response == Written(ShareName(q), DirPath(q.dir), q.filename.value,
                                                          FileUrl(ShareName(q), Location(Segments(DirPath(q.dir)), q.filename.value)))
    ensures o.response.Written? ==> WriteStatus(o.response) == 200
    ensures forall name :: name in svc && name != ShareName(q) ==> name in o.service && o.service[name] == svc[name]
  {
    if q.filename.None? || Text.IsBlank(q.filename.value) then WriteOutcome(svc, MissingFileName(MissingFileNameMessage))
    else if fault.FailsAt? && fault.call == 0 then WriteOutcome(svc, FailureResponse(fault.failure))
    else
      var dirPath := DirPath(q.dir);
      WriteAt(svc, ShareName(q), dirPath, Location(Segments(dirPath), q.filename.value), body, Shift(fault, 1))
  }

  /** The writer once the share exists: the store calls, then the response they lead to. */
  function WriteAt(svc: Service, share: string, dirPath: string, file: Location, body: seq<Byte>, fault: Fault): (o: WriteOutcome)
    ensures o.response.Written? ==> o.response == Written(share, dirPath, file.name, FileUrl(share, file))
    ensures forall name :: name in svc && name != share ==> name in o.service && o.service[name] == svc[name]
  {
    var r := Store(ShareOf(svc, share), file, body, fault);
    WriteOutcome(svc[share := r.0], if r.1.None? then Written(share, dirPath, file.name, FileUrl(share, file)) else FailureResponse(r.1.value))
  }

  /** One listed item; a file carries its location, a directory none. */
  datatype Entry = Entry(name: string, isDirectory: bool, url: Option<FileUrl>)

  /** `ListFileShare`: the listing, or the store error it lets escape (there is no handler for it). */
  datatype ListResponse =
    | Listed(share: string, directory: string, items: set<Entry>)
    | Unhandled(e: TableStore.StoreError)

  /** The direct subdirectories and the files of `dir`. */
  function Listing(share: string, sh: Share, dir: Path): (r: set<Entry>)
    ensures forall l :: l in sh.files && l.dir == dir ==> Entry(l.name, false, Some(FileUrl(share, l))) in r
    ensures forall d :: d in sh.dirs && |d| == |dir| + 1 && d[..|dir|] == dir ==> Entry(d[|dir|], true, None) in r
    ensures forall e :: e in r ==> (e.isDirectory <==> e.url.None?)
    ensures forall e :: e in r && e.isDirectory ==> dir + [e.name] in sh.dirs
    ensures forall e :: e in r && !e.isDirectory ==> Location(dir, e.name) in sh.files
                                                     && e.url == Some(FileUrl(share, Location(dir, e.name)))
  {
    assert forall d: Path :: |d| == |dir| + 1 && d[..|dir|] == dir ==> d == dir + [d[|dir|]];
    (set d | d in sh.dirs && |d| == |dir| + 1 && d[..|dir|] == dir :: Entry(d[|dir|], true, None))
    + (set l | l in sh.files && l.dir == dir :: Entry(l.name, false, Some(FileUrl(share, l))))
  }

  /** `ListFileShare`. */
  function List(svc: Service, q: Query): (r: ListResponse)
    ensures r.Listed? <==> ShareName(q) in svc && Segments(DirPath(q.dir)) in svc[ShareName(q)].dirs
    ensures r.Listed? ==> r.share == ShareName(q) && r.directory == DirPath(q.dir)
  {
    var share := ShareName(q);
    var dirPath := DirPath(q.dir);
    var dir := Segments(dirPath);
    if share !in svc then Unhandled(ShareNotFound)
    else if dir !in svc[share].dirs then Unhandled(ResourceNotFound)
    else Listed(share, dirPath, Listing(share, svc[share], dir))
  }

  // ---------------------------------------------------------------------
  // Directory paths

  /** Whatever `dir` holds, the walked segments are non-empty and free of both slashes. */
  lemma SegmentsAreClean(dir: Option<string>)
    ensures var parts := Segments(DirPath(dir));
            Text.Splittable(parts, '/') && forall i :: 0 <= i < |parts| ==> '\\' !in parts[i]
  {
  }

  /**
   * A path already in canonical form (non-empty segments without slashes,
   * no white space at either end) is its own normal form, and its segments
   * are the ones it was joined from.
   */
  lemma CanonicalDirRoundTrip(parts: seq<string>)
    requires Text.Splittable(parts, '/')
    requires forall i :: 0 <= i < |parts| ==> '\\' !in parts[i]
    requires |parts| > 0 ==> (!Text.IsWhiteSpace(parts[0][0])
                              && !Text.IsWhiteSpace(parts[|parts| - 1][|parts[|parts| - 1]| - 1]))
    ensures DirPath(Some(Text.Join(parts, '/'))) == Text.Join(parts, '/')
    ensures Segments(DirPath(Some(Text.Join(parts, '/')))) == parts
  {
    var j := Text.Join(parts, '/');
    if |parts| > 0 {
      Text.JoinEnds(parts, '/');
      assert parts[0][0] in parts[0];
      assert parts[|parts| - 1][|parts[|parts| - 1]| - 1] in parts[|parts| - 1];
      Text.TrimNothing(j, Text.IsWhiteSpace);
      Text.TrimNothing(j, Text.Is('/'));
      Text.JoinAvoids(parts, '/', '\\');
      Text.ReplaceAbsent(j, '\\', '/');
      Text.SplitJoin(parts, '/');
    }
  }

  /** Back slashes at the ends are turned into slashes after the trim, so they stay in the echoed directory. */
  lemma BackslashEndsSurvive()
    ensures DirPath(Some("\\a\\")) == "/a/"
    ensures Segments(DirPath(Some("\\a\\"))) == ["a"]
  {
    BackslashDirPath();
    SlashedSegments();
  }

  lemma BackslashDirPath()
    ensures DirPath(Some("\\a\\")) == "/a/"
  {
    BackslashTrims();
    BackslashReplaced();
  }

  lemma BackslashTrims()
    ensures Text.TrimChar(Text.Trim("\\a\\"), '/') == "\\a\\"
  {
    Text.TrimNothing("\\a\\", Text.IsWhiteSpace);
    Text.TrimNothing("\\a\\", Text.Is('/'));
  }

  lemma BackslashReplaced()
    ensures Text.ReplaceChar("\\a\\", '\\', '/') == "/a/"
  {
    var r := Text.ReplaceChar("\\a\\", '\\', '/');
    assert |r| == 3 && r[0] == '/' && r[1] == 'a' && r[2] == '/';
  }

  lemma SlashedSegments()
    ensures Segments("/a/") == ["a"]
  {
    var u := "a/";
    assert "/a/"[1..] == u;
    assert Text.IndexOf(u, '/') == 1 && u[..1] == "a";
    assert Text.SplitNonEmpty(u[2..], '/') == [];
  }

  // ---------------------------------------------------------------------
  // What a write stores

  /** Every initial segment list of `p`, the empty one and `p` included. */
  function Prefixes(p: Path): (r: set<Path>)
    ensures forall i :: 0 <= i <= |p| ==> p[..i] in r
    ensures [] in r && p in r
    ensures forall d :: d in r ==> |d| <= |p| && d == p[..|d|]
  {
    assert p[..0] == [] && p[..|p|] == p;
    set i | 0 <= i <= |p| :: p[..i]
  }

  /**
   * The share after a successful write: every directory on the path exists
   * and the file holds the body under its guessed content type; nothing else
   * changes.
   */
  function StoredShare(sh: Share, file: Location, body: seq<Byte>): Share {
    Share(sh.dirs + Prefixes(file.dir), sh.files[file := File(body, Some(ContentType.GuessContentType(file.name)))])
  }

  /** Running `a + b` runs `a` and then, unless it failed, `b`, when the fault lies beyond `a`. */
  lemma {:induction false} ApplyAppend(sh: Share, a: seq<Step>, b: seq<Step>, fault: Fault)
    requires fault.FailsAt? ==> fault.call >= |a|
    ensures var r := Apply(sh, a, NoFault);
            Apply(sh, a + b, fault) == if r.1.None? then Apply(r.0, b, Shift(fault, |a|)) else r
    decreases |a|
  {
    if |a| > 0 {
      assert (a + b)[0] == a[0] && (a + b)[1..] == a[1..] + b;
      match ApplyStep(sh, a[0])
      case Failure(_) =>
      case Success(next) =>
        ApplyAppend(next, a[1..], b, Shift(fault, 1));
        assert Shift(Shift(fault, 1), |a| - 1) == Shift(fault, |a|);
    } else {
      assert a + b == b;
    }
  }

  /** Creating the directories of a path, in a share whose root exists, adds every prefix of the path. */
  lemma {:induction false} ApplyDirs(sh: Share, segments: Path)
    requires [] in sh.dirs
    ensures Apply(sh, DirSteps(segments), NoFault) == (Share(sh.dirs + Prefixes(segments), sh.files), None)
    decreases |segments|
  {
    if |segments| == 0 {
      assert forall d :: d in Prefixes(segments) ==> d == [];
      assert sh.dirs + Prefixes(segments) == sh.dirs;
    } else {
      var n := |segments|;
      var init := segments[..n - 1];
      var last := CreateDirectoryIfNotExists(segments);
      ApplyAppend(sh, DirSteps(init), [last], NoFault);
      ApplyDirs(sh, init);
      var sh1 := Share(sh.dirs + Prefixes(init), sh.files);
      assert init in Prefixes(init) by {
        assert init[..|init|] == init;
      }
      var sh2 := Share(sh1.dirs + {segments}, sh.files);
      assert ApplyStep(sh1, last) == Success(sh2);
      assert Apply(sh1, [last], NoFault) == (sh2, None) by {
        assert [last][1..] == [];
      }
      PrefixesSnoc(segments);
      assert sh2.dirs == sh.dirs + Prefixes(segments);
    }
  }

  lemma PrefixesSnoc(p: Path)
    requires |p| > 0
    ensures Prefixes(p) == Prefixes(p[..|p| - 1]) + {p}
  {
    var init := p[..|p| - 1];
    forall d | d in Prefixes(p) ensures d in Prefixes(init) + {p} {
      if |d| < |p| {
        assert d == init[..|d|];
        assert init[..|d|] in Prefixes(init);
      } else {
        assert d == p[..|p|] == p;
      }
    }
    forall d | d in Prefixes(init) ensures d in Prefixes(p) {
      assert d == p[..|d|];
      assert p[..|d|] in Prefixes(p);
    }
    assert p == p[..|p|];
  }

  /** A step that succeeds hands the rest of the calls the share it made. */
  lemma ApplyCons(sh: Share, step: Step, rest: seq<Step>, next: Share)
    requires ApplyStep(sh, step) == Success(next)
    ensures Apply(sh, [step] + rest, NoFault) == Apply(next, rest, NoFault)
  {
    assert ([step] + rest)[0] == step && ([step] + rest)[1..] == rest;
  }

  /** The four file calls, in an existing directory, leave the body and its content type at the location. */
  lemma ApplyFile(sh: Share, file: Location, body: seq<Byte>)
    requires body != []
    requires file.dir in sh.dirs
    ensures Apply(sh, FileSteps(file, body), NoFault)
            == (Share(sh.dirs, sh.files[file := File(body, Some(ContentType.GuessContentType(file.name)))]), None)
  {
    var t := ContentType.GuessContentType(file.name);
    assert FileSteps(file, body)
           == [DeleteFileIfExists(file), CreateFile(file, |body|), UploadRange(file, body), SetContentType(file, t)];
    ApplyFileCalls(sh, file, body, t);
  }

  lemma ApplyFileCalls(sh: Share, file: Location, body: seq<Byte>, t: string)
    requires body != []
    requires file.dir in sh.dirs
    ensures Apply(sh, [DeleteFileIfExists(file), CreateFile(file, |body|), UploadRange(file, body), SetContentType(file, t)], NoFault)
            == (Share(sh.dirs, sh.files[file := File(body, Some(t))]), None)
  {
    var sh2 := Share(sh.dirs, sh.files[file := File(Zeros(|body|), None)]);
    assert Apply(sh, [DeleteFileIfExists(file), CreateFile(file, |body|), UploadRange(file, body), SetContentType(file, t)], NoFault)
           == Apply(sh2, [UploadRange(file, body), SetContentType(file, t)], NoFault) by {
      var sh1 := Share(sh.dirs, sh.files - {file});
      ApplyCons(sh, DeleteFileIfExists(file), [CreateFile(file, |body|), UploadRange(file, body), SetContentType(file, t)], sh1);
      assert sh1.files[file := File(Zeros(|body|), None)] == sh2.files;
      ApplyCons(sh1, CreateFile(file, |body|), [UploadRange(file, body), SetContentType(file, t)], sh2);
    }
    ApplyUploadCalls(sh2, file, body, t);
    assert sh2.files[file := File(body, Some(t))] == sh.files[file := File(body, Some(t))];
  }

  lemma ApplyUploadCalls(sh: Share, file: Location, body: seq<Byte>, t: string)
    requires file in sh.files && sh.files[file] == File(Zeros(|body|), None)
    requires body != []
    ensures Apply(sh, [UploadRange(file, body), SetContentType(file, t)], NoFault)
            == (Share(sh.dirs, sh.files[file := File(body, Some(t))]), None)
  {
    var sh3 := Share(sh.dirs, sh.files[file := File(body, None)]);
    var sh4 := Share(sh.dirs, sh.files[file := File(body, Some(t))]);
    assert ApplyStep(sh, UploadRange(file, body)) == Success(sh3) by {
      assert body + Zeros(|body|)[|body|..] == body;
    }
    ApplyCons(sh, UploadRange(file, body), [SetContentType(file, t)], sh3);
    assert sh3.files[file := File(body, Some(t))] == sh4.files;
    ApplyCons(sh3, SetContentType(file, t), [], sh4);
  }

  /** In a share whose root exists, the writer's calls, with nothing refused, store exactly `StoredShare`. */
  lemma StoreStores(sh: Share, file: Location, body: seq<Byte>)
    requires body != []
    requires [] in sh.dirs
    ensures Store(sh, file, body, NoFault) == (StoredShare(sh, file, body), None)
  {
    ApplyAppend(sh, DirSteps(file.dir), FileSteps(file, body), NoFault);
    ApplyDirs(sh, file.dir);
    ApplyFile(Share(sh.dirs + Prefixes(file.dir), sh.files), file, body);
  }

  /** With a well-formed service and a file name, a write that nothing refuses stores exactly `StoredShare`. */
  lemma WriteStores(svc: Service, q: Query, body: seq<Byte>)
    requires body != []
    requires ServiceWellFormed(svc)
    requires q.filename.Some? && !Text.IsBlank(q.filename.value)
    ensures var file := Location(Segments(DirPath(q.dir)), q.filename.value);
            var share := ShareName(q);
            Write(svc, q, body, NoFault)
            == WriteOutcome(svc[share := StoredShare(ShareOf(svc, share), file, body)],
                            Written(share, DirPath(q.dir), q.filename.value, FileUrl(share, file)))
  {
    var share := ShareName(q);
    var dirPath := DirPath(q.dir);
    var file := Location(Segments(dirPath), q.filename.value);
    assert Write(svc, q, body, NoFault) == WriteAt(svc, share, dirPath, file, body, NoFault) by {
      assert Shift(NoFault, 1) == NoFault;
    }
    var sh := ShareOf(svc, share);
    assert [] in sh.dirs;
    StoreStores(sh, file, body);
  }

  // ---------------------------------------------------------------------
  // Well-formedness

  lemma {:induction false} ApplyStepPreserves(sh: Share, step: Step)
    requires WellFormed(sh)
    ensures ApplyStep(sh, step).Success? ==> WellFormed(ApplyStep(sh, step).value)
  {
    match step
    case CreateDirectoryIfNotExists(d) =>
      if d != [] && Parent(d) in sh.dirs {
        var next := Share(sh.dirs + {d}, sh.files);
        forall e {:trigger Parent(e)} | e in next.dirs && e != [] ensures Parent(e) in next.dirs {
          if e != d {
            assert e in sh.dirs;
          }
        }
      }
    case DeleteFileIfExists(_) =>
    case CreateFile(_, _) =>
    case UploadRange(_, _) =>
    case SetContentType(_, _) =>
  }

  /** However far the calls get, they leave a well-formed share well-formed. */
  lemma {:induction false} ApplyPreserves(sh: Share, steps: seq<Step>, fault: Fault)
    requires WellFormed(sh)
    ensures WellFormed(Apply(sh, steps, fault).0)
    decreases |steps|
  {
    if |steps| > 0 && !(fault.FailsAt? && fault.call == 0) {
      ApplyStepPreserves(sh, steps[0]);
      match ApplyStep(sh, steps[0])
      case Failure(_) =>
      case Success(next) => ApplyPreserves(next, steps[1..], Shift(fault, 1));
    }
  }

  /** Replacing one share by a well-formed one keeps the service well-formed. */
  lemma UpdateWellFormed(svc: Service, share: string, sh: Share)
    requires ServiceWellFormed(svc) && WellFormed(sh)
    ensures ServiceWellFormed(svc[share := sh])
  {
  }

  /** The share `CreateIfNotExistsAsync` leaves is well-formed. */
  lemma ShareOfWellFormed(svc: Service, share: string)
    requires ServiceWellFormed(svc)
    ensures WellFormed(ShareOf(svc, share))
  {
  }

  /** A write, whatever the store does, keeps every share well-formed. */
  lemma WritePreservesWellFormed(svc: Service, q: Query, body: seq<Byte>, fault: Fault)
    requires ServiceWellFormed(svc)
    ensures ServiceWellFormed(Write(svc, q, body, fault).service)
  {
    if q.filename.Some? && !Text.IsBlank(q.filename.value) && !(fault.FailsAt? && fault.call == 0) {
      var share := ShareName(q);
      var dirPath := DirPath(q.dir);
      var file := Location(Segments(dirPath), q.filename.value);
      var sh := ShareOf(svc, share);
      var stored := Store(sh, file, body, Shift(fault, 1)).0;
      assert Write(svc, q, body, fault).service == svc[share := stored] by {
        WriteUnfold(svc, q, body, fault);
      }
      assert WellFormed(stored) by {
        ShareOfWellFormed(svc, share);
        ApplyPreserves(sh, DirSteps(file.dir) + FileSteps(file, body), Shift(fault, 1));
      }
      UpdateWellFormed(svc, share, stored);
    }
  }

  // ---------------------------------------------------------------------
  // Writing twice, writing then listing, failing half-way

  /** Storing the same body at the same place again changes nothing more. */
  lemma StoredShareIdempotent(sh: Share, file: Location, body: seq<Byte>)
    ensures StoredShare(StoredShare(sh, file, body), file, body) == StoredShare(sh, file, body)
  {
    var once := StoredShare(sh, file, body);
    assert once.dirs + Prefixes(file.dir) == once.dirs;
    var v := File(body, Some(ContentType.GuessContentType(file.name)));
    assert once.files[file := v] == once.files;
  }

  /** A write with a file name that the store does not refuse at once: the share-level writer. */
  lemma WriteUnfold(svc: Service, q: Query, body: seq<Byte>, fault: Fault)
    requires q.filename.Some? && !Text.IsBlank(q.filename.value)
    requires !(fault.FailsAt? && fault.call == 0)
    ensures Write(svc, q, body, fault)
            == WriteAt(svc, ShareName(q), DirPath(q.dir), Location(Segments(DirPath(q.dir)), q.filename.value), body, Shift(fault, 1))
  {
  }

  /** Repeating a write that nothing refuses leaves the service as the first one did, with the same response. */
  lemma WriteIsIdempotent(svc: Service, q: Query, body: seq<Byte>)
    requires ServiceWellFormed(svc)
    requires q.filename.Some? && !Text.IsBlank(q.filename.value)
    ensures var first := Write(svc, q, body, NoFault);
            Write(first.service, q, body, NoFault) == first
  {
    var share := ShareName(q);
    var dirPath := DirPath(q.dir);
    var file := Location(Segments(dirPath), q.filename.value);
    ShareOfWellFormed(svc, share);
    var first := Write(svc, q, body, NoFault);
    assert first == WriteAt(svc, share, dirPath, file, body, NoFault) by {
      WriteUnfold(svc, q, body, NoFault);
      assert Shift(NoFault, 1) == NoFault;
    }
    assert Write(first.service, q, body, NoFault) == WriteAt(first.service, share, dirPath, file, body, NoFault) by {
      WriteUnfold(first.service, q, body, NoFault);
      assert Shift(NoFault, 1) == NoFault;
    }
    WriteAtIdempotent(svc, share, dirPath, file, body);
  }

  /** The share-level writer with nothing refused, run twice, is run once. */
  lemma WriteAtIdempotent(svc: Service, share: string, dirPath: string, file: Location, body: seq<Byte>)
    requires [] in ShareOf(svc, share).dirs
    ensures var first := WriteAt(svc, share, dirPath, file, body, NoFault);
            WriteAt(first.service, share, dirPath, file, body, NoFault) == first
  {
    if body == [] {
      WriteAtEmptyIdempotent(svc, share, dirPath, file);
    } else {
      WriteAtStores(svc, share, dirPath, file, body);
      WriteAtAgain(svc, share, dirPath, file, body);
    }
  }

  /** An empty-body write, run twice, leaves what it left the first time, and answers the same. */
  lemma WriteAtEmptyIdempotent(svc: Service, share: string, dirPath: string, file: Location)
    requires [] in ShareOf(svc, share).dirs
    ensures var first := WriteAt(svc, share, dirPath, file, [], NoFault);
            WriteAt(first.service, share, dirPath, file, [], NoFault) == first
  {
    var sh1 := EmptiedShare(ShareOf(svc, share), file);
    var svc1 := svc[share := sh1];
    WriteAtEmptyBody(svc, share, dirPath, file);
    assert ShareOf(svc1, share) == sh1;
    WriteAtEmptyBody(svc1, share, dirPath, file);
    EmptiedShareIdempotent(ShareOf(svc, share), file);
    UpdateSame(svc1, share);
  }

  /** Once the share exists, an empty body leaves `EmptiedShare` and answers the range's crash. */
  lemma WriteAtEmptyBody(svc: Service, share: string, dirPath: string, file: Location)
    requires [] in ShareOf(svc, share).dirs
    ensures WriteAt(svc, share, dirPath, file, [], NoFault)
            == WriteOutcome(svc[share := EmptiedShare(ShareOf(svc, share), file)], Failed(EmptyRangeMessage))
  {
    StoreEmptyBody(ShareOf(svc, share), file);
  }

  lemma EmptiedShareIdempotent(sh: Share, file: Location)
    ensures EmptiedShare(EmptiedShare(sh, file), file) == EmptiedShare(sh, file)
  {
    var sh1 := EmptiedShare(sh, file);
    assert sh1.dirs + Prefixes(file.dir) == sh1.dirs;
    assert sh1.files[file := File([], None)] == sh1.files;
  }

  /** Writing into a share that already holds the stored result stores it unchanged. */
  lemma WriteAtAgain(svc: Service, share: string, dirPath: string, file: Location, body: seq<Byte>)
    requires body != []
    requires [] in ShareOf(svc, share).dirs
    ensures var svc1 := svc[share := StoredShare(ShareOf(svc, share), file, body)];
            WriteAt(svc1, share, dirPath, file, body, NoFault) == WriteOutcome(svc1, Written(share, dirPath, file.name, FileUrl(share, file)))
  {
    var stored := StoredShare(ShareOf(svc, share), file, body);
    var svc1 := svc[share := stored];
    assert ShareOf(svc1, share) == stored && [] in stored.dirs;
    WriteAtStores(svc1, share, dirPath, file, body);
    assert StoredShare(stored, file, body) == stored by {
      StoredShareIdempotent(ShareOf(svc, share), file, body);
    }
    UpdateSame(svc1, share);
  }

  lemma UpdateSame<K, V>(m: map<K, V>, k: K)
    requires k in m
    ensures m[k := m[k]] == m
  {
  }

  /** Once the share exists with its root, the writer with nothing refused stores `StoredShare` and says so. */
  lemma WriteAtStores(svc: Service, share: string, dirPath: string, file: Location, body: seq<Byte>)
    requires body != []
    requires [] in ShareOf(svc, share).dirs
    ensures WriteAt(svc, share, dirPath, file, body, NoFault)
            == WriteOutcome(svc[share := StoredShare(ShareOf(svc, share), file, body)], Written(share, dirPath, file.name, FileUrl(share, file)))
  {
    StoreStores(ShareOf(svc, share), file, body);
  }

  /** After a write that nothing refuses, listing its directory shows the file, once, at the address the write returned. */
  lemma WriteThenList(svc: Service, q: Query, body: seq<Byte>)
    requires body != []
    requires ServiceWellFormed(svc)
    requires q.filename.Some? && !Text.IsBlank(q.filename.value)
    ensures var w := Write(svc, q, body, NoFault);
            var l := List(w.service, q);
            && w.response.Written?
            && l.Listed?
            && Entry(q.filename.value, false, Some(w.response.url)) in l.items
            && forall e :: e in l.items && !e.isDirectory && e.name == q.filename.value ==> e.url == Some(w.response.url)
  {
    var share := ShareName(q);
    var dirPath := DirPath(q.dir);
    var file := Location(Segments(dirPath), q.filename.value);
    var stored := StoredShare(ShareOf(svc, share), file, body);
    WriteStores(svc, q, body);
    var svc1 := svc[share := stored];
    assert file.dir in stored.dirs && file in stored.files;
    assert List(svc1, q) == Listed(share, dirPath, Listing(share, stored, file.dir));
    ListingShowsFile(share, stored, file);
  }

  /** A file in a directory is listed there under its name, and no other file of that name is. */
  lemma ListingShowsFile(share: string, sh: Share, file: Location)
    requires file in sh.files
    ensures Entry(file.name, false, Some(FileUrl(share, file))) in Listing(share, sh, file.dir)
    ensures forall e :: e in Listing(share, sh, file.dir) && !e.isDirectory && e.name == file.name ==> e.url == Some(FileUrl(share, file))
  {
  }

  /**
   * A store that throws at `CreateAsync` (call `|segments| + 2`) leaves the
   * directories made and the old file deleted: an overwrite that fails there
   * loses the file it was replacing.
   */
  lemma FailedCreateLosesOldFile(svc: Service, q: Query, body: seq<Byte>, failure: StoreFailure)
    requires ServiceWellFormed(svc)
    requires q.filename.Some? && !Text.IsBlank(q.filename.value)
    ensures var file := Location(Segments(DirPath(q.dir)), q.filename.value);
            var share := ShareName(q);
            var sh := ShareOf(svc, share);
            var w := Write(svc, q, body, FailsAt(|file.dir| + 2, failure));
            && w.response == FailureResponse(failure)
            && w.service[share] == Share(sh.dirs + Prefixes(file.dir), sh.files - {file})
  {
    var share := ShareName(q);
    var dirPath := DirPath(q.dir);
    var file := Location(Segments(dirPath), q.filename.value);
    var sh := ShareOf(svc, share);
    ShareOfWellFormed(svc, share);
    var fault := FailsAt(|file.dir| + 2, failure);
    assert Write(svc, q, body, fault) == WriteAt(svc, share, dirPath, file, body, FailsAt(|file.dir| + 1, failure)) by {
      WriteUnfold(svc, q, body, fault);
    }
    StoreFailsAtCreate(sh, file, body, failure);
  }

  /** The store calls with the throw at `CreateAsync`: the directories and the delete take effect. */
  lemma StoreFailsAtCreate(sh: Share, file: Location, body: seq<Byte>, failure: StoreFailure)
    requires [] in sh.dirs
    ensures Store(sh, file, body, FailsAt(|file.dir| + 1, failure)) == (Share(sh.dirs + Prefixes(file.dir), sh.files - {file}), Some(failure))
  {
    ApplyAppend(sh, DirSteps(file.dir), FileSteps(file, body), FailsAt(|file.dir| + 1, failure));
    ApplyDirs(sh, file.dir);
    assert Shift(FailsAt(|file.dir| + 1, failure), |file.dir|) == FailsAt(1, failure);
    DeleteThenFail(Share(sh.dirs + Prefixes(file.dir), sh.files), file, body, failure);
  }

  lemma DeleteThenFail(sh: Share, file: Location, body: seq<Byte>, failure: StoreFailure)
    requires file.dir in sh.dirs
    ensures Apply(sh, FileSteps(file, body), FailsAt(1, failure)) == (Share(sh.dirs, sh.files - {file}), Some(failure))
  {
    var steps := FileSteps(file, body);
    assert steps[0] == DeleteFileIfExists(file) && |steps[1..]| > 0;
  }

  /** The share after a write of an empty body: the directories, and an empty file without a content type. */
  function EmptiedShare(sh: Share, file: Location): Share {
    Share(sh.dirs + Prefixes(file.dir), sh.files[file := File([], None)])
  }

  /** With no bytes, the old file is deleted and an empty one created before the empty range throws. */
  lemma EmptyBodyFileSteps(sh: Share, file: Location)
    requires file.dir in sh.dirs
    ensures Apply(sh, FileSteps(file, []), NoFault) == (Share(sh.dirs, sh.files[file := File([], None)]), Some(Crashed(EmptyRangeMessage)))
  {
    var steps := FileSteps(file, []);
    var sh1 := Share(sh.dirs, sh.files - {file});
    var sh2 := Share(sh.dirs, sh.files[file := File([], None)]);
    var rest1 := steps[1..];
    var rest2 := rest1[1..];
    assert Shift(NoFault, 1) == NoFault;
    assert ApplyStep(sh, steps[0]) == Success(sh1);
    assert Apply(sh, steps, NoFault) == Apply(sh1, rest1, NoFault);
    assert sh1.files[file := File(Zeros(0), None)] == sh2.files;
    assert ApplyStep(sh1, rest1[0]) == Success(sh2);
    assert Apply(sh1, rest1, NoFault) == Apply(sh2, rest2, NoFault);
    assert rest2[0] == UploadRange(file, []);
    assert ApplyStep(sh2, rest2[0]) == Failure(Crashed(EmptyRangeMessage));
  }

  /** In a share whose root exists, the writer's calls for an empty body end in `EmptiedShare` and a crash. */
  lemma StoreEmptyBody(sh: Share, file: Location)
    requires [] in sh.dirs
    ensures Store(sh, file, [], NoFault) == (EmptiedShare(sh, file), Some(Crashed(EmptyRangeMessage)))
  {
    ApplyAppend(sh, DirSteps(file.dir), FileSteps(file, []), NoFault);
    ApplyDirs(sh, file.dir);
    EmptyBodyFileSteps(Share(sh.dirs + Prefixes(file.dir), sh.files), file);
  }

  /**
   * An empty body answers 500, yet the old file is gone: it was deleted and an
   * empty file without a content type created before the range threw.
   */
  lemma WriteEmptyBody(svc: Service, q: Query)
    requires ServiceWellFormed(svc)
    requires q.filename.Some? && !Text.IsBlank(q.filename.value)
    ensures var file := Location(Segments(DirPath(q.dir)), q.filename.value);
            var share := ShareName(q);
            Write(svc, q, [], NoFault) == WriteOutcome(svc[share := EmptiedShare(ShareOf(svc, share), file)], Failed(EmptyRangeMessage))
    ensures WriteStatus(Write(svc, q, [], NoFault).response) == 500
  {
    assert [] in ShareOf(svc, ShareName(q)).dirs by {
      ShareOfWellFormed(svc, ShareName(q));
    }
    WriteAtEmptyBody(svc, ShareName(q), DirPath(q.dir), Location(Segments(DirPath(q.dir)), q.filename.value));
    WriteWithoutFault(svc, q, []);
    FailedIsInternalError(EmptyRangeMessage);
  }

  /** A crash of any message answers 500. */
  lemma FailedIsInternalError(message: string)
    ensures WriteStatus(Failed(message)) == 500
  {
  }

  /** Without a fault, the writer is the share-level writer with no fault either. */
  lemma WriteWithoutFault(svc: Service, q: Query, body: seq<Byte>)
    requires q.filename.Some? && !Text.IsBlank(q.filename.value)
    ensures Write(svc, q, body, NoFault)
            == WriteAt(svc, ShareName(q), DirPath(q.dir), Location(Segments(DirPath(q.dir)), q.filename.value), body, NoFault)
  {
    WriteUnfold(svc, q, body, NoFault);
    assert Shift(NoFault, 1) == NoFault;
  }


  /** A fault at one of the calls ends the run with a failure: that one, or an earlier refusal. */
  lemma {:induction false} ApplyFaultFails(sh: Share, steps: seq<Step>, k: nat, f: StoreFailure)
    requires k < |steps|
    ensures Apply(sh, steps, FailsAt(k, f)).1.Some?
    decreases |steps|
  {
    if k > 0 && ApplyStep(sh, steps[0]).Success? {
      assert Shift(FailsAt(k, f), 1) == FailsAt(k - 1, f);
      ApplyFaultFails(ApplyStep(sh, steps[0]).value, steps[1..], k - 1, f);
    }
  }

  /** When the calls succeed without a fault, a fault at any one of them is what the run throws. */
  lemma {:induction false} ApplyFaultIsThrown(sh: Share, steps: seq<Step>, k: nat, f: StoreFailure)
    requires k < |steps|
    requires Apply(sh, steps, NoFault).1.None?
    ensures Apply(sh, steps, FailsAt(k, f)).1 == Some(f)
    decreases |steps|
  {
    if k > 0 {
      assert Shift(FailsAt(k, f), 1) == FailsAt(k - 1, f);
      assert Shift(NoFault, 1) == NoFault;
      ApplyFaultIsThrown(ApplyStep(sh, steps[0]).value, steps[1..], k - 1, f);
    }
  }

  /** A fault at one of the writer's store calls ends the store with a failure. */
  lemma StoreFaultFails(sh: Share, file: Location, body: seq<Byte>, k: nat, f: StoreFailure)
    requires k < |file.dir| + |FileSteps(file, body)|
    ensures Store(sh, file, body, FailsAt(k, f)).1.Some?
  {
    var steps := DirSteps(file.dir) + FileSteps(file, body);
    assert |steps| == |file.dir| + |FileSteps(file, body)|;
    ApplyFaultFails(sh, steps, k, f);
  }

  /** In a share whose root exists, a fault at one of the writer's store calls is what the store throws. */
  lemma StoreFaultIsThrown(sh: Share, file: Location, body: seq<Byte>, k: nat, f: StoreFailure)
    requires [] in sh.dirs && body != []
    requires k < |file.dir| + |FileSteps(file, body)|
    ensures Store(sh, file, body, FailsAt(k, f)).1 == Some(f)
  {
    var steps := DirSteps(file.dir) + FileSteps(file, body);
    assert |steps| == |file.dir| + |FileSteps(file, body)|;
    assert Apply(sh, steps, NoFault).1.None? by {
      StoreStores(sh, file, body);
    }
    ApplyFaultIsThrown(sh, steps, k, f);
  }

  /** A throw at any of the writer's calls, the share create, a directory or a file call, never answers `Written`. */
  lemma WriteFaultNotWritten(svc: Service, q: Query, body: seq<Byte>, k: nat, f: StoreFailure)
    requires q.filename.Some? && !Text.IsBlank(q.filename.value)
    requires var file := Location(Segments(DirPath(q.dir)), q.filename.value);
             k <= |file.dir| + |FileSteps(file, body)|
    ensures !Write(svc, q, body, FailsAt(k, f)).response.Written?
    ensures WriteStatus(Write(svc, q, body, FailsAt(k, f)).response) != 200
  {
    if k == 0 {
      ShareCreateFails(svc, q, body, k, f);
    } else {
      LaterFaultNotWritten(svc, q, body, k, f);
    }
  }

  /** A throw at the share create answers that failure and changes nothing. */
  lemma ShareCreateFails(svc: Service, q: Query, body: seq<Byte>, k: nat, f: StoreFailure)
    requires q.filename.Some? && !Text.IsBlank(q.filename.value)
    requires k == 0
    ensures Write(svc, q, body, FailsAt(k, f)) == WriteOutcome(svc, FailureResponse(f))
    ensures WriteStatus(FailureResponse(f)) != 200
  {
  }

  /** A throw at a directory or file call never answers `Written`. */
  lemma LaterFaultNotWritten(svc: Service, q: Query, body: seq<Byte>, k: nat, f: StoreFailure)
    requires q.filename.Some? && !Text.IsBlank(q.filename.value)
    requires 0 < k <= |Segments(DirPath(q.dir))| + |FileSteps(Location(Segments(DirPath(q.dir)), q.filename.value), body)|
    ensures !Write(svc, q, body, FailsAt(k, f)).response.Written?
    ensures WriteStatus(Write(svc, q, body, FailsAt(k, f)).response) != 200
  {
    var j: nat := k - 1;
    WriteAtFaultNotWritten(svc, ShareName(q), DirPath(q.dir), Location(Segments(DirPath(q.dir)), q.filename.value), body, j, f);
    WriteShifted(svc, q, body, j, k, f);
  }

  /** A fault past the share create, at call `k == j + 1`, is seen by the share-level writer at call `j`. */
  lemma WriteShifted(svc: Service, q: Query, body: seq<Byte>, j: nat, k: nat, f: StoreFailure)
    requires q.filename.Some? && !Text.IsBlank(q.filename.value)
    requires k == j + 1
    ensures Write(svc, q, body, FailsAt(k, f))
            == WriteAt(svc, ShareName(q), DirPath(q.dir), Location(Segments(DirPath(q.dir)), q.filename.value), body, FailsAt(j, f))
  {
    WriteUnfold(svc, q, body, FailsAt(k, f));
    ShiftPastFirst(j, k, f);
  }

  /** Moving past one call turns a fault at call `k == j + 1` into one at call `j`. */
  lemma ShiftPastFirst(j: nat, k: nat, f: StoreFailure)
    requires k == j + 1
    ensures Shift(FailsAt(k, f), 1) == FailsAt(j, f)
  {
  }

  /** Once the share exists, a fault at one of the store calls never answers `Written`. */
  lemma WriteAtFaultNotWritten(svc: Service, share: string, dirPath: string, file: Location, body: seq<Byte>, k: nat, f: StoreFailure)
    requires k < |file.dir| + |FileSteps(file, body)|
    ensures !WriteAt(svc, share, dirPath, file, body, FailsAt(k, f)).response.Written?
  {
    StoreFaultFails(ShareOf(svc, share), file, body, k, f);
  }

  /** Once the share exists, a fault at one of the store calls of a non-empty body is the one answered. */
  lemma WriteAtFaultAnswersFailure(svc: Service, share: string, dirPath: string, file: Location, body: seq<Byte>, k: nat, f: StoreFailure)
    requires [] in ShareOf(svc, share).dirs && body != []
    requires k < |file.dir| + |FileSteps(file, body)|
    ensures WriteAt(svc, share, dirPath, file, body, FailsAt(k, f)).response == FailureResponse(f)
  {
    StoreFaultIsThrown(ShareOf(svc, share), file, body, k, f);
  }

  /**
   * In a well-formed service the writer's own calls are never refused, so a
   * throw at any of them is the one answered: 400 for a refusal, else 500.
   */
  lemma WriteFaultAnswersFailure(svc: Service, q: Query, body: seq<Byte>, k: nat, f: StoreFailure)
    requires ServiceWellFormed(svc)
    requires q.filename.Some? && !Text.IsBlank(q.filename.value)
    requires body != []
    requires var file := Location(Segments(DirPath(q.dir)), q.filename.value);
             k <= |file.dir| + |FileSteps(file, body)|
    ensures Write(svc, q, body, FailsAt(k, f)).response == FailureResponse(f)
  {
    if k == 0 {
      ShareCreateFails(svc, q, body, k, f);
    } else {
      LaterFaultAnswersFailure(svc, q, body, k, f);
    }
  }

  /** A throw at a directory or file call of a well-formed service is the one answered. */
  lemma LaterFaultAnswersFailure(svc: Service, q: Query, body: seq<Byte>, k: nat, f: StoreFailure)
    requires ServiceWellFormed(svc)
    requires q.filename.Some? && !Text.IsBlank(q.filename.value)
    requires body != []
    requires 0 < k <= |Segments(DirPath(q.dir))| + |FileSteps(Location(Segments(DirPath(q.dir)), q.filename.value), body)|
    ensures Write(svc, q, body, FailsAt(k, f)).response == FailureResponse(f)
  {
    var j: nat := k - 1;
    assert [] in ShareOf(svc, ShareName(q)).dirs by {
      ShareOfWellFormed(svc, ShareName(q));
    }
    WriteAtFaultAnswersFailure(svc, ShareName(q), DirPath(q.dir), Location(Segments(DirPath(q.dir)), q.filename.value), body, j, f);
    WriteShifted(svc, q, body, j, k, f);
  }

  /** A refusal answers 400 with the store's error code, anything else 500. */
  lemma FailureStatus(f: StoreFailure)
    ensures WriteStatus(FailureResponse(f)) == (if f.Refused? then 400 else 500)
    ensures f.Refused? ==> FailureResponse(f).azureError == f.e.code
  {
  }
}

=== FILE: json.dfy ===
/**
 * An already-parsed `System.Text.Json` document and the `JsonElement`
 * accessors the handlers call: `TryGetProperty`, `GetString`, `TryGetInt64`
 * and `ToString`.
 */
module Json {
  import opened Wrappers

  const MinInt64: int := -0x8000_0000_0000_0000
  const MaxInt64: int := 0x7FFF_FFFF_FFFF_FFFF

  type Int64 = x: int | MinInt64 <= x <= MaxInt64

  /**
   * A JSON number literal: optional minus sign, integer part, the digits after
   * the decimal point (empty when there is no point) and the exponent (when
   * an `e`/`E` part is present).
   */
  datatype Number = Number(negative: bool, integral: nat, fraction: string, exponent: Option<int>) {

    /** The value of the integer part with its sign. */
    function SignedIntegral(): int {
      if negative then -(integral as int) else integral
    }
  }

  /**
   * One JSON value. Nested arrays and objects are kept as the exact text they
   * occupy in the document, which is all the handlers ever ask of them.
   */
  datatype JsonValue =
    | JString(s: string)
    | JNumber(n: Number)
    | JTrue
    | JFalse
    | JNull
    | JArray(rawText: string)
    | JObject(rawText: string)

  /** One top-level member of an object, in document order; names may repeat. */
  datatype Member = Member(name: string, value: JsonValue)

  /** A request or message body after `JsonDocument.Parse`. */
  datatype Body =
    | Malformed                       // the parser threw
    | NotAnObject                     // the root is an array, string, number, ...
    | Object(members: seq<Member>)

  /** What a `JsonElement` accessor throws when the value has the wrong kind. */
  datatype Fault = WrongKind(accessor: string)

  /** `TryGetProperty(name, out v)`: exact-name match; a repeated name yields its last definition. */
  function Find(ms: seq<Member>, name: string): (r: Option<JsonValue>)
    ensures r.None? <==> forall i :: 0 <= i < |ms| ==> ms[i].name != name
    ensures r.Some? ==> exists i :: 0 <= i < |ms| && ms[i] == Member(name, r.value)
                                    && forall j :: i < j < |ms| ==> ms[j].name != name
  {
    if |ms| == 0 then None
    else if ms[|ms| - 1].name == name then Some(ms[|ms| - 1].value)
    else Find(ms[..|ms| - 1], name)
  }

  /** Whether some member has this name. */
  predicate Has(ms: seq<Member>, name: string) {
    exists i :: 0 <= i < |ms| && ms[i].name == name
  }

  /** `GetString()`: the string, `null` for a JSON null, and a throw for any other kind. */
  function GetString(v: JsonValue): Result<Option<string>, Fault> {
    match v
    case JString(s) => Success(Some(s))
    case JNull => Success(None)
    case _ => Failure(WrongKind("GetString"))
  }

  /**
   * A string member read with a default:
   * the fallback for an absent or null member, a throw for a member of another kind.
   */
  function StringOr(ms: seq<Member>, name: string, fallback: string): (r: Result<string, Fault>)
    ensures Find(ms, name).None? ==> r == Success(fallback)
    ensures Find(ms, name) == Some(JNull) ==> r == Success(fallback)
    ensures forall s :: Find(ms, name) == Some(JString(s)) ==> r == Success(s)
    ensures r.Failure? <==> Find(ms, name).Some? && !Find(ms, name).value.JString? && !Find(ms, name).value.JNull?
  {
    match Find(ms, name)
    case None => Success(fallback)
    case Some(v) =>
      match GetString(v)
      case Failure(f) => Failure(f)
      case Success(s) => Success(s.GetOr(fallback))
  }

  /** `TryGetInt64(out l)`: succeeds for an integer literal without fraction or exponent that fits 64 bits. */
  function TryGetInt64(n: Number): (r: Option<Int64>)
    ensures r.Some? <==> n.fraction == [] && n.exponent.None? && MinInt64 <= n.SignedIntegral() <= MaxInt64
    ensures r.Some? ==> r.value == n.SignedIntegral()
  {
    var v := n.SignedIntegral();
    if n.fraction == [] && n.exponent.None? && MinInt64 <= v <= MaxInt64 then Some(v) else None
  }

  /** `ToString()` of an element that is neither string, number nor boolean. */
  function FallbackText(v: JsonValue): string {
    match v
    case JArray(raw) => raw
    case JObject(raw) => raw
    case _ => ""
  }
}

=== FILE: list_members.dfy ===
/**
 * The member listing handler: read `partition`, `search` and `take` from the
 * query string, send the prefix-range filter to the entity store, collect at
 * most `take` rows from its pages, and narrow them again case-insensitively.
 */
module ListMembers {
  import opened Wrappers
  import Text
  import Numerals
  import opened TableStore
  import opened MemberQuery

  const DefaultPartition: string := "members"
  const DefaultTake: nat := 100
  const MaxTake: nat := 500

  /** The three query-string parameters, already URL-decoded; `None` when absent. */
  datatype Query = Query(partition: Option<string>, search: Option<string>, take: Option<string>)

  /** The `take` parameter when it parses as a 32-bit integer in 1..500, else 100. */
  function ClampTake(raw: Option<string>): (n: nat)
    ensures 1 <= n <= MaxTake
    ensures Numerals.ParseInt32(raw).Some? && 1 <= Numerals.ParseInt32(raw).value <= MaxTake
            ==> n == Numerals.ParseInt32(raw).value
    ensures !(Numerals.ParseInt32(raw).Some? && 1 <= Numerals.ParseInt32(raw).value <= MaxTake) ==> n == DefaultTake
  {
    match Numerals.ParseInt32(raw)
    case Some(t) => if 0 < t <= MaxTake as int then t else DefaultTake
    case None => DefaultTake
  }

  /** A `take` the client writes as a number in 1..500 is honoured. */
  lemma ShownTakeKept(n: int)
    requires 1 <= n <= MaxTake
    ensures ClampTake(Some(Numerals.IntToString(n))) == n
  {
    Numerals.ParseShownInt32(n);
  }

  /** A `take` written as a number outside 1..500 falls back to 100. */
  lemma ShownTakeOutOfRange(n: int)
    requires Numerals.MinInt32 <= n <= Numerals.MaxInt32
    requires n < 1 || n > MaxTake
    ensures ClampTake(Some(Numerals.IntToString(n))) == DefaultTake
  {
    Numerals.ParseShownInt32(n);
  }

  /** One listed member: the anonymous object the handler serialises. */
  datatype Item = Item(id: string, name: Option<string>, email: Option<string>,
                       partitionKey: string, rowKey: string, timestamp: Instant)

  /**
   * `value?.ToString()` of a stored property: a string is itself; how other
   * kinds print (`long`, `double`, `bool`, ...) is the `format` parameter.
   */
  function Shown(v: Value, format: Value -> string): (r: string)
    ensures v.VString? ==> r == v.s
  {
    if v.VString? then v.s else format(v)
  }

  /** A row's property as text: absent when the row lacks it, else its printed value. */
  function Lookup(row: Row, name: string, format: Value -> string): (r: Option<string>)
    ensures r.Some? <==> name in row.fields
    ensures name in row.fields && row.fields[name].VString? ==> r == Some(row.fields[name].s)
    ensures name in row.fields && !row.fields[name].VString? ==> r == Some(format(row.fields[name]))
  {
    if name in row.fields then Some(Shown(row.fields[name], format)) else None
  }

  /** The item built from one returned row. */
  function Project(row: Row, format: Value -> string): (item: Item)
    ensures item.id == item.rowKey == row.key.row
    ensures item.partitionKey == row.key.partition && item.timestamp == row.timestamp
    ensures item.name == Lookup(row, "Name", format) && item.email == Lookup(row, "Email", format)
    ensures "Name" in row.fields && row.fields["Name"].VString? ==> item.name == Some(row.fields["Name"].s)
    ensures "Email" in row.fields && row.fields["Email"].VString? ==> item.email == Some(row.fields["Email"].s)
  {
    Item(row.key.row, Lookup(row, "Name", format), Lookup(row, "Email", format),
         row.key.partition, row.key.row, row.timestamp)
  }

  function ProjectAll(rows: seq<Row>, format: Value -> string): (items: seq<Item>)
    ensures |items| == |rows|
    ensures forall k :: 0 <= k < |rows| ==> items[k] == Project(rows[k], format)
  {
    seq(|rows|, k requires 0 <= k < |rows| => Project(rows[k], format))
  }

  /** The first `n` elements, or all when there are fewer (LINQ `Take`). */
  function Take<T>(s: seq<T>, n: nat): (r: seq<T>)
    ensures |r| == if |s| <= n then |s| else n
    ensures r == s[..|r|]
  {
    if |s| <= n then s else s[..n]
  }

  /** The rows of all pages in order. */
  function Flatten(pages: seq<seq<Row>>): seq<Row> {
    if |pages| == 0 then [] else Flatten(pages[..|pages| - 1]) + pages[|pages| - 1]
  }

  /** The rows of the first pages come first. */
  lemma {:induction false} FlattenPrefix(pages: seq<seq<Row>>, i: nat)
    requires i <= |pages|
    ensures Flatten(pages) == Flatten(pages[..i]) + Flatten(pages[i..])
    decreases |pages|
  {
    if i < |pages| {
      var last := |pages| - 1;
      FlattenPrefix(pages[..last], i);
      assert pages[..last][..i] == pages[..i];
      assert pages[i..][..|pages[i..]| - 1] == pages[..last][i..];
      assert Flatten(pages[i..]) == Flatten(pages[..last][i..]) + pages[last];
    } else {
      assert pages[..i] == pages;
      assert Flatten(pages[i..]) == [];
    }
  }

  /** Flattening one more page appends it. */
  lemma FlattenStep(pages: seq<seq<Row>>, i: nat)
    requires i < |pages|
    ensures Flatten(pages[..i + 1]) == Flatten(pages[..i]) + pages[i]
  {
    assert pages[..i + 1][..i] == pages[..i];
  }

  /**
   * The store's pages: the matching rows in store order, cut into pages of at
   * most `size` rows (`maxPerPage: take`).
   */
  function Chunk(rows: seq<Row>, size: nat): (pages: seq<seq<Row>>)
    requires size >= 1
    ensures forall k :: 0 <= k < |pages| ==> 1 <= |pages[k]| <= size
    decreases |rows|
  {
    if |rows| == 0 then []
    else if |rows| <= size then [rows]
    else [rows[..size]] + Chunk(rows[size..], size)
  }

  /** Paging loses and reorders nothing. */
  lemma {:induction false} ChunkFlatten(rows: seq<Row>, size: nat)
    requires size >= 1
    ensures Flatten(Chunk(rows, size)) == rows
    decreases |rows|
  {
    if |rows| > size {
      ChunkFlatten(rows[size..], size);
      FlattenCons(rows[..size], Chunk(rows[size..], size));
      assert rows[..size] + rows[size..] == rows;
    } else if |rows| > 0 {
      FlattenCons(rows, []);
    }
  }

  /** Flattening a page followed by more pages. */
  lemma {:induction false} FlattenCons(page: seq<Row>, rest: seq<seq<Row>>)
    ensures Flatten([page] + rest) == page + Flatten(rest)
    decreases |rest|
  {
    if |rest| == 0 {
      assert [page] + rest == [page];
      assert [page][..0] == [];
    } else {
      var pages := [page] + rest;
      var init := rest[..|rest| - 1];
      assert pages[..|pages| - 1] == [page] + init;
      assert pages[|pages| - 1] == rest[|rest| - 1];
      FlattenCons(page, init);
    }
  }

  /**
   * The `await foreach` over pages with its two early exits: items are added
   * row by row, and the loops stop as soon as `take` items are held. The
   * result is the first `take` rows of all pages, however the store pages
   * them.
   */
  method Collect(pages: seq<seq<Row>>, take: nat, format: Value -> string) returns (items: seq<Item>)
    requires take >= 1
    ensures items == ProjectAll(Take(Flatten(pages), take), format)
  {
    items := [];
    var i := 0;
    while i < |pages|
      invariant 0 <= i <= |pages|
      invariant |Flatten(pages[..i])| < take
      invariant items == ProjectAll(Flatten(pages[..i]), format)
    {
      var page := pages[i];
      var j := 0;
      while j < |page|
        invariant 0 <= j <= |page|
        invariant |Flatten(pages[..i]) + page[..j]| < take
        invariant items == ProjectAll(Flatten(pages[..i]) + page[..j], format)
      {
        var seen := Flatten(pages[..i]) + page[..j + 1];
        assert seen == (Flatten(pages[..i]) + page[..j]) + [page[j]];
        items := items + [Project(page[j], format)];
        assert items == ProjectAll(seen, format);
        j := j + 1;
        if |items| >= take {
          FlattenStep(pages, i);
          FlattenPrefix(pages, i + 1);
          assert Flatten(pages) == Flatten(pages[..i]) + page + Flatten(pages[i + 1..]);
          assert seen == Flatten(pages)[..take];
          return;
        }
      }
      FlattenStep(pages, i);
      assert page[..j] == page;
      i := i + 1;
    }
    assert pages[..i] == pages;
  }

  /** The name or the e-mail, lower-cased, contains the needle; a missing one never matches. */
  predicate ClientMatch(item: Item, needle: string) {
    || (item.name.Some? && Text.Contains(Text.Lower(item.name.value), needle))
    || (item.email.Some? && Text.Contains(Text.Lower(item.email.value), needle))
  }

  /** Keeps the matching items, in their order. */
  function Refine(items: seq<Item>, needle: string): (r: seq<Item>)
    ensures |r| <= |items|
  {
    if |items| == 0 then []
    else
      var rest := Refine(items[..|items| - 1], needle);
      var last := items[|items| - 1];
      if ClientMatch(last, needle) then rest + [last] else rest
  }

  /** The refined list holds exactly the matching items. */
  lemma {:induction false} RefineKeepsMatching(items: seq<Item>, needle: string)
    ensures forall x :: x in Refine(items, needle) <==> x in items && ClientMatch(x, needle)
    decreases |items|
  {
    if |items| > 0 {
      var init := items[..|items| - 1];
      var last := items[|items| - 1];
      RefineKeepsMatching(init, needle);
      assert items == init + [last];
    }
  }

  /** Refining a concatenation refines each part, so the relative order of kept items is the original order. */
  lemma {:induction false} RefineAppend(a: seq<Item>, b: seq<Item>, needle: string)
    ensures Refine(a + b, needle) == Refine(a, needle) + Refine(b, needle)
    decreases |b|
  {
    if |b| == 0 {
      assert a + b == a;
    } else {
      var init := b[..|b| - 1];
      var last := b[|b| - 1];
      var ab := a + b;
      assert ab[..|ab| - 1] == a + init;
      assert ab[|ab| - 1] == last;
      RefineAppend(a, init, needle);
      var tail := if ClientMatch(last, needle) then [last] else [];
      calc {
        Refine(ab, needle);
        Refine(a + init, needle) + tail;
        Refine(a, needle) + Refine(init, needle) + tail;
        Refine(a, needle) + (Refine(init, needle) + tail);
        Refine(a, needle) + Refine(b, needle);
      }
    }
  }

  /** Refining twice is refining once. */
  lemma {:induction false} RefineIdempotent(items: seq<Item>, needle: string)
    ensures Refine(Refine(items, needle), needle) == Refine(items, needle)
    decreases |items|
  {
    if |items| > 0 {
      var init := items[..|items| - 1];
      var last := items[|items| - 1];
      RefineIdempotent(init, needle);
      if ClientMatch(last, needle) {
        RefineAppend(Refine(init, needle), [last], needle);
        assert Refine([last], needle) == Refine([], needle) + [last];
      }
    }
  }

  /** Which failure, if any, the store raises. */
  datatype ListFault = NoFault | FailsOnCreate(e: StoreError) | FailsOnQuery(e: StoreError)

  datatype Response =
    | Listed(count: nat, items: seq<Item>)               // 200 { ok, count, items }
    | QueryFailed(azureError: string, message: string)   // 400 from the RequestFailedException handler
    | Unhandled                                          // CreateIfNotExists threw outside the try

  /** The rows the store returns for a filter, in store order. */
  function Select(rows: seq<Row>, f: Filter): (r: seq<Row>)
    ensures |r| <= |rows|
    ensures forall x :: x in r <==> x in rows && Eval(f, x)
  {
    if |rows| == 0 then []
    else
      var rest := Select(rows[..|rows| - 1], f);
      var last := rows[|rows| - 1];
      assert rows == rows[..|rows| - 1] + [last];
      if Eval(f, last) then rest + [last] else rest
  }

  /** Every item is the projection of a row of `rows` that the filter selects. */
  predicate FromSelected(items: seq<Item>, rows: seq<Row>, f: Filter, format: Value -> string) {
    forall x :: x in items ==> exists r :: r in rows && Eval(f, r) && x == Project(r, format)
  }

  /** What the collection loop returns comes from the selected rows. */
  lemma TakenFromSelected(rows: seq<Row>, f: Filter, take: nat, format: Value -> string)
    ensures FromSelected(ProjectAll(Take(Select(rows, f), take), format), rows, f, format)
  {
    var matches := Select(rows, f);
    var items := ProjectAll(Take(matches, take), format);
    forall x | x in items
      ensures exists r :: r in rows && Eval(f, r) && x == Project(r, format)
    {
      var k :| 0 <= k < |items| && items[k] == x;
      assert Take(matches, take)[k] == matches[k];
      assert matches[k] in matches;
    }
  }

  /** A row the filter selects lies in the requested partition. */
  lemma SelectedInPartition(partition: string, search: string, row: Row)
    requires Eval(BuildFilter(partition, search), row)
    ensures row.key.partition == partition
  {
    assert PropertyText(row, PartitionKeyName) == Some(row.key.partition);
  }

  /**
   * Server-side, a listed row lies in the partition and, for a non-blank
   * search, its Name or Email starts with the search term exactly.
   */
  lemma SelectedStartWith(rows: seq<Row>, partition: string, search: string)
    requires forall r :: r in rows ==> Searchable(r)
    ensures forall r :: r in Select(rows, BuildFilter(partition, search)) ==>
              && r.key.partition == partition
              && (Text.IsBlank(search) || StartsWith(r, "Name", search) || StartsWith(r, "Email", search))
  {
    forall r | r in Select(rows, BuildFilter(partition, search))
      ensures r.key.partition == partition
      ensures Text.IsBlank(search) || StartsWith(r, "Name", search) || StartsWith(r, "Email", search)
    {
      FilterSelects(partition, search, r);
    }
  }

  /**
   * The store compares case-sensitively, so the in-memory case-insensitive
   * pass can only narrow: a member named "Wabo" matches "wa" in that pass but
   * is never returned by the store for the search "wa".
   */
  lemma CaseInsensitivePassCannotWiden(format: Value -> string)
    ensures var row := Row(Key("members", "m1"), map["Name" := VString("Wabo")], Instant(0));
            && !Eval(BuildFilter("members", "wa"), row)
            && ClientMatch(Project(row, format), "wa")
  {
    var row := Row(Key("members", "m1"), map["Name" := VString("Wabo")], Instant(0));
    assert PropertyText(row, "Name") == Some("Wabo");
    assert PropertyText(row, "Email") == None;
    assert !Text.LessOrEqual("wa", "Wabo");
    assert !Text.IsBlank("wa") by {
      assert !Text.IsWhiteSpace('w');
    }
    assert Text.Lower("Wabo") == "wabo";
    assert Text.OccursAt("wabo", "wa", 0);
  }

  /** The effective parameters: partition, trimmed search and clamped take. */
  function Partition(q: Query): (p: string)
    ensures q.partition.None? ==> p == DefaultPartition
    ensures q.partition.Some? ==> p == q.partition.value
  {
    q.partition.GetOr(DefaultPartition)
  }

  /** The raw `search` with the white space at both ends removed; blank exactly when the raw one is. */
  function Search(q: Query): (s: string)
    ensures var raw := q.search.GetOr("");
            var k := Text.LeadingCount(raw, Text.IsWhiteSpace);
            && k + |s| <= |raw| && s == raw[k..k + |s|]
            && (forall i :: 0 <= i < k ==> Text.IsWhiteSpace(raw[i]))
            && (forall i :: k + |s| <= i < |raw| ==> Text.IsWhiteSpace(raw[i]))
    ensures s == [] || (!Text.IsWhiteSpace(s[0]) && !Text.IsWhiteSpace(s[|s| - 1]))
    ensures Text.IsBlank(s) <==> s == []
    ensures Text.IsBlank(s) <==> Text.IsBlank(q.search.GetOr(""))
  {
    Text.TrimmedBlankIsEmpty(q.search.GetOr(""));
    Text.Trim(q.search.GetOr(""))
  }

  /**
   * The handler. `rows` is the table in the store's order and `format` how
   * non-string property values print.
   */
  method Run(q: Query, rows: seq<Row>, fault: ListFault, format: Value -> string) returns (resp: Response)
    ensures fault.FailsOnCreate? ==> resp == Unhandled
    ensures fault.FailsOnQuery? ==> resp == QueryFailed(fault.e.code, fault.e.message)
    ensures fault.NoFault? ==> resp.Listed?
    ensures resp.Listed? ==> resp.count == |resp.items| <= ClampTake(q.take)
    ensures resp.Listed? ==> forall x :: x in resp.items ==> x.partitionKey == Partition(q)
    ensures resp.Listed? ==> FromSelected(resp.items, rows, BuildFilter(Partition(q), Search(q)), format)
    ensures resp.Listed? && !Text.IsBlank(Search(q)) ==>
              forall x :: x in resp.items ==> ClientMatch(x, Text.Lower(Search(q)))
    ensures resp.Listed? && Text.IsBlank(Search(q)) ==>
              resp.items == ProjectAll(Take(Select(rows, BuildFilter(Partition(q), Search(q))), ClampTake(q.take)), format)
    ensures resp.Listed? && !Text.IsBlank(Search(q)) ==>
              resp.items == Refine(ProjectAll(Take(Select(rows, BuildFilter(Partition(q), Search(q))), ClampTake(q.take)), format),
                                   Text.Lower(Search(q)))
  {
    var partition := Partition(q);
    var search := Search(q);
    var take := ClampTake(q.take);
    if fault.FailsOnCreate? {
      return Unhandled;
    }
    var filter := BuildFilter(partition, search);
    var matches := Select(rows, filter);
    if fault.FailsOnQuery? {
      return QueryFailed(fault.e.code, fault.e.message);
    }
    ChunkFlatten(matches, take);
    var items := Collect(Chunk(matches, take), take, format);
    TakenFromSelected(rows, filter, take, format);
    if !Text.IsBlank(search) {
      RefineKeepsMatching(items, Text.Lower(search));
      items := Refine(items, Text.Lower(search));
    }
    assert FromSelected(items, rows, filter, format);
    forall x | x in items
      ensures x.partitionKey == partition
    {
      var r :| r in rows && Eval(filter, r) && x == Project(r, format);
      SelectedInPartition(partition, search, r);
    }
    return Listed(|items|, items);
  }
}

=== FILE: member_query.dfy ===
/*
 * The interpolated filter string and the filter tree's rendering are the same
 * pieces in the same order, grouped differently. The lemmas here are stated
 * over opaque pieces so that each step is a small regrouping: `and_`, `or_`
 * are the connectives, `op`/`cp` the parentheses, `q` the quote, and
 * `ng`/`nl`/`eg`/`el` the "Name ge '"-style openings of the four comparisons.
 */
module Regrouping {
  /** Regrouping one concatenation. */
  lemma Assoc(a: string, b: string, c: string)
    ensures a + (b + c) == a + b + c
  {}
  /** A rendered range clause, regrouped around the interpolation's fragment between its two literals. */
  lemma Range(g: string, lo: string, and_: string, l: string, hi: string, q: string)
    ensures (g + lo + q) + and_ + (l + hi + q) == g + lo + (q + and_ + l) + hi + q
  {}
  /** The rendered conjunction and disjunction, with their parentheses gathered into the interpolation's fragments. */
  lemma Outer(base: string, and_: string, or_: string, op: string, cp: string, q: string, x: string, y: string)
    ensures base + and_ + (op + ((op + (x + q) + cp) + or_ + (op + (y + q) + cp)) + cp)
         == base + (and_ + op + op) + x + (q + cp + or_ + op) + y + (q + cp + cp)
  {}
  /** Flattening a four-piece group. */
  lemma Flatten4(u: string, a: string, b: string, c: string, d: string)
    ensures u + (a + b + c + d) == u + a + b + c + d
  {}
  /**
   * The rendering of the filter tree and the interpolation agree once the
   * literal fragments `p1`..`p5` of the interpolation are cut at the tree's
   * seams.
   */
  lemma Regroup(base: string, lo: string, hi: string, and_: string, or_: string, op: string, cp: string, q: string,
                ng: string, nl: string, eg: string, el: string,
                p1: string, p2: string, p3: string, p4: string, p5: string)
    requires p1 == and_ + op + op + ng
    requires p2 == q + and_ + nl
    requires p3 == q + cp + or_ + op + eg
    requires p4 == q + and_ + el
    requires p5 == q + cp + cp
    ensures base + and_ + (op + ((op + ((ng + lo + q) + and_ + (nl + hi + q)) + cp) + or_
                                 + (op + ((eg + lo + q) + and_ + (el + hi + q)) + cp)) + cp)
         == base + p1 + lo + p2 + hi + p3 + lo + p4 + hi + p5
  {
    var x := ng + lo + p2 + hi;
    var y := eg + lo + p4 + hi;
    Range(ng, lo, and_, nl, hi, q);
    Range(eg, lo, and_, el, hi, q);
    Outer(base, and_, or_, op, cp, q, x, y);
    var a := and_ + op + op;
    var b := q + cp + or_ + op;
    Flatten4(base + a, ng, lo, p2, hi);
    Assoc(base, a, ng);
    var w := base + p1 + lo + p2 + hi;
    Flatten4(w + b, eg, lo, p4, hi);
    Assoc(w, b, eg);
  }
}

/**
 * The server-side half of the member search: the OData filter string the
 * handler sends to the entity store, a syntax tree for it, and the store's
 * reading of that tree over one row.
 *
 * The store has no "contains", so "starts with" is emulated by the range
 * `[term, term + U+FFFF)` under ordinal order.
 */
module MemberQuery {
  import opened Wrappers
  import Text
  import opened TableStore
  import Regrouping

  /** The upper-bound sentinel U+FFFF appended by `prefixHi`. */
  const Sentinel: char := '\U{FFFF}'

  /** A row as the store returns it, with its store-maintained timestamp. */
  datatype Row = Row(key: Key, fields: Fields, timestamp: Instant)

  /** The number of single quotes in `s`. */
  function QuoteCount(s: string): nat {
    if |s| == 0 then 0 else (if s[0] == '\'' then 1 else 0) + QuoteCount(s[1..])
  }

  /** Escapes a literal for the filter by doubling every single quote. */
  function Esc(s: string): (r: string)
    ensures |r| == |s| + QuoteCount(s)
  {
    if |s| == 0 then [] else (if s[0] == '\'' then "''" else [s[0]]) + Esc(s[1..])
  }

  /** Escaping distributes over concatenation. */
  lemma {:induction false} EscAppend(a: string, b: string)
    ensures Esc(a + b) == Esc(a) + Esc(b)
    decreases |a|
  {
    if |a| > 0 {
      var head := if a[0] == '\'' then "''" else [a[0]];
      assert (a + b)[0] == a[0];
      assert (a + b)[1..] == a[1..] + b;
      EscAppend(a[1..], b);
      calc {
        Esc(a + b);
        head + Esc((a + b)[1..]);
        head + Esc(a[1..] + b);
        head + (Esc(a[1..]) + Esc(b));
        (head + Esc(a[1..])) + Esc(b);
        Esc(a) + Esc(b);
      }
    } else {
      assert a + b == b;
    }
  }

  /**
   * How the store reads the body of a quoted literal: `''` stands for one
   * quote and a lone quote closes the literal. Returns the value and the text
   * after the closing quote; `None` when the literal is never closed.
   */
  function ReadLiteral(t: string): Option<(string, string)>
    decreases |t|
  {
    if |t| == 0 then None
    else if t[0] == '\'' then
      if |t| > 1 && t[1] == '\'' then
        match ReadLiteral(t[2..])
        case None => None
        case Some(p) => Some(("'" + p.0, p.1))
      else Some(([], t[1..]))
    else
      match ReadLiteral(t[1..])
      case None => None
      case Some(p) => Some(([t[0]] + p.0, p.1))
  }

  /**
   * Un-doubling recovers the input: a literal written as `'` + `Esc(s)` + `'`
   * reads back as exactly `s`, and the store resumes right after it.
   */
  lemma {:induction false} ReadEscaped(s: string, rest: string)
    requires |rest| == 0 || rest[0] != '\''
    ensures ReadLiteral(Esc(s) + "'" + rest) == Some((s, rest))
    decreases |s|
  {
    if |s| == 0 {
      assert Esc(s) + "'" + rest == "'" + rest;
    } else {
      var u := Esc(s[1..]) + "'" + rest;
      ReadEscaped(s[1..], rest);
      var head := if s[0] == '\'' then "''" else [s[0]];
      var t := head + u;
      assert Esc(s) + "'" + rest == t by {
        assert Esc(s) == head + Esc(s[1..]);
      }
      if s[0] == '\'' {
        assert t[0] == '\'' && t[1] == '\'' && t[2..] == u;
        assert ReadLiteral(t) == Some(("'" + s[1..], rest));
        assert "'" + s[1..] == s;
      } else {
        assert t[0] == s[0] && t[1..] == u;
        assert ReadLiteral(t) == Some(([s[0]] + s[1..], rest));
        assert [s[0]] + s[1..] == s;
      }
    }
  }

  /** Comparison operators of the filter language. */
  datatype Op = Eq | Ge | Lt

  /** A filter expression: a comparison of a property with a string literal, or a conjunction or disjunction. */
  datatype Filter =
    | Compare(property: string, op: Op, literal: string)
    | And(left: Filter, right: Filter)
    | Or(left: Filter, right: Filter)

  function OpText(op: Op): string {
    match op
    case Eq => " eq "
    case Ge => " ge "
    case Lt => " lt "
  }

  /** The filter as OData text; compound operands are parenthesised. */
  function Render(f: Filter): string {
    match f
    case Compare(p, op, lit) => p + OpText(op) + "'" + Esc(lit) + "'"
    case And(a, b) =>
      (if a.Compare? then Render(a) else "(" + Render(a) + ")") + " and "
      + (if b.Compare? then Render(b) else "(" + Render(b) + ")")
    case Or(a, b) =>
      (if a.Compare? then Render(a) else "(" + Render(a) + ")") + " or "
      + (if b.Compare? then Render(b) else "(" + Render(b) + ")")
  }

  /** The string value of a property of a row: the two keys, or a string-typed field. */
  function PropertyText(row: Row, name: string): Option<string> {
    if name == PartitionKeyName then Some(row.key.partition)
    else if name == RowKeyName then Some(row.key.row)
    else if name in row.fields && row.fields[name].VString? then Some(row.fields[name].s)
    else None
  }

  /**
   * The store's verdict on one row. A comparison with a missing property or a
   * property of another type is false.
   */
  predicate Eval(f: Filter, row: Row) {
    match f
    case Compare(p, op, lit) =>
      (match PropertyText(row, p)
       case None => false
       case Some(v) =>
         match op
         case Eq => v == lit
         case Ge => Text.LessOrEqual(lit, v)
         case Lt => Text.Less(v, lit))
    case And(a, b) => Eval(a, row) && Eval(b, row)
    case Or(a, b) => Eval(a, row) || Eval(b, row)
  }

  /**
   * The filter string exactly as the handler interpolates it: the partition
   * clause, and for a non-blank search the Name/Email range clauses with
   * `lo = Esc(search)` and `hi = Esc(prefixHi(search))`.
   */
  function FilterText(partition: string, search: string): (r: string)
    ensures Text.IsPrefix("PartitionKey eq '" + Esc(partition) + "'", r)
    ensures Text.IsBlank(search) ==> r == "PartitionKey eq '" + Esc(partition) + "'"
  {
    var filter := "PartitionKey eq '" + Esc(partition) + "'";
    if Text.IsBlank(search) then filter
    else
      var lo := Esc(search);
      var hi := Esc(search + [Sentinel]);
      filter + " and ((Name ge '" + lo + "' and Name lt '" + hi + "') or (Email ge '" + lo
      + "' and Email lt '" + hi + "'))"
  }

  /** The `[term, term + U+FFFF)` range over one property. */
  function PrefixRange(property: string, term: string): Filter {
    And(Compare(property, Ge, term), Compare(property, Lt, term + [Sentinel]))
  }

  /** The filter as a tree. */
  function BuildFilter(partition: string, search: string): (f: Filter)
    ensures Text.IsBlank(search) <==> f == Compare(PartitionKeyName, Eq, partition)
    ensures !Text.IsBlank(search) ==> f.And? && f.left == Compare(PartitionKeyName, Eq, partition)
                                      && f.right == Or(PrefixRange("Name", search), PrefixRange("Email", search))
  {
    var base := Compare(PartitionKeyName, Eq, partition);
    if Text.IsBlank(search) then base
    else And(base, Or(PrefixRange("Name", search), PrefixRange("Email", search)))
  }

  /** The upper bound is the escaped term followed by the sentinel, as the sentinel is not a quote. */
  lemma UpperBoundIsLowerPlusSentinel(search: string)
    ensures Esc(search + [Sentinel]) == Esc(search) + [Sentinel]
  {
    EscAppend(search, [Sentinel]);
  }

  /** The literal fragments of the interpolation around the name range, cut at the tree's seams. */
  lemma NameFragments()
    ensures " and ((Name ge '" == " and " + "(" + "(" + ("Name" + " ge " + "'")
    ensures "' and Name lt '" == "'" + " and " + ("Name" + " lt " + "'")
    ensures "'))" == "'" + ")" + ")"
  {
  }

  /** The literal fragments of the e-mail half, cut the same way. */
  lemma EmailFragments()
    ensures "') or (Email ge '" == "'" + ")" + " or " + "(" + ("Email" + " ge " + "'")
    ensures "' and Email lt '" == "'" + " and " + ("Email" + " lt " + "'")
  {
  }

  /** The interpolated string is the rendering of the tree, so the tree's meaning is the string's. */
  lemma FilterTextRendersTree(partition: string, search: string)
    ensures FilterText(partition, search) == Render(BuildFilter(partition, search))
  {
    var base := "PartitionKey eq '" + Esc(partition) + "'";
    assert Render(Compare(PartitionKeyName, Eq, partition)) == base;
    if !Text.IsBlank(search) {
      var lo := Esc(search);
      var hi := Esc(search + [Sentinel]);
      var ranges := Or(PrefixRange("Name", search), PrefixRange("Email", search));
      assert Render(Compare("Name", Ge, search)) == "Name" + " ge " + "'" + lo + "'";
      assert Render(Compare("Name", Lt, search + [Sentinel])) == "Name" + " lt " + "'" + hi + "'";
      assert Render(Compare("Email", Ge, search)) == "Email" + " ge " + "'" + lo + "'";
      assert Render(Compare("Email", Lt, search + [Sentinel])) == "Email" + " lt " + "'" + hi + "'";
      assert Render(ranges) == "(" + Render(PrefixRange("Name", search)) + ")" + " or "
                             + ("(" + Render(PrefixRange("Email", search)) + ")");
      assert Render(BuildFilter(partition, search)) == base + " and " + ("(" + Render(ranges) + ")");
      NameFragments();
      EmailFragments();
      Regrouping.Regroup(base, lo, hi, " and ", " or ", "(", ")", "'",
                         "Name" + " ge " + "'", "Name" + " lt " + "'", "Email" + " ge " + "'", "Email" + " lt " + "'",
                         " and ((Name ge '", "' and Name lt '", "') or (Email ge '", "' and Email lt '", "'))");
    }
  }

  /** Every character sorts strictly below the sentinel. */
  predicate BelowSentinel(s: string) {
    forall i :: 0 <= i < |s| ==> s[i] < Sentinel
  }

  /**
   * The prefix-range trick: for a string whose characters all sort below
   * U+FFFF, `term <= s < term + U+FFFF` holds exactly when `term` is a prefix
   * of `s`.
   */
  lemma {:induction false} PrefixRangeIsStartsWith(term: string, s: string)
    requires BelowSentinel(s)
    ensures Text.LessOrEqual(term, s) && Text.Less(s, term + [Sentinel]) <==> Text.IsPrefix(term, s)
    decreases |term|
  {
    if |term| == 0 {
      assert Text.LessOrEqual(term, s);
      if |s| > 0 { assert s[0] < Sentinel; }
    } else if |s| == 0 {
      assert !Text.LessOrEqual(term, s);
    } else if term[0] == s[0] {
      PrefixRangeIsStartsWith(term[1..], s[1..]);
      assert (term + [Sentinel])[1..] == term[1..] + [Sentinel];
      assert Text.LessOrEqual(term, s) <==> Text.LessOrEqual(term[1..], s[1..]);
      assert Text.IsPrefix(term, s) <==> Text.IsPrefix(term[1..], s[1..]) by {
        if Text.IsPrefix(term[1..], s[1..]) {
          assert s[..|term|] == [s[0]] + s[1..][..|term| - 1];
        }
        if Text.IsPrefix(term, s) {
          assert s[1..][..|term| - 1] == s[..|term|][1..];
        }
      }
    } else {
      assert !Text.IsPrefix(term, s) by {
        if |term| <= |s| { assert s[..|term|][0] == s[0]; }
      }
    }
  }

  /** The named property is a string starting with `term`. */
  predicate StartsWith(row: Row, property: string, term: string) {
    PropertyText(row, property).Some? && Text.IsPrefix(term, PropertyText(row, property).value)
  }

  /** The Name and Email strings of the row, where present, sort below the sentinel. */
  predicate Searchable(row: Row) {
    && (PropertyText(row, "Name").Some? ==> BelowSentinel(PropertyText(row, "Name").value))
    && (PropertyText(row, "Email").Some? ==> BelowSentinel(PropertyText(row, "Email").value))
  }

  /** One range clause selects exactly the rows whose property starts with the term. */
  lemma RangeSelectsPrefix(row: Row, property: string, term: string)
    requires PropertyText(row, property).Some? ==> BelowSentinel(PropertyText(row, property).value)
    ensures Eval(PrefixRange(property, term), row) <==> StartsWith(row, property, term)
  {
    if PropertyText(row, property).Some? {
      PrefixRangeIsStartsWith(term, PropertyText(row, property).value);
    }
  }

  /**
   * What the store selects: rows of the partition, and for a non-blank search
   * only those whose Name or Email starts with the search term (case-sensitive).
   */
  lemma FilterSelects(partition: string, search: string, row: Row)
    requires Searchable(row)
    ensures Eval(BuildFilter(partition, search), row) <==>
              && row.key.partition == partition
              && (Text.IsBlank(search) || StartsWith(row, "Name", search) || StartsWith(row, "Email", search))
  {
    assert Eval(Compare(PartitionKeyName, Eq, partition), row) <==> row.key.partition == partition;
    if !Text.IsBlank(search) {
      RangeSelectsPrefix(row, "Name", search);
      RangeSelectsPrefix(row, "Email", search);
    }
  }
}

=== FILE: numerals.dfy ===
/**
 * Decimal numerals: `int.ToString()` and `int.TryParse(string, out int)` with
 * the default `NumberStyles.Integer` (surrounding white space and one leading
 * sign allowed, ASCII digits, 32-bit range).
 */
module Numerals {
  import opened Wrappers
  import Text

  const MinInt32: int := -0x8000_0000
  const MaxInt32: int := 0x7FFF_FFFF

  predicate IsDigit(c: char) {
    '0' <= c <= '9'
  }

  predicate AllDigits(s: string) {
    forall i :: 0 <= i < |s| ==> IsDigit(s[i])
  }

  function DigitChar(d: nat): (c: char)
    requires d < 10
    ensures IsDigit(c) && c as int - '0' as int == d
  {
    ('0' as int + d) as char
  }

  /** The value of a run of decimal digits, most significant first. */
  function DigitsValue(s: string): nat
    requires AllDigits(s)
  {
    if |s| == 0 then 0
    else DigitsValue(s[..|s| - 1]) * 10 + (s[|s| - 1] as int - '0' as int)
  }

  /** The shortest decimal digits of `n`. */
  function NatToDigits(n: nat): (s: string)
    ensures |s| > 0 && AllDigits(s)
    ensures s[0] != '0' || n == 0
  {
    if n < 10 then [DigitChar(n)] else NatToDigits(n / 10) + [DigitChar(n % 10)]
  }

  /** `int.ToString()` with the invariant culture: a minus sign for negatives. */
  function IntToString(n: int): string {
    if n < 0 then "-" + NatToDigits(-n) else NatToDigits(n)
  }

  /** Reading the digits of `n` back gives `n`. */
  lemma {:induction false} DigitsRoundTrip(n: nat)
    ensures DigitsValue(NatToDigits(n)) == n
  {
    if n >= 10 {
      var s := NatToDigits(n);
      DigitsRoundTrip(n / 10);
      assert s[..|s| - 1] == NatToDigits(n / 10);
    }
  }

  /** The white space `int.TryParse` skips around the numeral. */
  predicate IsNumberWhite(c: char) {
    c == ' ' || ('\U{0009}' <= c <= '\U{000D}')
  }

  /** `int.TryParse(s, out v)`: `None` for null, empty, malformed or out-of-range input. */
  function ParseInt32(s: Option<string>): (r: Option<int>)
    ensures r.Some? ==> s.Some? && MinInt32 <= r.value <= MaxInt32
  {
    match s
    case None => None
    case Some(t) => ParseNumeral(Text.TrimWhere(t, IsNumberWhite))
  }

  /** The trimmed text: an optional sign, at least one digit and nothing else, within 32 bits. */
  function ParseNumeral(u: string): (r: Option<int>)
    ensures r.Some? ==> MinInt32 <= r.value <= MaxInt32
    ensures r.Some? ==> |u| > 0 && IsDigit(u[|u| - 1])
  {
    var signed := |u| > 0 && (u[0] == '-' || u[0] == '+');
    var digits := if signed then u[1..] else u;
    if |digits| == 0 || !AllDigits(digits) then None
    else
      var magnitude: int := DigitsValue(digits);
      var v := if signed && u[0] == '-' then -magnitude else magnitude;
      if MinInt32 <= v <= MaxInt32 then Some(v) else None
  }

  /** Every 32-bit integer survives printing and re-parsing. */
  lemma ParseShownInt32(n: int)
    requires MinInt32 <= n <= MaxInt32
    ensures ParseInt32(Some(IntToString(n))) == Some(n)
  {
    var t := IntToString(n);
    var digits := if n < 0 then NatToDigits(-n) else NatToDigits(n);
    assert t == if n < 0 then "-" + digits else digits;
    assert (if n < 0 then -(DigitsValue(digits) as int) else DigitsValue(digits)) == n by {
      if n < 0 { DigitsRoundTrip(-n); } else { DigitsRoundTrip(n); }
    }
    assert Text.TrimWhere(t, IsNumberWhite) == t by {
      assert IsDigit(t[|t| - 1]) && (t[0] == '-' || IsDigit(t[0]));
      Text.TrimNothing(t, IsNumberWhite);
    }
    assert ParseNumeral(t) == Some(n) by {
      ParseDigits(n < 0, digits);
    }
  }

  /** A run of digits, with a minus sign or none, reads as its value when that fits. */
  lemma ParseDigits(negative: bool, digits: string)
    requires |digits| > 0 && AllDigits(digits)
    requires MinInt32 <= (if negative then -(DigitsValue(digits) as int) else DigitsValue(digits)) <= MaxInt32
    ensures ParseNumeral(if negative then "-" + digits else digits)
            == Some(if negative then -(DigitsValue(digits) as int) else DigitsValue(digits))
  {
    var u := if negative then "-" + digits else digits;
    assert negative ==> u[1..] == digits;
    assert !negative ==> IsDigit(u[0]);
  }
}

=== FILE: orders.dfy ===
/**
 * The order queue consumer: each message is a JSON object describing an
 * order event, reduced into one upsert (merge mode) on the orders table.
 *
 * The `type` member picks the branch, case-insensitively: "create" (also when
 * `type` is absent) writes the order's fields with defaults, "status" writes
 * only the status, and anything else, `"type": null` included, copies every
 * member through the coercion rule. The row key is `orderId`, or a fresh
 * identifier when it is absent, null or blank.
 *
 * A message whose handling throws is not acknowledged; the model reports it
 * as `Thrown` with the table unchanged.
 */
module OrdersReducer {
  import opened Wrappers
  import Text
  import Json
  import opened TableStore
  import Coercion

  const OrdersTable: string := "orders"
  const DefaultPartition: string := "orders"

  const OrderIdName: string := "OrderId"
  const UpdatedAtName: string := "UpdatedAt"
  const CustomerIdName: string := "CustomerId"
  const TotalName: string := "Total"
  const StatusName: string := "Status"
  const CreatedAtName: string := "CreatedAt"

  /**
   * What the handler reads from its surroundings: the identifier
   * `Guid.NewGuid()` would produce, the two clock readings of a create message
   * (`UpdatedAt` first, then the `CreatedAt` default), and the two parsers of
   * the base library the model does not re-implement.
   */
  datatype Env = Env(freshId: string, now: Instant, nowLater: Instant,
                     parseDecimal: Json.Number -> Option<Decimal>,
                     parseDateTime: string -> Option<Instant>)

  /** Where, if anywhere, the store refuses the request. */
  datatype StoreFault = NoFault | FailsOnCreate(e: StoreError) | FailsOnUpsert(e: StoreError)

  /** Why handling a message throws. */
  datatype Reason =
    | StoreFailed(e: StoreError)
    | Unparsable                    // `JsonDocument.Parse` threw
    | NotAnObjectRoot               // `TryGetProperty` on a root that is not an object
    | AccessorThrew(f: Json.Fault)  // `GetString`, `TryGetDecimal` or `TryGetDateTime` on a member of the wrong kind
    | KeyNotText                    // a generic message set `PartitionKey` or `RowKey` to a non-string

  datatype Branch = Create | StatusUpdate | Generic

  datatype Status = Done(branch: Branch, key: Key) | Thrown(reason: Reason)

  datatype Outcome = Outcome(table: Table, status: Status)

  /** The message kind: "create" when absent, null when null, a string lower-cased; any other kind throws. */
  function TypeOf(ms: seq<Json.Member>): (r: Result<Option<string>, Json.Fault>)
    ensures Json.Find(ms, "type").None? ==> r == Success(Some("create"))
    ensures Json.Find(ms, "type") == Some(Json.JNull) ==> r == Success(None)
    ensures forall s :: Json.Find(ms, "type") == Some(Json.JString(s)) ==> r == Success(Some(Text.Lower(s)))
    ensures r.Failure? <==> Json.Find(ms, "type").Some? && !Json.Find(ms, "type").value.JString?
                                                        && !Json.Find(ms, "type").value.JNull?
  {
    match Json.Find(ms, "type")
    case None => Success(Some("create"))
    case Some(v) =>
      match Json.GetString(v)
      case Failure(f) => Failure(f)
      case Success(s) => Success(if s.Some? then Some(Text.Lower(s.value)) else None)
  }

  /** The branch a lower-cased `type` selects; anything but "create" and "status" falls through to the generic merge. */
  function BranchOf(kind: Option<string>): (b: Branch)
    ensures b == Create <==> kind == Some("create")
    ensures b == StatusUpdate <==> kind == Some("status")
    ensures b == Generic <==> kind != Some("create") && kind != Some("status")
  {
    if kind == Some("create") then Create
    else if kind == Some("status") then StatusUpdate
    else Generic
  }

  /** The message's `type` reads without throwing and selects `branch`, in whatever case it is written. */
  predicate Takes(ms: seq<Json.Member>, branch: Branch) {
    TypeOf(ms).Success? && BranchOf(TypeOf(ms).value) == branch
  }

  /** `orderId`, replaced by the fresh identifier when absent, null or blank. */
  function OrderIdOf(ms: seq<Json.Member>, freshId: string): (r: Result<string, Json.Fault>)
    ensures r.Success? && !Text.IsBlank(freshId) ==> !Text.IsBlank(r.value)
    ensures forall s :: Json.Find(ms, "orderId") == Some(Json.JString(s)) && !Text.IsBlank(s) ==> r == Success(s)
    ensures r.Success? && r.value != freshId ==> Json.Find(ms, "orderId") == Some(Json.JString(r.value))
    ensures r.Failure? <==> Json.Find(ms, "orderId").Some? && !Json.Find(ms, "orderId").value.JString?
                                                           && !Json.Find(ms, "orderId").value.JNull?
  {
    match Json.Find(ms, "orderId")
    case None => Success(freshId)
    case Some(v) =>
      match Json.GetString(v)
      case Failure(f) => Failure(f)
      case Success(s) => if s.None? || Text.IsBlank(s.value) then Success(freshId) else Success(s.value)
  }

  /** The entity every branch starts from: the key, the order id and the first clock reading. */
  function Preset(pk: string, orderId: string, now: Instant): (e: Bag)
    ensures KeyOf(e) == Some(Key(pk, orderId))
    ensures e.Keys == {PartitionKeyName, RowKeyName, OrderIdName, UpdatedAtName}
    ensures e[OrderIdName] == Some(VString(orderId)) && e[UpdatedAtName] == Some(VTime(now))
  {
    Names();
    NewEntity(pk, orderId)[OrderIdName := Some(VString(orderId))][UpdatedAtName := Some(VTime(now))]
  }

  /** `CustomerId`: set, possibly to null, whenever the member is present. */
  function CustomerEntry(ms: seq<Json.Member>): (r: Result<Bag, Json.Fault>)
    ensures r.Success? ==> r.value.Keys == if Json.Find(ms, "customerId").Some? then {CustomerIdName} else {}
    ensures r.Success? ==> forall c :: Json.Find(ms, "customerId") == Some(Json.JString(c))
                             ==> r.value[CustomerIdName] == Some(VString(c))
    ensures r.Success? && Json.Find(ms, "customerId") == Some(Json.JNull) ==> r.value[CustomerIdName].None?
  {
    match Json.Find(ms, "customerId")
    case None => Success(map[])
    case Some(v) =>
      match Json.GetString(v)
      case Failure(f) => Failure(f)
      case Success(s) => Success(map[CustomerIdName := if s.Some? then Some(VString(s.value)) else None])
  }

  /** The `total` member is a number that parses as a decimal. */
  predicate TotalParses(ms: seq<Json.Member>, parseDecimal: Json.Number -> Option<Decimal>) {
    var v := Json.Find(ms, "total");
    v.Some? && v.value.JNumber? && parseDecimal(v.value.n).Some?
  }

  /** `Total`: set only when the member is a number that parses as a decimal. */
  function TotalEntry(ms: seq<Json.Member>, parseDecimal: Json.Number -> Option<Decimal>): (r: Result<Bag, Json.Fault>)
    ensures r.Success? ==> r.value.Keys == if TotalParses(ms, parseDecimal) then {TotalName} else {}
    ensures r.Success? ==> forall n, d :: Json.Find(ms, "total") == Some(Json.JNumber(n)) && parseDecimal(n) == Some(d)
                             ==> r.value[TotalName] == Some(VDecimal(d))
  {
    match Json.Find(ms, "total")
    case None => Success(map[])
    case Some(v) =>
      if !v.JNumber? then Failure(Json.WrongKind("TryGetDecimal"))
      else match parseDecimal(v.n)
        case Some(d) => Success(map[TotalName := Some(VDecimal(d))])
        case None => Success(map[])
  }

  /** `CreatedAt`: the parsed date, or the second clock reading when absent or unparsable. */
  function CreatedAtValue(ms: seq<Json.Member>, env: Env): (r: Result<Instant, Json.Fault>)
    ensures Json.Find(ms, "createdAt").None? ==> r == Success(env.nowLater)
    ensures forall s, d :: Json.Find(ms, "createdAt") == Some(Json.JString(s)) && env.parseDateTime(s) == Some(d)
                           ==> r == Success(d)
    ensures forall s :: Json.Find(ms, "createdAt") == Some(Json.JString(s)) && env.parseDateTime(s).None?
                        ==> r == Success(env.nowLater)
    ensures r.Failure? <==> Json.Find(ms, "createdAt").Some? && !Json.Find(ms, "createdAt").value.JString?
  {
    match Json.Find(ms, "createdAt")
    case None => Success(env.nowLater)
    case Some(v) =>
      if v.JString? then Success(env.parseDateTime(v.s).GetOr(env.nowLater))
      else Failure(Json.WrongKind("TryGetDateTime"))
  }

  /** The property names the handler writes are distinct from each other and from the key names. */
  lemma Names()
    ensures OrderIdName != PartitionKeyName && OrderIdName != RowKeyName
    ensures UpdatedAtName != PartitionKeyName && UpdatedAtName != RowKeyName
    ensures CustomerIdName != PartitionKeyName && CustomerIdName != RowKeyName
    ensures TotalName != PartitionKeyName && TotalName != RowKeyName
    ensures StatusName != PartitionKeyName && StatusName != RowKeyName
    ensures CreatedAtName != PartitionKeyName && CreatedAtName != RowKeyName
    ensures OrderIdName != UpdatedAtName && OrderIdName != CustomerIdName && OrderIdName != TotalName && OrderIdName != StatusName && OrderIdName != CreatedAtName
    ensures UpdatedAtName != CustomerIdName && UpdatedAtName != TotalName && UpdatedAtName != StatusName && UpdatedAtName != CreatedAtName
    ensures CustomerIdName != TotalName && CustomerIdName != StatusName && CustomerIdName != CreatedAtName
    ensures TotalName != StatusName && TotalName != CreatedAtName
    ensures StatusName != CreatedAtName
  {
  }

  /** The entries a create message adds, evaluated in the handler's order. */
  function CreateEntries(ms: seq<Json.Member>, env: Env): (r: Result<Bag, Json.Fault>)
    ensures r.Success? ==> StatusName in r.value && CreatedAtName in r.value
    ensures r.Success? ==> r.value.Keys <= {CustomerIdName, TotalName, StatusName, CreatedAtName}
    ensures r.Success? ==> forall n :: n in {PartitionKeyName, RowKeyName, OrderIdName, UpdatedAtName} ==> n !in r.value
    ensures r.Success? ==> Json.StringOr(ms, "status", "Pending").Success?
    ensures r.Success? ==> r.value[StatusName] == Some(VString(Json.StringOr(ms, "status", "Pending").value))
    ensures r.Success? ==> CreatedAtValue(ms, env).Success?
                           && r.value[CreatedAtName] == Some(VTime(CreatedAtValue(ms, env).value))
    ensures r.Success? ==> forall n, d :: Json.Find(ms, "total") == Some(Json.JNumber(n)) && env.parseDecimal(n) == Some(d)
                             ==> TotalName in r.value && r.value[TotalName] == Some(VDecimal(d))
    ensures r.Success? ==> (TotalName in r.value <==> TotalParses(ms, env.parseDecimal))
    ensures r.Success? ==> TextOrNull(Json.Find(ms, "customerId"))
    ensures r.Success? ==> (CustomerIdName in r.value <==> Json.Find(ms, "customerId").Some?)
    ensures r.Success? ==> forall c :: Json.Find(ms, "customerId") == Some(Json.JString(c))
                             ==> r.value[CustomerIdName] == Some(VString(c))
    ensures r.Success? && Json.Find(ms, "customerId") == Some(Json.JNull) ==> r.value[CustomerIdName].None?
  {
    Names();
    var customer :- CustomerEntry(ms);
    var total :- TotalEntry(ms, env.parseDecimal);
    var status :- Json.StringOr(ms, "status", "Pending");
    var created :- CreatedAtValue(ms, env);
    Success(customer + total + map[StatusName := Some(VString(status)), CreatedAtName := Some(VTime(created))])
  }

  /** The entries a status message adds: the status alone. */
  function StatusEntries(ms: seq<Json.Member>): (r: Result<Bag, Json.Fault>)
    ensures r.Success? ==> r.value.Keys == {StatusName}
    ensures r.Success? <==> Json.StringOr(ms, "status", "Unknown").Success?
  {
    var status :- Json.StringOr(ms, "status", "Unknown");
    Success(map[StatusName := Some(VString(status))])
  }

  /** The members the generic branch skips, by exact name. */
  predicate Skipped(name: string) {
    name == "type" || name == "partitionKey" || name == "orderId"
  }

  /**
   * The entity a message describes, or the accessor fault that aborts it.
   * The generic entries are written over the preset ones, so members named
   * `OrderId`, `UpdatedAt`, `PartitionKey` or `RowKey` replace them.
   */
  function Entity(ms: seq<Json.Member>, branch: Branch, pk: string, orderId: string, env: Env): (r: Result<Bag, Json.Fault>)
    ensures r.Success? && branch != Generic ==> KeyOf(r.value) == Some(Key(pk, orderId))
    ensures branch == Generic ==> r.Success?
  {
    var preset := Preset(pk, orderId, env.now);
    match branch
    case Create =>
      (match CreateEntries(ms, env)
       case Failure(f) => Failure(f)
       case Success(b) => Success(preset + b))
    case StatusUpdate =>
      (match StatusEntries(ms)
       case Failure(f) => Failure(f)
       case Success(b) => Success(preset + b))
    case Generic => Success(preset + Lift(Coercion.MapMembers(ms, Skipped)))
  }

  /**
   * Everything the handler reads from the message before writing: the branch
   * and the entity, or the accessor fault that aborts it.
   */
  function Plan(ms: seq<Json.Member>, env: Env): (r: Result<(Branch, Bag), Json.Fault>)
    ensures r.Success? ==> TypeOf(ms).Success? && r.value.0 == BranchOf(TypeOf(ms).value)
    ensures r.Success? ==> OrderIdOf(ms, env.freshId).Success? && Json.StringOr(ms, "partitionKey", DefaultPartition).Success?
    ensures r.Success? ==>
              var e := Entity(ms, r.value.0, Json.StringOr(ms, "partitionKey", DefaultPartition).value,
                              OrderIdOf(ms, env.freshId).value, env);
              e.Success? && r.value.1 == e.value
    ensures r.Success? && r.value.0 != Generic ==>
              KeyOf(r.value.1) == Some(Key(Json.StringOr(ms, "partitionKey", DefaultPartition).value,
                                           OrderIdOf(ms, env.freshId).value))
  {
    var kind :- TypeOf(ms);
    var orderId :- OrderIdOf(ms, env.freshId);
    var pk :- Json.StringOr(ms, "partitionKey", DefaultPartition);
    var branch := BranchOf(kind);
    var e :- Entity(ms, branch, pk, orderId, env);
    Success((branch, e))
  }

  /** The handler, from the table and the message to the new table. */
  function Run(t: Table, body: Json.Body, env: Env, fault: StoreFault): (o: Outcome)
    ensures o.status.Thrown? ==> o.table == t
    ensures fault.FailsOnCreate? ==> o == Outcome(t, Thrown(StoreFailed(fault.e)))
    ensures !fault.FailsOnCreate? && body.Malformed? ==> o == Outcome(t, Thrown(Unparsable))
    ensures !fault.FailsOnCreate? && body.NotAnObject? ==> o == Outcome(t, Thrown(NotAnObjectRoot))
    ensures o.status.Done? ==> body.Object? && fault.NoFault? && Plan(body.members, env).Success?
    ensures o.status.Done? ==> o.status.branch == BranchOf(TypeOf(body.members).value)
    ensures o.status.Done? && o.status.branch != Generic ==>
              o.status.key == Key(Json.StringOr(body.members, "partitionKey", DefaultPartition).value,
                                  OrderIdOf(body.members, env.freshId).value)
    ensures o.status.Done? ==> o.table == Upsert(t, o.status.key, Payload(Plan(body.members, env).value.1), Merge)
  {
    if fault.FailsOnCreate? then Outcome(t, Thrown(StoreFailed(fault.e)))
    else if body.Malformed? then Outcome(t, Thrown(Unparsable))
    else if body.NotAnObject? then Outcome(t, Thrown(NotAnObjectRoot))
    else
      match Plan(body.members, env)
      case Failure(f) => Outcome(t, Thrown(AccessorThrew(f)))
      case Success(plan) =>
        match KeyOf(plan.1)
        case None => Outcome(t, Thrown(KeyNotText))
        case Some(key) =>
          if fault.FailsOnUpsert? then Outcome(t, Thrown(StoreFailed(fault.e)))
          else Outcome(Upsert(t, key, Payload(plan.1), Merge), Done(plan.0, key))
  }

  /**
   * Branch selection: a missing `type` means create, a null one the generic
   * branch, and a string picks create or status ignoring case.
   */
  lemma {:induction false} BranchSelection(ms: seq<Json.Member>)
    ensures Json.Find(ms, "type").None? ==> BranchOf(TypeOf(ms).value) == Create
    ensures Json.Find(ms, "type") == Some(Json.JNull) ==> BranchOf(TypeOf(ms).value) == Generic
    ensures forall s :: Json.Find(ms, "type") == Some(Json.JString(s)) ==>
              && (BranchOf(TypeOf(ms).value) == Create <==> Text.EqualsIgnoreCase(s, "create"))
              && (BranchOf(TypeOf(ms).value) == StatusUpdate <==> Text.EqualsIgnoreCase(s, "status"))
  {
    forall s | Json.Find(ms, "type") == Some(Json.JString(s))
      ensures BranchOf(TypeOf(ms).value) == Create <==> Text.EqualsIgnoreCase(s, "create")
      ensures BranchOf(TypeOf(ms).value) == StatusUpdate <==> Text.EqualsIgnoreCase(s, "status")
    {
      Text.EqualsIgnoreCaseLower(s, "create");
      Text.EqualsIgnoreCaseLower(s, "status");
      LowerFixed("create");
      LowerFixed("status");
    }
  }

  /** A word without capitals is its own lower case. */
  lemma LowerFixed(w: string)
    requires forall i :: 0 <= i < |w| ==> !('A' <= w[i] <= 'Z')
    ensures Text.Lower(w) == w
  {
  }

  /** `"type": "status"` selects the status branch. */
  lemma StatusTyped(ms: seq<Json.Member>)
    requires Json.Find(ms, "type") == Some(Json.JString("status"))
    ensures TypeOf(ms) == Success(Some("status")) && BranchOf(TypeOf(ms).value) == StatusUpdate
  {
    LowerFixed("status");
  }

  /** An absent, null or blank `orderId` is replaced by the fresh identifier. */
  lemma BlankOrderIdIsFresh(ms: seq<Json.Member>, freshId: string)
    requires var v := Json.Find(ms, "orderId");
             v.None? || v == Some(Json.JNull) || (v.Some? && v.value.JString? && Text.IsBlank(v.value.s))
    ensures OrderIdOf(ms, freshId) == Success(freshId)
  {
  }

  /**
   * The members the handler reads have the kinds it expects: text (or null)
   * for `type`, `orderId`, `partitionKey`, `customerId` and `status`, a
   * number for `total` and text for `createdAt`.
   */
  predicate WellTyped(ms: seq<Json.Member>) {
    && TextOrNull(Json.Find(ms, "type"))
    && TextOrNull(Json.Find(ms, "orderId"))
    && TextOrNull(Json.Find(ms, "partitionKey"))
    && TextOrNull(Json.Find(ms, "customerId"))
    && TextOrNull(Json.Find(ms, "status"))
    && (Json.Find(ms, "total").Some? ==> Json.Find(ms, "total").value.JNumber?)
    && (Json.Find(ms, "createdAt").Some? ==> Json.Find(ms, "createdAt").value.JString?)
  }

  predicate TextOrNull(v: Option<Json.JsonValue>) {
    v.Some? ==> v.value.JString? || v.value.JNull?
  }

  /** A well-typed message never makes an accessor throw, whichever branch it takes. */
  lemma WellTypedPlans(ms: seq<Json.Member>, env: Env)
    requires WellTyped(ms)
    ensures Plan(ms, env).Success?
  {
  }

  /**
   * Once the plan is known, the handler is one merge upsert under the
   * entity's key, or throws when the entity's key is not text.
   */
  lemma RunIsMerge(t: Table, ms: seq<Json.Member>, env: Env)
    requires Plan(ms, env).Success?
    ensures var plan := Plan(ms, env).value;
            KeyOf(plan.1).None? ==> Run(t, Json.Object(ms), env, NoFault) == Outcome(t, Thrown(KeyNotText))
    ensures var plan := Plan(ms, env).value;
            KeyOf(plan.1).Some? ==>
              var key := KeyOf(plan.1).value;
              Run(t, Json.Object(ms), env, NoFault) == Outcome(Upsert(t, key, Payload(plan.1), Merge), Done(plan.0, key))
  {
  }

  /**
   * What a create message writes: the preset entries, the status ("Pending"
   * when absent or null), `CreatedAt` (the second clock reading when absent
   * or unparsable) and, when the total parses, `Total`.
   */
  lemma CreatePayload(ms: seq<Json.Member>, env: Env)
    requires Plan(ms, env).Success? && Plan(ms, env).value.0 == Create
    ensures var f := Payload(Plan(ms, env).value.1);
            && f[OrderIdName] == VString(OrderIdOf(ms, env.freshId).value)
            && f[UpdatedAtName] == VTime(env.now)
            && f[StatusName] == VString(Json.StringOr(ms, "status", "Pending").value)
            && CreatedAtValue(ms, env).Success? && f[CreatedAtName] == VTime(CreatedAtValue(ms, env).value)
            && (forall n, d :: Json.Find(ms, "total") == Some(Json.JNumber(n)) && env.parseDecimal(n) == Some(d)
                  ==> TotalName in f && f[TotalName] == VDecimal(d))
            && (TotalName in f <==> TotalParses(ms, env.parseDecimal))
            && (CustomerIdName in f <==> Json.Find(ms, "customerId").Some? && Json.Find(ms, "customerId").value.JString?)
            && (forall c :: Json.Find(ms, "customerId") == Some(Json.JString(c)) ==> f[CustomerIdName] == VString(c))
            && f.Keys <= {OrderIdName, UpdatedAtName, CustomerIdName, TotalName, StatusName, CreatedAtName}
            && OrderIdName in f && UpdatedAtName in f && StatusName in f && CreatedAtName in f
  {
    var orderId := OrderIdOf(ms, env.freshId).value;
    var pk := Json.StringOr(ms, "partitionKey", DefaultPartition).value;
    CreateEntityPayload(ms, pk, orderId, env);
  }

  /** `CreatePayload` for a known key. */
  lemma CreateEntityPayload(ms: seq<Json.Member>, pk: string, orderId: string, env: Env)
    requires Entity(ms, Create, pk, orderId, env).Success?
    ensures var f := Payload(Entity(ms, Create, pk, orderId, env).value);
            && f[OrderIdName] == VString(orderId)
            && f[UpdatedAtName] == VTime(env.now)
            && f[StatusName] == VString(Json.StringOr(ms, "status", "Pending").value)
            && CreatedAtValue(ms, env).Success? && f[CreatedAtName] == VTime(CreatedAtValue(ms, env).value)
            && (forall n, d :: Json.Find(ms, "total") == Some(Json.JNumber(n)) && env.parseDecimal(n) == Some(d)
                  ==> TotalName in f && f[TotalName] == VDecimal(d))
            && (TotalName in f <==> TotalParses(ms, env.parseDecimal))
            && (CustomerIdName in f <==> Json.Find(ms, "customerId").Some? && Json.Find(ms, "customerId").value.JString?)
            && (forall c :: Json.Find(ms, "customerId") == Some(Json.JString(c)) ==> f[CustomerIdName] == VString(c))
            && f.Keys <= {OrderIdName, UpdatedAtName, CustomerIdName, TotalName, StatusName, CreatedAtName}
            && OrderIdName in f && UpdatedAtName in f && StatusName in f && CreatedAtName in f
  {
    var p := Preset(pk, orderId, env.now);
    var b := CreateEntries(ms, env).value;
    assert Entity(ms, Create, pk, orderId, env).value == p + b;
    var f := Payload(p + b);
    assert OrderIdName in f && f[OrderIdName] == VString(orderId) by {
      Names();
      OverlayPayload(p, b, OrderIdName);
    }
    assert UpdatedAtName in f && f[UpdatedAtName] == VTime(env.now) by {
      Names();
      OverlayPayload(p, b, UpdatedAtName);
    }
    assert StatusName in f && f[StatusName] == VString(Json.StringOr(ms, "status", "Pending").value) by {
      Names();
      OverlayPayload(p, b, StatusName);
    }
    assert CreatedAtName in f && f[CreatedAtName] == VTime(CreatedAtValue(ms, env).value) by {
      Names();
      OverlayPayload(p, b, CreatedAtName);
    }
    forall n, d | Json.Find(ms, "total") == Some(Json.JNumber(n)) && env.parseDecimal(n) == Some(d)
      ensures TotalName in f && f[TotalName] == VDecimal(d)
    {
      Names();
      OverlayPayload(p, b, TotalName);
    }
    CreateOptionalFields(ms, pk, orderId, env);
  }

  /** The fields a create upsert sends only sometimes, and the bound on what it sends. */
  lemma CreateOptionalFields(ms: seq<Json.Member>, pk: string, orderId: string, env: Env)
    requires Entity(ms, Create, pk, orderId, env).Success?
    ensures var f := Payload(Entity(ms, Create, pk, orderId, env).value);
            && (TotalName in f <==> TotalParses(ms, env.parseDecimal))
            && (CustomerIdName in f <==> Json.Find(ms, "customerId").Some? && Json.Find(ms, "customerId").value.JString?)
            && (forall c :: Json.Find(ms, "customerId") == Some(Json.JString(c)) ==> f[CustomerIdName] == VString(c))
            && f.Keys <= {OrderIdName, UpdatedAtName, CustomerIdName, TotalName, StatusName, CreatedAtName}
  {
    var p := Preset(pk, orderId, env.now);
    assert TotalName !in p && CustomerIdName !in p by {
      Names();
    }
    assert TotalName != PartitionKeyName && TotalName != RowKeyName by {
      Names();
    }
    assert CustomerIdName != PartitionKeyName && CustomerIdName != RowKeyName by {
      Names();
    }
    var b := CreateEntries(ms, env).value;
    assert Entity(ms, Create, pk, orderId, env).value == p + b;
    OverlayPayload(p, b, TotalName);
    OverlayPayload(p, b, CustomerIdName);
    assert Payload(p + b).Keys <= {OrderIdName, UpdatedAtName, CustomerIdName, TotalName, StatusName, CreatedAtName};
  }

  /** A property of an overlaid bag is sent with the overlay's value when the overlay names it, else with the base's. */
  lemma OverlayPayload(p: Bag, b: Bag, name: string)
    requires name != PartitionKeyName && name != RowKeyName
    ensures name in b ==> (name in Payload(p + b) <==> b[name].Some?)
    ensures name in b && b[name].Some? ==> Payload(p + b)[name] == b[name].value
    ensures name !in b ==> (name in Payload(p + b) <==> name in p && p[name].Some?)
    ensures name !in b && name in p && p[name].Some? ==> Payload(p + b)[name] == p[name].value
  {
  }

  /**
   * A create message (`type` absent or "create" in any case) without `status`
   * and `createdAt` writes the order under its `orderId` with status
   * "Pending" and the two clock readings.
   */
  lemma CreateDefaults(t: Table, ms: seq<Json.Member>, id: string, env: Env)
    requires WellTyped(ms) && !Text.IsBlank(id)
    requires Json.Find(ms, "orderId") == Some(Json.JString(id))
    requires Takes(ms, Create) && Json.Find(ms, "status").None? && Json.Find(ms, "createdAt").None?
    ensures var o := Run(t, Json.Object(ms), env, NoFault);
            var key := Key(Json.StringOr(ms, "partitionKey", DefaultPartition).value, id);
            && o.status == Done(Create, key)
            && Get(o.table, key, StatusName) == Some(VString("Pending"))
            && Get(o.table, key, OrderIdName) == Some(VString(id))
            && Get(o.table, key, UpdatedAtName) == Some(VTime(env.now))
            && Get(o.table, key, CreatedAtName) == Some(VTime(env.nowLater))
  {
    CreateDefaultsPlan(ms, id, env);
    var plan := Plan(ms, env).value;
    RunIsMerge(t, ms, env);
    MergeGet(t, KeyOf(plan.1).value, Payload(plan.1));
  }

  /** `CreateDefaults` before the write: the plan, its key and its payload. */
  lemma CreateDefaultsPlan(ms: seq<Json.Member>, id: string, env: Env)
    requires WellTyped(ms) && !Text.IsBlank(id)
    requires Json.Find(ms, "orderId") == Some(Json.JString(id))
    requires Takes(ms, Create) && Json.Find(ms, "status").None? && Json.Find(ms, "createdAt").None?
    ensures Plan(ms, env).Success? && Plan(ms, env).value.0 == Create
    ensures var plan := Plan(ms, env).value;
            var f := Payload(plan.1);
            && KeyOf(plan.1) == Some(Key(Json.StringOr(ms, "partitionKey", DefaultPartition).value, id))
            && StatusName in f && f[StatusName] == VString("Pending")
            && OrderIdName in f && f[OrderIdName] == VString(id)
            && UpdatedAtName in f && f[UpdatedAtName] == VTime(env.now)
            && CreatedAtName in f && f[CreatedAtName] == VTime(env.nowLater)
  {
    WellTypedPlans(ms, env);
    assert OrderIdOf(ms, env.freshId) == Success(id);
    assert Json.StringOr(ms, "status", "Pending") == Success("Pending");
    var f := Payload(Plan(ms, env).value.1);
    assert && StatusName in f && f[StatusName] == VString("Pending")
           && OrderIdName in f && f[OrderIdName] == VString(id)
           && UpdatedAtName in f && f[UpdatedAtName] == VTime(env.now)
           && CreatedAtName in f && f[CreatedAtName] == VTime(env.nowLater) by {
      CreatePayload(ms, env);
    }
  }

  /** The entity of a status message: the preset entries and the status, nothing else. */
  lemma StatusPayload(ms: seq<Json.Member>, env: Env)
    requires Plan(ms, env).Success? && Plan(ms, env).value.0 == StatusUpdate
    ensures var f := Payload(Plan(ms, env).value.1);
            && f.Keys == {OrderIdName, UpdatedAtName, StatusName}
            && f[StatusName] == VString(Json.StringOr(ms, "status", "Unknown").value)
            && f[OrderIdName] == VString(OrderIdOf(ms, env.freshId).value)
            && f[UpdatedAtName] == VTime(env.now)
  {
    var orderId := OrderIdOf(ms, env.freshId).value;
    var pk := Json.StringOr(ms, "partitionKey", DefaultPartition).value;
    var status := Json.StringOr(ms, "status", "Unknown").value;
    assert Plan(ms, env).value.1 == Preset(pk, orderId, env.now) + map[StatusName := Some(VString(status))];
    PresetWithStatus(pk, orderId, env.now, VString(status));
  }

  /** The payload of the preset entries plus a status. */
  lemma PresetWithStatus(pk: string, orderId: string, now: Instant, status: Value)
    ensures var f := Payload(Preset(pk, orderId, now) + map[StatusName := Some(status)]);
            && f.Keys == {OrderIdName, UpdatedAtName, StatusName}
            && f[StatusName] == status && f[OrderIdName] == VString(orderId) && f[UpdatedAtName] == VTime(now)
  {
    Names();
    var e := Preset(pk, orderId, now) + map[StatusName := Some(status)];
    assert e[OrderIdName] == Some(VString(orderId)) && e[UpdatedAtName] == Some(VTime(now));
    assert Payload(e).Keys == {OrderIdName, UpdatedAtName, StatusName};
  }

  /**
   * A status message changes only `OrderId`, `UpdatedAt` and `Status` of the
   * order's row: every other stored field, `Total` and `CreatedAt` among them,
   * keeps its value.
   */
  lemma StatusUpdateKeepsOtherFields(t: Table, ms: seq<Json.Member>, env: Env)
    requires Plan(ms, env).Success? && Plan(ms, env).value.0 == StatusUpdate
    ensures var o := Run(t, Json.Object(ms), env, NoFault);
            var key := o.status.key;
            && o.status.Done? && o.status.branch == StatusUpdate
            && Get(o.table, key, StatusName) == Some(VString(Json.StringOr(ms, "status", "Unknown").value))
            && (forall n :: Get(t, key, n).Some? && n !in {OrderIdName, UpdatedAtName, StatusName} ==>
                              Get(o.table, key, n) == Get(t, key, n))
            && (forall n :: Get(o.table, key, n).Some? ==> n in {OrderIdName, UpdatedAtName, StatusName} || Get(t, key, n).Some?)
  {
    var plan := Plan(ms, env).value;
    var key := KeyOf(plan.1).value;
    var f := Payload(plan.1);
    RunIsMerge(t, ms, env);
    StatusPayload(ms, env);
    StatusMerge(t, key, f, f[StatusName]);
  }

  /** `StatusUpdateKeepsOtherFields` for a known key and payload. */
  lemma StatusMerge(t: Table, key: Key, f: Fields, status: Value)
    requires f.Keys == {OrderIdName, UpdatedAtName, StatusName} && f[StatusName] == status
    ensures var r := Upsert(t, key, f, Merge);
            && Get(r, key, StatusName) == Some(status)
            && (forall n :: Get(t, key, n).Some? && n !in {OrderIdName, UpdatedAtName, StatusName} ==> Get(r, key, n) == Get(t, key, n))
            && (forall n :: Get(r, key, n).Some? ==> n in {OrderIdName, UpdatedAtName, StatusName} || Get(t, key, n).Some?)
  {
    MergeGet(t, key, f);
  }

  /**
   * Replaying a message with the same clock and identifier changes nothing:
   * every branch writes in merge mode, and merging the same fields twice is
   * merging them once.
   */
  lemma ReplayIsIdempotent(t: Table, body: Json.Body, env: Env)
    ensures var once := Run(t, body, env, NoFault);
            Run(once.table, body, env, NoFault) == once
  {
    var once := Run(t, body, env, NoFault);
    if once.status.Done? {
      RunIsMerge(t, body.members, env);
      RunIsMerge(once.table, body.members, env);
      MergeIdempotent(t, once.status.key, Payload(Plan(body.members, env).value.1));
    }
  }

  /** The key a well-typed message addresses unless a generic message overrides it. */
  function OrderKey(ms: seq<Json.Member>, freshId: string): Key
    requires WellTyped(ms)
  {
    Key(Json.StringOr(ms, "partitionKey", DefaultPartition).value, OrderIdOf(ms, freshId).value)
  }

  /** A create message whose total parses stores that total under the order's key. */
  lemma CreateStoresTotal(t: Table, ms: seq<Json.Member>, total: Json.Number, d: Decimal, env: Env)
    requires WellTyped(ms) && Takes(ms, Create)
    requires Json.Find(ms, "total") == Some(Json.JNumber(total)) && env.parseDecimal(total) == Some(d)
    ensures var o := Run(t, Json.Object(ms), env, NoFault);
            && o.status == Done(Create, OrderKey(ms, env.freshId))
            && Get(o.table, OrderKey(ms, env.freshId), TotalName) == Some(VDecimal(d))
  {
    WellTypedPlans(ms, env);
    RunIsMerge(t, ms, env);
    CreatePayload(ms, env);
  }

  /**
   * A create followed by a status update of the same order: the status is the
   * new one and the total written by the create survives.
   */
  lemma CreateThenStatus(t: Table, first: seq<Json.Member>, second: seq<Json.Member>, id: string,
                         total: Json.Number, d: Decimal, env1: Env, env2: Env)
    requires WellTyped(first) && WellTyped(second) && !Text.IsBlank(id)
    requires Takes(first, Create) && Takes(second, StatusUpdate)
    requires Json.Find(first, "orderId") == Json.Find(second, "orderId") == Some(Json.JString(id))
    requires Json.Find(first, "partitionKey") == Json.Find(second, "partitionKey")
    requires Json.Find(first, "total") == Some(Json.JNumber(total)) && env1.parseDecimal(total) == Some(d)
    ensures var key := OrderKey(first, env1.freshId);
            var o1 := Run(t, Json.Object(first), env1, NoFault);
            var o2 := Run(o1.table, Json.Object(second), env2, NoFault);
            && o1.status == Done(Create, key) && o2.status == Done(StatusUpdate, key)
            && Get(o2.table, key, StatusName) == Some(VString(Json.StringOr(second, "status", "Unknown").value))
            && Get(o2.table, key, TotalName) == Some(VDecimal(d))
  {
    SameOrder(first, second, id, env1.freshId, env2.freshId);
    CreateStoresTotal(t, first, total, d, env1);
    StatusKeepsTotal(Run(t, Json.Object(first), env1, NoFault).table, second, d, env2);
  }

  /** The worked example's create message: `{"type":"create","orderId":id,"total":10.50}`. */
  function ExampleCreate(id: string): seq<Json.Member> {
    [Json.Member("type", Json.JString("create")), Json.Member("orderId", Json.JString(id)),
     Json.Member("total", Json.JNumber(Json.Number(false, 10, "50", None)))]
  }

  /** The worked example's status message: `{"type":"status","orderId":id,"status":"Shipped"}`. */
  function ExampleStatus(id: string): seq<Json.Member> {
    [Json.Member("type", Json.JString("status")), Json.Member("orderId", Json.JString(id)),
     Json.Member("status", Json.JString("Shipped"))]
  }

  /** `TryGetProperty` on a three-member object, name by name. */
  lemma FindInThree(a: Json.Member, b: Json.Member, c: Json.Member)
    ensures forall name :: Json.Find([a, b, c], name)
                           == if c.name == name then Some(c.value)
                              else if b.name == name then Some(b.value)
                              else if a.name == name then Some(a.value)
                              else None
  {
    forall name: string
      ensures Json.Find([a, b, c], name)
              == if c.name == name then Some(c.value)
                 else if b.name == name then Some(b.value)
                 else if a.name == name then Some(a.value)
                 else None
    {
      assert [a, b, c][..2] == [a, b] && [a, b][..1] == [a] && [a][..0] == [];
      assert Json.Find([a], name) == if a.name == name then Some(a.value) else None;
      assert Json.Find([a, b], name) == if b.name == name then Some(b.value) else Json.Find([a], name);
    }
  }

  lemma ExampleCreateReads(id: string)
    ensures WellTyped(ExampleCreate(id)) && Takes(ExampleCreate(id), Create)
    ensures Json.Find(ExampleCreate(id), "orderId") == Some(Json.JString(id))
    ensures Json.Find(ExampleCreate(id), "partitionKey").None?
    ensures Json.Find(ExampleCreate(id), "total") == Some(Json.JNumber(Json.Number(false, 10, "50", None)))
  {
    var ms := ExampleCreate(id);
    FindInThree(ms[0], ms[1], ms[2]);
    assert Json.Find(ms, "type") == Some(Json.JString("create"));
    assert TypeOf(ms) == Success(Some("create")) by {
      LowerFixed("create");
    }
  }

  lemma ExampleStatusReads(id: string)
    ensures WellTyped(ExampleStatus(id)) && Takes(ExampleStatus(id), StatusUpdate)
    ensures Json.Find(ExampleStatus(id), "orderId") == Some(Json.JString(id))
    ensures Json.Find(ExampleStatus(id), "partitionKey").None?
    ensures Json.StringOr(ExampleStatus(id), "status", "Unknown") == Success("Shipped")
  {
    var ms := ExampleStatus(id);
    FindInThree(ms[0], ms[1], ms[2]);
    StatusTyped(ms);
  }

  /**
   * The worked example: the create message, then the status message, leave
   * the row "orders"/`id` with Status "Shipped" and Total 10.50.
   */
  lemma ShippedExample(t: Table, id: string, env1: Env, env2: Env)
    requires !Text.IsBlank(id)
    requires env1.parseDecimal(Json.Number(false, 10, "50", None)) == Some(Decimal(1050, 2))
    ensures var o1 := Run(t, Json.Object(ExampleCreate(id)), env1, NoFault);
            var o2 := Run(o1.table, Json.Object(ExampleStatus(id)), env2, NoFault);
            && Get(o2.table, Key(DefaultPartition, id), StatusName) == Some(VString("Shipped"))
            && Get(o2.table, Key(DefaultPartition, id), TotalName) == Some(VDecimal(Decimal(1050, 2)))
  {
    ExampleCreateReads(id);
    ExampleStatusReads(id);
    CreateThenStatus(t, ExampleCreate(id), ExampleStatus(id), id, Json.Number(false, 10, "50", None),
                     Decimal(1050, 2), env1, env2);
  }

  /** Two messages naming the same non-blank order identifier and partition address the same row. */
  lemma SameOrder(first: seq<Json.Member>, second: seq<Json.Member>, id: string, fresh1: string, fresh2: string)
    requires WellTyped(first) && WellTyped(second) && !Text.IsBlank(id)
    requires Json.Find(first, "orderId") == Json.Find(second, "orderId") == Some(Json.JString(id))
    requires Json.Find(first, "partitionKey") == Json.Find(second, "partitionKey")
    ensures OrderKey(first, fresh1) == OrderKey(second, fresh2)
  {
  }

  /** A status message leaves a stored total alone and sets the status. */
  lemma StatusKeepsTotal(t: Table, ms: seq<Json.Member>, d: Decimal, env: Env)
    requires WellTyped(ms) && Takes(ms, StatusUpdate)
    requires Get(t, OrderKey(ms, env.freshId), TotalName) == Some(VDecimal(d))
    ensures var o := Run(t, Json.Object(ms), env, NoFault);
            && o.status == Done(StatusUpdate, OrderKey(ms, env.freshId))
            && Get(o.table, OrderKey(ms, env.freshId), StatusName) == Some(VString(Json.StringOr(ms, "status", "Unknown").value))
            && Get(o.table, OrderKey(ms, env.freshId), TotalName) == Some(VDecimal(d))
  {
    WellTypedPlans(ms, env);
    RunIsMerge(t, ms, env);
    StatusUpdateKeepsOtherFields(t, ms, env);
    Names();
  }

  /**
   * Replaying a create after a status update puts the status back to
   * "Pending" when the create carries no status: the create branch always
   * writes one.
   */
  lemma ReplayedCreateResetsStatus(t: Table, first: seq<Json.Member>, second: seq<Json.Member>, id: string,
                                   env1: Env, env2: Env)
    requires WellTyped(first) && WellTyped(second) && !Text.IsBlank(id)
    requires Takes(first, StatusUpdate)
    requires Json.Find(first, "orderId") == Json.Find(second, "orderId") == Some(Json.JString(id))
    requires Json.Find(first, "partitionKey") == Json.Find(second, "partitionKey")
    requires Takes(second, Create) && Json.Find(second, "status").None? && Json.Find(second, "createdAt").None?
    ensures var o1 := Run(t, Json.Object(first), env1, NoFault);
            var o2 := Run(o1.table, Json.Object(second), env2, NoFault);
            && o1.status.Done? && o2.status.Done? && o1.status.key == o2.status.key
            && Get(o2.table, o2.status.key, StatusName) == Some(VString("Pending"))
  {
    WellTypedPlans(first, env1);
    RunIsMerge(t, first, env1);
    var o1 := Run(t, Json.Object(first), env1, NoFault);
    CreateDefaults(o1.table, second, id, env2);
  }

  /**
   * In the generic branch a member named `RowKey` overrides the row key the
   * handler derived from `orderId`, so the write lands on another row; a
   * number or boolean `RowKey` makes the write throw.
   */
  lemma GenericRowKeyOverride(t: Table, ms: seq<Json.Member>, env: Env)
    requires WellTyped(ms) && Takes(ms, Generic)
    requires Json.Find(ms, RowKeyName).Some?
    requires Json.Find(ms, PartitionKeyName).None? || Coercion.Coerce(Json.Find(ms, PartitionKeyName).value).VString?
    ensures var o := Run(t, Json.Object(ms), env, NoFault);
            && (forall s :: Json.Find(ms, RowKeyName) == Some(Json.JString(s)) ==> o.status.Done? && o.status.key.row == s)
            && (!Coercion.Coerce(Json.Find(ms, RowKeyName).value).VString? ==> o == Outcome(t, Thrown(KeyNotText)))
  {
    WellTypedPlans(ms, env);
    var orderId := OrderIdOf(ms, env.freshId).value;
    var pk := Json.StringOr(ms, "partitionKey", DefaultPartition).value;
    var e := Plan(ms, env).value.1;
    assert e == Entity(ms, Generic, pk, orderId, env).value;
    GenericRowKey(ms, pk, orderId, env);
    RunIsMerge(t, ms, env);
  }

  /** `GenericRowKeyOverride` for a known preset key. */
  lemma GenericRowKey(ms: seq<Json.Member>, pk: string, orderId: string, env: Env)
    requires Json.Find(ms, RowKeyName).Some?
    requires Json.Find(ms, PartitionKeyName).None? || Coercion.Coerce(Json.Find(ms, PartitionKeyName).value).VString?
    ensures var e := Entity(ms, Generic, pk, orderId, env).value;
            && (forall s :: Json.Find(ms, RowKeyName) == Some(Json.JString(s)) ==> KeyOf(e).Some? && KeyOf(e).value.row == s)
            && (!Coercion.Coerce(Json.Find(ms, RowKeyName).value).VString? ==> KeyOf(e).None?)
  {
    var f := Coercion.MapMembers(ms, Skipped);
    assert Entity(ms, Generic, pk, orderId, env).value == Preset(pk, orderId, env.now) + Lift(f);
    KeyMembersMapped(ms);
    PresetOverridden(pk, orderId, env.now, f);
  }

  /**
   * What a generic message sends: `OrderId`, `UpdatedAt` and every member
   * except `type`, `partitionKey` and `orderId`, each coerced; a member named
   * `OrderId` or `UpdatedAt` replaces the preset value.
   */
  lemma GenericEntity(ms: seq<Json.Member>, pk: string, orderId: string, env: Env)
    ensures var f := Payload(Entity(ms, Generic, pk, orderId, env).value);
            && (forall n :: n != PartitionKeyName && n != RowKeyName ==>
                  (n in f <==> n == OrderIdName || n == UpdatedAtName || (!Skipped(n) && Json.Find(ms, n).Some?)))
            && (forall n :: n in f && !Skipped(n) && Json.Find(ms, n).Some? ==> f[n] == Coercion.Coerce(Json.Find(ms, n).value))
            && (Json.Find(ms, OrderIdName).None? ==> f[OrderIdName] == VString(orderId))
            && (Json.Find(ms, UpdatedAtName).None? ==> f[UpdatedAtName] == VTime(env.now))
  {
    Names();
    var m := Coercion.MapMembers(ms, Skipped);
    var e := Preset(pk, orderId, env.now) + Lift(m);
    assert Entity(ms, Generic, pk, orderId, env).value == e;
    assert !Skipped(OrderIdName) && !Skipped(UpdatedAtName);
  }

  /** The generic branch maps members named `PartitionKey` and `RowKey` like any other. */
  lemma KeyMembersMapped(ms: seq<Json.Member>)
    ensures var f := Coercion.MapMembers(ms, Skipped);
            && (RowKeyName in f <==> Json.Find(ms, RowKeyName).Some?)
            && (RowKeyName in f ==> f[RowKeyName] == Coercion.Coerce(Json.Find(ms, RowKeyName).value))
            && (PartitionKeyName in f <==> Json.Find(ms, PartitionKeyName).Some?)
            && (PartitionKeyName in f ==> f[PartitionKeyName] == Coercion.Coerce(Json.Find(ms, PartitionKeyName).value))
  {
    assert !Skipped(RowKeyName) && !Skipped(PartitionKeyName);
  }

  /** Entries written over the preset ones decide the key when they name `RowKey`. */
  lemma PresetOverridden(pk: string, orderId: string, now: Instant, f: Fields)
    requires RowKeyName in f
    requires PartitionKeyName in f ==> f[PartitionKeyName].VString?
    ensures f[RowKeyName].VString? ==> KeyOf(Preset(pk, orderId, now) + Lift(f)).Some?
                                       && KeyOf(Preset(pk, orderId, now) + Lift(f)).value.row == f[RowKeyName].s
    ensures !f[RowKeyName].VString? ==> KeyOf(Preset(pk, orderId, now) + Lift(f)).None?
  {
    var e := Preset(pk, orderId, now) + Lift(f);
    assert e[RowKeyName] == Some(f[RowKeyName]);
    assert e[PartitionKeyName].Some? && e[PartitionKeyName].value.VString?;
  }
}

=== FILE: table_store.dfy ===
/**
 * The entity store as the handlers see it: a map from the composite key
 * (PartitionKey, RowKey) to a schema-less property map, written by upserts in
 * merge or replace mode.
 *
 * An entity under construction (`Azure.Data.TableEntity`) is one dictionary
 * that also holds the two key properties; a C# `null` property value is kept
 * in it as `None`. The store persists no null values: on replace a null is
 * the same as an absent property, and on merge it leaves the stored value
 * alone.
 */
module TableStore {
  import opened Wrappers
  import Json

  /** A point in time, in ticks. */
  datatype Instant = Instant(ticks: int)

  /** A `decimal`: `unscaled / 10^scale`. */
  datatype Decimal = Decimal(unscaled: int, scale: nat)

  /** The property kinds the handlers write. */
  datatype Value =
    | VString(s: string)
    | VInt64(i: Json.Int64)
    | VDouble(literal: Json.Number)   // floating point is not modelled: the literal stands for the double
    | VBool(b: bool)
    | VDecimal(d: Decimal)
    | VTime(t: Instant)

  /** A `TableEntity` being built: property name to value, `None` for null. */
  type Bag = map<string, Option<Value>>

  /** The properties of a stored entity. */
  type Fields = map<string, Value>

  datatype Key = Key(partition: string, row: string)

  type Table = map<Key, Fields>

  /** `TableUpdateMode`. */
  datatype Mode = Merge | Replace

  /** An error the store reports (`RequestFailedException.ErrorCode` and message). */
  datatype StoreError = StoreError(code: string, message: string)

  const PartitionKeyName: string := "PartitionKey"
  const RowKeyName: string := "RowKey"

  /** `new TableEntity(pk, rk)`. */
  function NewEntity(pk: string, rk: string): (bag: Bag)
    ensures KeyOf(bag) == Some(Key(pk, rk))
    ensures Payload(bag) == map[]
  {
    map[PartitionKeyName := Some(VString(pk)), RowKeyName := Some(VString(rk))]
  }

  /** The key an upsert writes under; `None` when a key property is missing or not a string (the SDK throws). */
  function KeyOf(bag: Bag): Option<Key> {
    if PartitionKeyName in bag && RowKeyName in bag
       && bag[PartitionKeyName].Some? && bag[PartitionKeyName].value.VString?
       && bag[RowKeyName].Some? && bag[RowKeyName].value.VString?
    then Some(Key(bag[PartitionKeyName].value.s, bag[RowKeyName].value.s))
    else None
  }

  /** The properties an upsert sends: everything but the keys and the nulls. */
  function Payload(bag: Bag): (f: Fields)
    ensures forall n :: n in f <==> n in bag && bag[n].Some? && n != PartitionKeyName && n != RowKeyName
    ensures forall n :: n in f ==> f[n] == bag[n].value
  {
    map n | n in bag && bag[n].Some? && n != PartitionKeyName && n != RowKeyName :: bag[n].value
  }

  /** Every field of `f` as a non-null bag entry. */
  function Lift(f: Fields): (bag: Bag)
    ensures bag.Keys == f.Keys
    ensures forall n :: n in f ==> bag[n] == Some(f[n])
  {
    map n | n in f :: Some(f[n])
  }

  /** Adding non-key properties to a new entity keeps its key and makes them its whole payload. */
  lemma NewEntityWith(pk: string, rk: string, f: Fields)
    requires PartitionKeyName !in f && RowKeyName !in f
    ensures KeyOf(NewEntity(pk, rk) + Lift(f)) == Some(Key(pk, rk))
    ensures Payload(NewEntity(pk, rk) + Lift(f)) == f
  {
    var e := NewEntity(pk, rk) + Lift(f);
    assert e[PartitionKeyName] == Some(VString(pk)) && e[RowKeyName] == Some(VString(rk));
    assert Payload(e).Keys == f.Keys;
  }

  /** The stored value of property `name` of the row under `key`, if any. */
  function Get(t: Table, key: Key, name: string): Option<Value> {
    if key in t && name in t[key] then Some(t[key][name]) else None
  }

  /** `UpsertEntityAsync(entity, mode)` once the key is known. */
  function Upsert(t: Table, key: Key, f: Fields, mode: Mode): (r: Table)
    ensures r.Keys == t.Keys + {key}
    ensures forall k :: k in t && k != key ==> r[k] == t[k]
    ensures mode == Replace ==> r[key] == f
    ensures mode == Merge ==> forall n :: n in r[key] <==> n in f || (key in t && n in t[key])
    ensures mode == Merge ==> forall n :: n in f ==> r[key][n] == f[n]
    ensures mode == Merge && key in t ==> forall n :: n in t[key] && n !in f ==> r[key][n] == t[key][n]
  {
    match mode
    case Replace => t[key := f]
    case Merge => t[key := (if key in t then t[key] else map[]) + f]
  }

  /** After a merge, a property of the written row is the merged value or else the one stored before. */
  lemma MergeGet(t: Table, key: Key, f: Fields)
    ensures forall n :: n in f ==> Get(Upsert(t, key, f, Merge), key, n) == Some(f[n])
    ensures forall n :: n !in f ==> Get(Upsert(t, key, f, Merge), key, n) == Get(t, key, n)
  {
  }

  /** Merging the same fields twice is merging them once. */
  lemma MergeIdempotent(t: Table, key: Key, f: Fields)
    ensures Upsert(Upsert(t, key, f, Merge), key, f, Merge) == Upsert(t, key, f, Merge)
  {
    var once := Upsert(t, key, f, Merge);
    assert Upsert(once, key, f, Merge)[key] == once[key];
  }
}

=== FILE: text.dfy ===
/**
 * The string operations of the .NET base library that the handlers rely on:
 * `Trim`, `Trim(char)`, `Replace`, `Split(..., RemoveEmptyEntries)`,
 * `IsNullOrWhiteSpace`, ordinal and ordinal-ignore-case comparison, ASCII
 * case mapping, `Contains` and `StartsWith`.
 *
 * Strings are `seq<char>`; a Dafny `char` is a Unicode scalar value, so one
 * character here is one UTF-16 code unit for every character of the basic
 * multilingual plane.
 */
module Text {

  /** `char.IsWhiteSpace`: the Unicode separators plus the C0/C1 layout controls. */
  predicate IsWhiteSpace(c: char) {
    || ('\U{0009}' <= c <= '\U{000D}')
    || c == '\U{0020}' || c == '\U{0085}' || c == '\U{00A0}' || c == '\U{1680}'
    || ('\U{2000}' <= c <= '\U{200A}')
    || c == '\U{2028}' || c == '\U{2029}' || c == '\U{202F}' || c == '\U{205F}' || c == '\U{3000}'
  }

  /** `string.IsNullOrWhiteSpace` for a non-null string. */
  predicate IsBlank(s: string) {
    forall i :: 0 <= i < |s| ==> IsWhiteSpace(s[i])
  }

  /** How many leading characters satisfy `drop`. */
  function LeadingCount(s: string, drop: char -> bool): (k: nat)
    ensures k <= |s|
    ensures forall i :: 0 <= i < k ==> drop(s[i])
    ensures k < |s| ==> !drop(s[k])
  {
    if |s| > 0 && drop(s[0]) then 1 + LeadingCount(s[1..], drop) else 0
  }

  /** How many trailing characters satisfy `drop`. */
  function TrailingCount(s: string, drop: char -> bool): (k: nat)
    ensures k <= |s|
    ensures forall i :: |s| - k <= i < |s| ==> drop(s[i])
    ensures k < |s| ==> !drop(s[|s| - k - 1])
  {
    if |s| > 0 && drop(s[|s| - 1]) then 1 + TrailingCount(s[..|s| - 1], drop) else 0
  }

  /** Drops the characters satisfying `drop` at both ends. */
  function TrimWhere(s: string, drop: char -> bool): (r: string)
    ensures var k := LeadingCount(s, drop);
            && k + |r| <= |s| && r == s[k..k + |r|]
            && (forall i :: 0 <= i < k ==> drop(s[i]))
            && (forall i :: k + |r| <= i < |s| ==> drop(s[i]))
    ensures r == [] || (!drop(r[0]) && !drop(r[|r| - 1]))
  {
    var k := LeadingCount(s, drop);
    var t := s[k..];
    t[..|t| - TrailingCount(t, drop)]
  }

  /** Trimming leaves a string alone when neither end is to be dropped. */
  lemma TrimNothing(s: string, drop: char -> bool)
    requires s == [] || (!drop(s[0]) && !drop(s[|s| - 1]))
    ensures TrimWhere(s, drop) == s
  {
    if s != [] {
      assert LeadingCount(s, drop) == 0;
      assert TrailingCount(s, drop) == 0;
    }
  }

  /** `string.Trim()`. */
  function Trim(s: string): string {
    TrimWhere(s, IsWhiteSpace)
  }

  /** The test "is the character `c`", as a predicate value. */
  function Is(c: char): char -> bool {
    x => x == c
  }

  /** `string.Trim(char)`. */
  function TrimChar(s: string, c: char): string {
    TrimWhere(s, Is(c))
  }

  /** A trimmed string is blank only when it is empty. */
  lemma TrimmedBlankIsEmpty(s: string)
    ensures IsBlank(Trim(s)) <==> Trim(s) == []
    ensures IsBlank(s) <==> Trim(s) == []
  {
    var r := Trim(s);
    if r != [] {
      assert !IsWhiteSpace(r[0]);
      var k := LeadingCount(s, IsWhiteSpace);
      assert s[k] == r[0];
    }
  }

  /** `string.Replace(char, char)`: every `from` becomes `to`, nothing else moves. */
  function ReplaceChar(s: string, from: char, to: char): (r: string)
    ensures |r| == |s|
    ensures forall i :: 0 <= i < |s| ==> r[i] == (if s[i] == from then to else s[i])
  {
    seq(|s|, i requires 0 <= i < |s| => if s[i] == from then to else s[i])
  }

  /** The index of the first `c` in `s`, or `|s|` when there is none. */
  function IndexOf(s: string, c: char): (i: nat)
    ensures i <= |s|
    ensures c !in s[..i]
    ensures i < |s| ==> s[i] == c
  {
    if |s| == 0 then 0
    else if s[0] == c then 0
    else 1 + IndexOf(s[1..], c)
  }

  /** `s.Split(sep, StringSplitOptions.RemoveEmptyEntries)`. */
  function SplitNonEmpty(s: string, sep: char): (parts: seq<string>)
    ensures forall i :: 0 <= i < |parts| ==> |parts[i]| > 0 && sep !in parts[i]
    ensures forall i, c :: 0 <= i < |parts| && c in parts[i] ==> c in s
    decreases |s|
  {
    var i := IndexOf(s, sep);
    var head := if i == 0 then [] else [s[..i]];
    assert forall c :: c in s[..i] ==> c in s;
    if i == |s| then head
    else
      assert forall c :: c in s[i + 1..] ==> c in s;
      head + SplitNonEmpty(s[i + 1..], sep)
  }

  /** `string.Join(sep, parts)`. */
  function Join(parts: seq<string>, sep: char): string {
    if |parts| == 0 then []
    else if |parts| == 1 then parts[0]
    else parts[0] + [sep] + Join(parts[1..], sep)
  }

  /** Parts that survive a split: non-empty and free of the separator. */
  predicate Splittable(parts: seq<string>, sep: char) {
    forall i :: 0 <= i < |parts| ==> |parts[i]| > 0 && sep !in parts[i]
  }

  /** Splitting undoes joining whenever the parts are non-empty and separator-free. */
  lemma {:induction false} SplitJoin(parts: seq<string>, sep: char)
    requires Splittable(parts, sep)
    ensures SplitNonEmpty(Join(parts, sep), sep) == parts
    decreases |parts|
  {
    if |parts| == 0 {
    } else if |parts| == 1 {
      var s := parts[0];
      assert Join(parts, sep) == s;
      assert IndexOf(s, sep) == |s|;
      assert s[..|s|] == s;
    } else {
      var p := parts[0];
      var rest := Join(parts[1..], sep);
      var s := p + [sep] + rest;
      assert Join(parts, sep) == s;
      var i := IndexOf(s, sep);
      assert s[|p|] == sep;
      assert i == |p|;
      assert s[..i] == p;
      assert s[i + 1..] == rest;
      SplitJoin(parts[1..], sep);
    }
  }

  /** A join of non-empty parts starts with the first part's first character and ends with the last part's last. */
  lemma {:induction false} JoinEnds(parts: seq<string>, sep: char)
    requires |parts| > 0 && Splittable(parts, sep)
    ensures var s := Join(parts, sep);
            |s| > 0 && s[0] == parts[0][0] && s[|s| - 1] == parts[|parts| - 1][|parts[|parts| - 1]| - 1]
    decreases |parts|
  {
    if |parts| > 1 {
      var rest := parts[1..];
      JoinEnds(rest, sep);
      var j := Join(rest, sep);
      assert Join(parts, sep) == parts[0] + [sep] + j;
      assert rest[|rest| - 1] == parts[|parts| - 1];
    }
  }

  /** A character in none of the parts, and not the separator, is not in their join. */
  lemma {:induction false} JoinAvoids(parts: seq<string>, sep: char, c: char)
    requires c != sep && forall i :: 0 <= i < |parts| ==> c !in parts[i]
    ensures c !in Join(parts, sep)
    decreases |parts|
  {
    if |parts| > 1 {
      JoinAvoids(parts[1..], sep, c);
    }
  }

  /** Replacing a character that does not occur changes nothing. */
  lemma ReplaceAbsent(s: string, from: char, to: char)
    requires from !in s
    ensures ReplaceChar(s, from, to) == s
  {
  }

  /** ASCII `ToLowerInvariant` of one character. */
  function LowerChar(c: char): char {
    if 'A' <= c <= 'Z' then (c as int + 32) as char else c
  }

  /** ASCII `ToUpperInvariant` of one character. */
  function UpperChar(c: char): char {
    if 'a' <= c <= 'z' then (c as int - 32) as char else c
  }

  /** ASCII `ToLowerInvariant`. */
  function Lower(s: string): (r: string)
    ensures |r| == |s|
    ensures forall i :: 0 <= i < |s| ==> r[i] == LowerChar(s[i])
  {
    seq(|s|, i requires 0 <= i < |s| => LowerChar(s[i]))
  }

  /** `string.Equals(a, b, StringComparison.OrdinalIgnoreCase)`, ASCII case folding. */
  predicate EqualsIgnoreCase(a: string, b: string) {
    |a| == |b| && forall i :: 0 <= i < |a| ==> UpperChar(a[i]) == UpperChar(b[i])
  }

  /** Lower-casing is idempotent. */
  lemma LowerIdempotent(s: string)
    ensures Lower(Lower(s)) == Lower(s)
  {
  }

  /** Two strings that agree ignoring case lower-case to the same string. */
  lemma EqualsIgnoreCaseLower(a: string, b: string)
    ensures EqualsIgnoreCase(a, b) <==> Lower(a) == Lower(b)
  {
    if Lower(a) == Lower(b) {
      forall i | 0 <= i < |a|
        ensures UpperChar(a[i]) == UpperChar(b[i])
      {
        assert Lower(a)[i] == Lower(b)[i];
      }
    }
  }

  /** `s.StartsWith(p, StringComparison.Ordinal)`. */
  predicate IsPrefix(p: string, s: string) {
    |p| <= |s| && s[..|p|] == p
  }

  /** `sub` occurs in `s` starting at index `i`. */
  predicate OccursAt(s: string, sub: string, i: int) {
    0 <= i && i + |sub| <= |s| && s[i..i + |sub|] == sub
  }

  /** `s.Contains(sub)` (ordinal). */
  predicate Contains(s: string, sub: string) {
    exists i :: 0 <= i <= |s| && OccursAt(s, sub, i)
  }

  /** A prefix is contained. */
  lemma PrefixIsContained(p: string, s: string)
    requires IsPrefix(p, s)
    ensures Contains(s, p)
  {
    assert OccursAt(s, p, 0);
  }

  /** Ordinal string order, `string.CompareOrdinal(a, b) < 0`. */
  predicate Less(a: string, b: string)
    decreases |a|
  {
    if |a| == 0 then |b| > 0
    else if |b| == 0 then false
    else if a[0] != b[0] then a[0] < b[0]
    else Less(a[1..], b[1..])
  }

  /** `string.CompareOrdinal(a, b) <= 0`. */
  predicate LessOrEqual(a: string, b: string) {
    a == b || Less(a, b)
  }
}

=== FILE: wrappers.dfy ===
/** Failure-carrying datatypes shared by every handler model. */
module Wrappers {

  /** A value that may be absent; stands for a C# reference that may be null. */
  datatype Option<+T> = None | Some(value: T) {

    /** The `??` operator: the value when present, otherwise the fallback. */
    function GetOr(fallback: T): (r: T)
      ensures Some? ==> r == value
      ensures None? ==> r == fallback
    {
      match this
      case Some(v) => v
      case None => fallback
    }
  }

  /** The outcome of a step that may throw. */
  datatype Result<+T, +E> = Success(value: T) | Failure(error: E) {

    predicate IsFailure() {
      Failure?
    }

    function PropagateFailure<U>(): Result<U, E>
      requires Failure?
    {
      Failure(error)
    }

    function Extract(): T
      requires Success?
    {
      value
    }
  }
}
